=== FILE: README.md ===
# Classroom scheduler: a Dafny model of its client-side logic

The classroom scheduler is an Angular front end. Faculty use it to book
rooms and administrators use it to review the bookings. Almost all of it is
HTTP calls and templates. This project models the sequential logic that sits
between those calls. Every operation is a pure function over immutable
records: a component's state is a datatype, and each event handler is a
transition from one state to the next. The replies the server would send are
parameters.

The modules follow the program's structure:

- **Wrappers, Seqs, Text, Js**: the JavaScript building blocks the code
  relies on.
  - `Option`.
  - `Array.prototype.filter` and `findIndex`, and the order-preserving
    sub-list relation.
  - String functions: `split`, `parseInt`, `Number`, `padStart`,
    `toLowerCase`, `includes`, `trim`.
  - `localeCompare` order, modelled as code-unit order.
  - The JavaScript values a table row is seen as, and the shared
    `getNestedValue` helper.
- **TimeFormat**: `formatTimeTo12Hour` (utils/timeFormatter.ts), the
  add-booking form's `formatTime`, and the statistics page's
  `parseTimeSlot`. It also proves the round trip through all three.
- **Sorting, Searching, RoomPipes**: `sortData`, `searchData`, and the two
  room pipes.
- **Paging, Selection, TableView**: the list pipeline that five list
  components each copy:
  - search, then sort, then paginate;
  - the five-page window;
  - the sort toggle;
  - page changes;
  - the check-box selection;
  - status updates and removals applied to the local list.
- **ManageSchedule, ManageRequest, ScheduleList, MySchedule, RequestList**:
  each list component as a state record over the shared table. Each one
  keeps the quirks of its own code.
- **Statistics**: the room-occupancy grid:
  - a fixed template of 29 half-hour slot labels;
  - the bookings kept for one room and day;
  - marking each slot that a booking covers on `[start, end)`, with the
    last covering booking winning.
- **ScheduleApi**: the request shapes, and the way `handleError` turns an
  HTTP error into the message the components display.
- **AddSchedule**: the booking form:
  - the weekday picker;
  - the rooms offered once a building is chosen;
  - `onSubmit`, which builds an update, a single booking, a recurring
    booking or nothing.

Two defects of the code are modelled as written, each next to a corrected
definition (see "## Findings"):

- `deleteSchedule` on the booking list sends a delete request as soon as it
  is called, and a second one when the dialog is confirmed. See
  `ScheduleList.DeleteWithoutConfirmation` and `ScheduleList.ConfirmSendsTwice`;
  the corrected `ScheduleList.DeleteScheduleConfirmed` sends one request, and
  only on confirmation.
- The bulk-delete dialog of the management list deletes however the dialog
  is closed. See `ManageSchedule.BulkDeleteOnAnyClose`; the corrected
  `ManageSchedule.OpenBulkDeleteConfirmed` deletes only when the dialog
  closes with a truthy value. The page's `Step` keeps the delete as
  written; `ManageSchedule.StepCorrected` is the page with the correction.

## Model

| member | source | states |
|---|---|---|
| Text.NatToString | src/app/utils/timeFormatter.ts:20 | the decimal text of a number: digits only, no leading zero, one digit exactly below 10 |
| Text.DigitsOfNatToString | src/app/utils/timeFormatter.ts:20 | reading the decimal text of `n` back gives `n` |
| Text.PadStart2 | src/app/components/add-schedule/add-schedule.component.ts:529-531 | `padStart(2, '0')`: text of length 2 or more is unchanged; shorter text is left-filled with '0' to length 2 and ends with the input |
| Text.PaddedDigits | src/app/components/add-schedule/add-schedule.component.ts:529-531 | a number below 100, padded, is two digits whose value is the number |
| Text.TrimStart | src/app/utils/searchTable.ts:10 | the result is a suffix of the input that starts with a non-space, and what was dropped is all white space |
| Text.TrimEnd | src/app/utils/searchTable.ts:10 | the result is a prefix of the input that ends with a non-space, and what was dropped is all white space |
| Text.DigitPrefix | src/app/utils/timeFormatter.ts:12 | the digits `parseInt` reads: a digit-only prefix that is followed by a non-digit or by the end |
| Text.ParseIntOfDigits | src/app/utils/timeFormatter.ts:12 | `parseInt` of digits followed by a non-digit yields the value of the digits |
| Text.ToNumberOfDigits | src/app/components/statistics/statistics.component.ts:225 | `Number` of a digit string yields its value |
| Text.Split | src/app/utils/sortTable.ts:37 | `split(sep)` gives at least one piece and no piece contains the separator |
| Text.SplitJoin | src/app/utils/sortTable.ts:37 | joining the pieces of a split with the separator gives back the text |
| Text.SplitAtSeparator | src/app/utils/sortTable.ts:37 | text before the first separator is the first piece and the rest is split on its own |
| Text.ToLower | src/app/utils/searchTable.ts:14 | `toLowerCase` keeps the length and lowers each character in place |
| Text.Includes | src/app/utils/searchTable.ts:25 | `includes(t)` holds exactly when `t` occurs at some position |
| Text.StrLessIrreflexive | src/app/utils/sortTable.ts:25 | no string sorts before itself |
| Text.StrLessTransitive | src/app/utils/sortTable.ts:25 | the string order is transitive |
| Text.StrLessTotal | src/app/utils/sortTable.ts:25 | of two different strings, one sorts before the other |
| Text.StrLessAsymmetric | src/app/utils/sortTable.ts:25 | two strings never sort before each other |
| Js.WalkFromNull | src/app/utils/sortTable.ts:39 | once a step has yielded null, every later step yields null |
| Js.WalkResolves | src/app/utils/sortTable.ts:38-41 | the `reduce` over the path keys equals following the keys through objects, with null when a step is missing; a non-empty path never yields undefined |
| Js.GetNestedValueResolves | src/app/utils/sortTable.ts:36-42 | `getNestedValue` follows the dotted path and yields null as soon as a step is missing; it never yields undefined |
| Js.GetNestedValueOfColumn | src/app/utils/searchTable.ts:31-37 | for an undotted column of an object: the field when it is present and defined, otherwise null |
| TimeFormat.FormatTimeTo12Hour | src/app/utils/timeFormatter.ts:7-21 | the label is empty exactly when the input is empty |
| TimeFormat.Hour12 | src/app/utils/timeFormatter.ts:18 | the display hour lies in 1..12 and agrees with the hour modulo 12, so 0 shows as 12 |
| TimeFormat.Period | src/app/utils/timeFormatter.ts:15 | "PM" exactly when the hour is at least 12, and "AM" exactly when it is below 12 |
| TimeFormat.FormatTimeTo12HourShape | src/app/utils/timeFormatter.ts:11-20 | "hh:mm[:…]" becomes the 12-hour display hour, ":", the minutes text unchanged, " " and the period; seconds are dropped |
| TimeFormat.FormatTimeTo12HourMorning | src/app/utils/timeFormatter.ts:3-4 | "09:00:00" becomes "9:00 AM" |
| TimeFormat.FormatTimeTo12HourAfternoon | src/app/utils/timeFormatter.ts:3-4 | "14:30:00" becomes "2:30 PM" |
| TimeFormat.FormatTimeTo12HourNaN | src/app/utils/timeFormatter.ts:12-18 | an hour that does not parse gives hour 12 and "AM" |
| TimeFormat.LabelOf | src/app/utils/timeFormatter.ts:11-20 | a stored "HH:MM:00" time becomes the 12-hour label of its hour and minutes |
| TimeFormat.ParseTimeSlotLabel | src/app/components/statistics/statistics.component.ts:224-231 | "12:mm AM" is hour 0, "12:mm PM" is hour 12, "h:mm PM" with h ≠ 12 is h + 12, "h:mm AM" is h; the minutes are kept |
| TimeFormat.ParseDigitsLabel | src/app/components/statistics/statistics.component.ts:224-231 | a label "h:mm P" parses to the 24-hour conversion of its digits and its minutes |
| TimeFormat.TwoDigits | src/app/components/add-schedule/add-schedule.component.ts:529-531 | a number below 100 as two digits whose value is the number |
| TimeFormat.FormatTimeShape | src/app/components/add-schedule/add-schedule.component.ts:516-532 | `{hour, minute}` becomes zero-padded "HH:MM:00", eight characters long |
| TimeFormat.FormatTimeFormsAgree | src/app/components/add-schedule/add-schedule.component.ts:516-532 | the text form "H:M" (padded or not) and the `{hour, minute}` form give the same stored time |
| TimeFormat.FormatTimeIdempotent | src/app/components/add-schedule/add-schedule.component.ts:520-531 | formatting an already stored time again leaves it unchanged |
| TimeFormat.ReadTwoNumbers | src/app/components/add-schedule/add-schedule.component.ts:520-523 | the text form reads the hour and minutes before and after the first ':' and ignores anything after a second ':' |
| TimeFormat.ClockOfFormatTime | src/app/components/statistics/statistics.component.ts:130-131 | a stored time of hour h and minute m is `h*3600 + m*60` seconds into the day |
| TimeFormat.To24HourOf12 | src/app/components/statistics/statistics.component.ts:227-231 | converting the 12-hour display hour and period back gives the 24-hour hour |
| TimeFormat.RoundTrip | src/app/utils/timeFormatter.ts:15-20 | for every hour 0..23 and minute 0..59: store, show in 12-hour form and parse the label back, and the hour and minute are recovered |
| Sorting.ToPrimitive | src/app/utils/sortTable.ts:30 | the values `<` compares are never objects |
| Sorting.Compare | src/app/utils/sortTable.ts:15-32 | the comparator is 0 exactly on equal values; for two different strings or two different numbers it is negative exactly when the first sorts first in the chosen direction |
| Sorting.CompareDirections | src/app/utils/sortTable.ts:24-31 | equal keys compare as 0 in both directions, and 'desc' is the exact negation of 'asc' |
| Sorting.CompareAntisymmetric | src/app/utils/sortTable.ts:19-31 | for keys of one kind, swapping the arguments negates the comparison |
| Sorting.AscNotAfter | src/app/utils/sortTable.ts:24-30 | 'asc' puts `a` no later than `b` exactly when `a` is equal to or smaller than `b` in string or number order |
| Sorting.CompareTransitive | src/app/utils/sortTable.ts:19-31 | for keys of one kind, "not after" is transitive |
| Sorting.Insert | src/app/utils/sortTable.ts:15 | insertion adds exactly the one element (multiset) |
| Sorting.SortBy | src/app/utils/sortTable.ts:15 | the sorted copy is a permutation of the input |
| Sorting.SortData | src/app/utils/sortTable.ts:10-33 | an empty column returns the input itself; otherwise the result is a permutation of the input |
| Sorting.SortBySorted | src/app/utils/sortTable.ts:15-32 | when all keys are of one kind, the sorted copy is ordered by the comparator |
| Sorting.SortDataSorted | src/app/utils/sortTable.ts:10-33 | for a set column whose values are of one kind: the result is 'asc'-non-decreasing or 'desc'-non-increasing by the column value, and a permutation of the input |
| Sorting.SortedStrings | src/app/utils/sortTable.ts:24-26 | in a sorted list with string keys, earlier keys are equal or smaller ('asc') or equal or larger ('desc') |
| Seqs.Any | src/app/utils/searchTable.ts:17 | `some` holds exactly when one element satisfies the predicate |
| Searching.SomeColumnMatches | src/app/utils/searchTable.ts:17-26 | `some` over the columns holds exactly when one listed column matches |
| Searching.SearchData | src/app/utils/searchTable.ts:5-27 | a blank term returns the input unchanged; otherwise every kept item matches the lower-cased term |
| Searching.SearchDataKeeps | src/app/utils/searchTable.ts:16-26 | for a non-blank term, an item is kept exactly when it is in the input and some listed column's non-null value, lower-cased, contains the lower-cased term |
| Searching.SearchDataSubsequence | src/app/utils/searchTable.ts:16 | the result is an order-preserving sub-list of the input |
| Searching.AbsentNeverMatches | src/app/utils/searchTable.ts:19-21 | a null or undefined column value never matches |
| Searching.SearchNoColumns | src/app/utils/searchTable.ts:17 | no columns and a non-blank term give an empty result |
| Searching.TermNotTrimmed | src/app/utils/searchTable.ts:14 | the term is not trimmed: a one-word value does not match that word with a space after it |
| RoomPipes.Buildings | src/app/utils/roomPipes.ts:13 | the building of each room, in order |
| RoomPipes.RoomsByBuilding | src/app/utils/roomPipes.ts:9-17 | no rooms give no buildings |
| RoomPipes.RoomsByBuildingSpec | src/app/utils/roomPipes.ts:13-16 | a name is listed exactly when some room is in that building, and the list is strictly increasing (sorted, no duplicates) |
| RoomPipes.FilterByBuilding | src/app/utils/roomPipes.ts:25-31 | no rooms or an empty building give no rooms |
| RoomPipes.FilterByBuildingSpec | src/app/utils/roomPipes.ts:28-30 | the result holds exactly the rooms of that building, as many times as in the input, ordered by room number |
| RoomPipes.RoomsOfSpec | src/app/components/add-schedule/add-schedule.component.ts:295-297 | the filter-then-sort the add dialog shares with the pipe: exactly that building's rooms, with multiplicity, by room number |
| Domain.BuildingOf | src/app/components/manage-schedule/manage-schedule.component.ts:86-89 | never empty; the building of a room with the booking's room id, or "N/A"; "N/A" when no room has that id |
| Domain.WithBuildings | src/app/components/manage-schedule/manage-schedule.component.ts:85-91 | one row per booking, in order, each carrying its booking and that booking's building |
| Paging.TotalPages | src/app/components/manage-schedule/manage-schedule.component.ts:380-382 | the least number of pages of k rows that holds n rows; 0 exactly when there are no rows |
| Paging.Clamp | src/app/components/manage-schedule/manage-schedule.component.ts:385-387 | a page up to the total is kept; one past the total becomes the last page, or 1 when there are none |
| Paging.JsSlice | src/app/components/manage-schedule/manage-schedule.component.ts:395-398 | `slice` with in-range bounds is the sub-sequence between them |
| Paging.Offset | src/app/components/manage-schedule/manage-schedule.component.ts:390 | the first index of a page from 1 on is not negative |
| Paging.PageIsSlice | src/app/components/manage-schedule/manage-schedule.component.ts:389-398 | the page is the contiguous slice `[(p-1)k, min(pk, n))`, at most k rows, exactly k before the last page, and not empty when there are rows |
| Paging.PageLocates | src/app/components/manage-schedule/manage-schedule.component.ts:379-398 | every row appears on page `i/k + 1` at position `i mod k` |
| Paging.Paginate | src/app/components/manage-schedule/manage-schedule.component.ts:379-398 | ceiling page count; page clamped into range; no rows give 0 pages, page 1 and an empty page; the page is the contiguous slice at the clamped offset |
| Paging.Range | src/app/components/manage-schedule/manage-schedule.component.ts:437-439 | the consecutive numbers from `lo` to `hi` |
| Paging.PageArrayWindow | src/app/components/manage-schedule/manage-schedule.component.ts:431-465 | `getPageArray` lists min(5, total) consecutive pages, all in 1..total, including the current page when it is in range |
| Selection.LookupFound | src/app/components/manage-schedule/manage-schedule.component.ts:468 | reading `selected[id]` finds a flag exactly when some entry has the id, and then it is that entry's flag |
| Selection.Put | src/app/components/manage-schedule/manage-schedule.component.ts:484 | the assigned entry is present and every other entry was there before, with the keys still in ascending order |
| Selection.PutLookup | src/app/components/manage-schedule/manage-schedule.component.ts:484 | after the assignment the id reads the new flag and every other id reads what it read before |
| Selection.Toggle | src/app/components/manage-schedule/manage-schedule.component.ts:468 | the id's flag flips (a missing flag counts as off) and every other id is unchanged |
| Selection.PutAll | src/app/components/manage-schedule/manage-schedule.component.ts:483-485 | the listed ids map to the new flag and all others are unchanged |
| Selection.TrueEntries | src/app/components/manage-request/manage-request.component.ts:64-65 | exactly the entries whose flag is true |
| Selection.CountSelected | src/app/components/manage-request/manage-request.component.ts:60-62 | no more than the number of entries |
| Selection.SelectedIds | src/app/components/manage-request/manage-request.component.ts:63-67 | the ids flagged true, exactly, and as many as the count of true flags |
| Selection.SelectedIdsAscending | src/app/components/manage-request/manage-request.component.ts:63-67 | the ids come out in ascending order, as `Object.entries` lists integer keys |
| TableView.Arrange | src/app/components/manage-schedule/manage-schedule.component.ts:365-377 | the search-then-sort result holds exactly the rows that pass the search; a blank term keeps a permutation of all rows; a blank term and no sort column keep the rows as they are |
| TableView.ApplyFilters | src/app/components/manage-schedule/manage-schedule.component.ts:356-402 | no rows give empty lists and one page; otherwise the filtered rows are the passing ones and the page is the paginated slice; the page never holds more than the page size |
| TableView.ApplyFiltersIdempotent | src/app/components/manage-schedule/manage-schedule.component.ts:356-402 | recomputing the view a second time changes nothing |
| TableView.ToggleSort | src/app/components/manage-schedule/manage-schedule.component.ts:309-317 | the same column flips the direction; a new column starts 'asc' |
| TableView.ToggleSortTwice | src/app/components/manage-schedule/manage-schedule.component.ts:309-317 | clicking the sorted column twice restores the sort |
| TableView.Sort | src/app/components/manage-schedule/manage-schedule.component.ts:309-319 | the sort state is toggled and the list kept |
| TableView.Search | src/app/components/manage-schedule/manage-schedule.component.ts:339-351 | the term is stored; a blank term shows every row |
| TableView.ChangePage | src/app/components/manage-schedule/manage-schedule.component.ts:408-413 | a page outside 1..total leaves the view unchanged |
| TableView.ChangePageLands | src/app/components/manage-schedule/manage-schedule.component.ts:408-413 | a page in range becomes the current page and its rows are shown |
| TableView.ChangePageSize | src/app/components/manage-schedule/manage-schedule.component.ts:419-425 | the new size is set and the view goes back to page 1 |
| TableView.Load | src/app/components/manage-schedule/manage-schedule.component.ts:80-97 | the loaded rows replace the list; no rows give empty view lists |
| TableView.RemoveIds | src/app/components/manage-schedule/manage-schedule.component.ts:529 | a row is kept exactly when its id is not among the removed ones |
| TableView.RemoveIdMembers | src/app/components/manage-schedule/manage-schedule.component.ts:237-239 | removing one id keeps exactly the rows with another id |
| TableView.RemoveIdsKeepsOrder | src/app/components/manage-schedule/manage-schedule.component.ts:529 | the kept rows stay in their order |
| TableView.WithStatus | src/app/components/manage-request/manage-request.component.ts:134 | only the status changes |
| TableView.SetStatus | src/app/components/manage-request/manage-request.component.ts:130-135 | ids keep their places; an unknown id changes nothing; the first row with the id takes the new status |
| TableView.SetStatuses | src/app/components/manage-request/manage-request.component.ts:409-416 | ids keep their places and rows no update names stay as they are |
| TableView.SetStatusesLastWins | src/app/components/manage-request/manage-request.component.ts:409-416 | with unique ids, a row ends with the status of the last update that names it |
| TableView.UniqueAfterSetStatus | src/app/components/manage-request/manage-request.component.ts:130-135 | unique ids stay unique; the matching row takes the status and every other row is unchanged |
| TableView.Mirror | src/app/components/manage-request/manage-request.component.ts:134 | a view list showing the changed record shows the new record in its place and everything else as before |
| TableView.ApplyStatus | src/app/components/request/request.component.ts:120-128 | the booking list takes the new status; search, sort, page, size and page count stay; the view lists keep their lengths, and their rows with other ids are unchanged |
| TableView.ApplyStatusShowsStatus | src/app/components/request/request.component.ts:120-128 | with unique ids and view lists drawn from the booking list, every view row with the id shows the new status and nothing else changes in it |
| TableView.SelectAllState | src/app/components/manage-schedule/manage-schedule.component.ts:491-500 | "select all" is ticked exactly when the page is non-empty and every row on it is selected |
| TableView.AddedRows | src/app/components/manage-schedule/manage-schedule.component.ts:125-150 | no result adds nothing; one booking or a list of bookings each becomes a row with its building, in order |
| ManageSchedule.Refresh | src/app/components/manage-schedule/manage-schedule.component.ts:356-402 | the table pipeline, then "select all" recomputed for the new page unless the list is empty |
| ManageSchedule.Loaded | src/app/components/manage-schedule/manage-schedule.component.ts:71-100 | the old error message is cleared, the loaded rooms are kept and each booking becomes a row with its room's building |
| ManageSchedule.LoadFailed | src/app/components/manage-schedule/manage-schedule.component.ts:101-104 | a failed load sets the load error and leaves the list as it was |
| ManageSchedule.Sort | src/app/components/manage-schedule/manage-schedule.component.ts:309-319 | the sort state is toggled; the ticked boxes and the stored count are kept |
| ManageSchedule.Search | src/app/components/manage-schedule/manage-schedule.component.ts:339-351 | the new term is stored; a blank term, as `clearSearch` sets, shows every booking |
| ManageSchedule.ChangePage | src/app/components/manage-schedule/manage-schedule.component.ts:408-413 | an out-of-range page leaves the whole page state unchanged; the ticked boxes, on every page, and the stored count are kept |
| ManageSchedule.ChangePageSize | src/app/components/manage-schedule/manage-schedule.component.ts:419-425 | the size is set and the page goes back to 1; the ticked boxes and the stored count are kept |
| ManageSchedule.ToggleSelection | src/app/components/manage-schedule/manage-schedule.component.ts:467-471 | that id's box flips and no other; the count is the number of ticked boxes; "select all" reflects the page |
| ManageSchedule.ToggleSelectAll | src/app/components/manage-schedule/manage-schedule.component.ts:479-488 | "select all" flips; the current page's ids take the new flag and no other id changes; the count is recomputed |
| ManageSchedule.ClearSelections | src/app/components/manage-schedule/manage-schedule.component.ts:503-507 | nothing is selected, the count is 0 and "select all" is off |
| ManageSchedule.PerformBulkDelete | src/app/components/manage-schedule/manage-schedule.component.ts:525-539 | on success exactly the given ids are removed and the selection is cleared; on failure only the error is set |
| ManageSchedule.OpenBulkDelete | src/app/components/manage-schedule/manage-schedule.component.ts:510-522 | a dismissed dialog does nothing; a closed dialog, whatever it returns, deletes the selected ids |
| ManageSchedule.OpenBulkDeleteConfirmed | src/app/components/manage-schedule/manage-schedule.component.ts:510-522 | corrected: the selected ids are deleted only when the dialog closes with a truthy value; a dismissal or a falsy close leaves the state unchanged |
| ManageSchedule.FalsyCloseKeepsBookings | src/app/components/manage-schedule/manage-schedule.component.ts:519-521 | corrected: a dialog closed with a falsy value keeps every booking and every ticked box |
| ManageSchedule.ConfirmedBulkDeleteRemovesTicked | src/app/modals/bulk-action-modal/bulk-action-modal.component.ts:42 | corrected: closing with the confirm button's `true` deletes exactly the ticked bookings |
| ManageSchedule.BulkDeleteOnAnyClose | src/app/components/manage-schedule/manage-schedule.component.ts:519-521 | closing the dialog with any value removes exactly the selected bookings |
| ManageSchedule.BulkDeleteKeepsOrder | src/app/components/manage-schedule/manage-schedule.component.ts:529 | the remaining bookings keep their order |
| ManageSchedule.Deleted | src/app/components/manage-schedule/manage-schedule.component.ts:235-242 | after a successful delete the bookings are exactly the old ones with another id, and the selection and rooms are unchanged |
| ManageSchedule.DeleteSchedule | src/app/components/manage-schedule/manage-schedule.component.ts:211-251 | an unknown id or an unconfirmed dialog does nothing; a confirmed successful delete removes exactly the bookings with that id; a failure keeps the list |
| ManageSchedule.AddClosed | src/app/components/manage-schedule/manage-schedule.component.ts:125-154 | no result changes nothing; otherwise the new rows are appended after the existing ones |
| ManageSchedule.EditClosed | src/app/components/manage-schedule/manage-schedule.component.ts:189-207 | no result or an unknown id changes nothing; otherwise the first booking with that id is replaced by the updated one with its building |
| ManageSchedule.StepKeepsValid | src/app/components/manage-schedule/manage-schedule.component.ts:356-539 | every page event keeps the page at 1 or more and the stored count equal to the number of ticked boxes |
| ManageSchedule.StepCorrected | src/app/components/manage-schedule/manage-schedule.component.ts:510-522 | corrected page: every event acts as on the page as written, except that the bulk-delete dialog deletes only on a truthy close |
| ManageSchedule.StepCorrectedKeepsValid | src/app/components/manage-schedule/manage-schedule.component.ts:356-539 | the corrected page keeps the page at 1 or more and the stored count equal to the number of ticked boxes |
| ManageSchedule.RunKeepsValid | src/app/components/manage-schedule/manage-schedule.component.ts:356-539 | any sequence of page events keeps that invariant |
| ManageRequest.SelectedCount | src/app/components/manage-request/manage-request.component.ts:60-62 | the count equals the number of selected ids |
| ManageRequest.SelectedScheduleIds | src/app/components/manage-request/manage-request.component.ts:63-67 | exactly the ids flagged true, in ascending order |
| ManageRequest.Refresh | src/app/components/manage-request/manage-request.component.ts:220-267 | the table pipeline, then "select all" recomputed unless the list is empty |
| ManageRequest.UpdateStatus | src/app/components/manage-request/manage-request.component.ts:118-142 | the current status changes nothing (no call); a success applies the returned status; a refusal sets "Failed to update status: " and the message |
| ManageRequest.UpdateStatusOnlyMatching | src/app/components/manage-request/manage-request.component.ts:130-135 | after a success only the first booking with the returned id changes, and only in its status |
| ManageRequest.ToggleSelection | src/app/components/manage-request/manage-request.component.ts:340-345 | that id's box flips and no other; "select all" reflects the page |
| ManageRequest.ToggleSelectAll | src/app/components/manage-request/manage-request.component.ts:348-355 | "select all" flips and only the current page's ids take the new flag |
| ManageRequest.ClearSelections | src/app/components/manage-request/manage-request.component.ts:371-374 | nothing is selected and "select all" is off |
| ManageRequest.BatchRequest | src/app/components/manage-request/manage-request.component.ts:401-405 | the batch names exactly the selected ids and the chosen status |
| ManageRequest.ExecuteBulkAction | src/app/components/manage-request/manage-request.component.ts:397-436 | a success copies each returned status into the list and clears the selection; a failure only sets the error |
| ManageRequest.OpenBulkAction | src/app/components/manage-request/manage-request.component.ts:377-394 | nothing happens with no selection or unless the dialog closes with a truthy value; otherwise the bulk action runs |
| ManageRequest.BulkActionCopiesStatuses | src/app/components/manage-request/manage-request.component.ts:409-426 | a booking no update names is unchanged; a named one takes the status of the last update naming it |
| ManageRequest.Sort | src/app/components/manage-request/manage-request.component.ts:199-209 | the sort state is toggled and the ticked boxes are kept |
| ManageRequest.ChangePage | src/app/components/manage-request/manage-request.component.ts:280-285 | an out-of-range page leaves the state unchanged; the ticked boxes are kept |
| ManageRequest.ChangePageSize | src/app/components/manage-request/manage-request.component.ts:291-297 | the size is set and the page goes back to 1 and the ticked boxes are kept |
| ScheduleList.PurposeNeverMatches | src/app/components/schedule/schedule.component.ts:37-45 | the listed `purpose` column, absent from bookings, never matches a search |
| ScheduleList.ImmediateDelete | src/app/components/schedule/schedule.component.ts:251-265 | the reply to the unconditional delete: on success the bookings are exactly the old ones with another id and the view is recomputed; on failure the table stays and the error is set; the record of sent requests is not touched |
| ScheduleList.ConfirmedDelete | src/app/components/schedule/schedule.component.ts:225-248 | the reply to the confirmed delete: on success the id is removed, and with no search and no sort the list is copied to the filtered list and the page is left as it was; on failure the table stays and the error is set |
| ScheduleList.DeleteSchedule | src/app/components/schedule/schedule.component.ts:204-265 | an unknown id does nothing at all; for a known id one delete request is sent, and a second for the same id when the dialog returns it; once the first request succeeds the bookings are exactly the old ones without that id |
| ScheduleList.DeleteScheduleConfirmed | src/app/components/schedule/schedule.component.ts:225-248 | corrected: an unknown id or a cancelled dialog changes nothing; a dialog closing with the id sends exactly one request, and on success the bookings are the old ones without that id |
| ScheduleList.CancelKeepsBooking | src/app/components/schedule/schedule.component.ts:225-265 | a cancelled dialog keeps the booking and sends nothing with the corrected delete, while the code as written removes it |
| ScheduleList.AtMostOneRequest | src/app/components/schedule/schedule.component.ts:225-248 | corrected: at most one request is sent and the requests sent before are kept as a prefix |
| ScheduleList.DeleteWithoutConfirmation | src/app/components/schedule/schedule.component.ts:250-265 | without any confirmation one delete request is sent and the booking disappears |
| ScheduleList.ConfirmSendsTwice | src/app/components/schedule/schedule.component.ts:225-265 | a confirmed delete sends two delete requests for the same id |
| ScheduleList.DeleteKeepsOthers | src/app/components/schedule/schedule.component.ts:254-256 | after a successful delete the id is gone and the other bookings keep their order |
| MySchedule.RequestClosed | src/app/components/my-schedule/my-schedule.component.ts:124-152 | no result changes nothing; otherwise the old list stays a prefix and the returned bookings follow in order, each with its building |
| MySchedule.UnknownRoomShowsNA | src/app/components/my-schedule/my-schedule.component.ts:140-147 | a returned booking in an unknown room is shown with building "N/A" |
| RequestList.UpdateStatus | src/app/components/request/request.component.ts:111-134 | the current status changes nothing; a success sets the status of the first booking with the returned id and keeps the page; a refusal sets the error |
| RequestList.UpdateStatusOnlyMatching | src/app/components/request/request.component.ts:122-127 | after a success each booking keeps everything but its status, and bookings with other ids are unchanged |
| ScheduleApi.Omit | src/app/services/scheduleApi.ts:22-23 | the base schedule keeps the room, user, course and status of the booking |
| ScheduleApi.Complete | src/app/services/scheduleApi.ts:22-23 | adding an id and a date to a base schedule gives a booking whose omission is that base |
| ScheduleApi.OmitComplete | src/app/services/scheduleApi.ts:22-23 | a booking is its base schedule plus its id and date |
| ScheduleApi.WeekdayName | src/app/services/scheduleApi.ts:27 | weekday 0 is Sunday |
| ScheduleApi.HandleError | src/app/services/scheduleApi.ts:125-165 | the status is kept; a client event gives "Error: " and its message; an object body with a truthy message gives that message; unparseable text gives the text; any other body gives "Error Code: {status}\nMessage: {message}" |
| ScheduleApi.TextBodyAsObject | src/app/services/scheduleApi.ts:140-146 | text that parses to an object with a message reads the same as that object |
| ScheduleApi.TextBodyWithoutMessage | src/app/services/scheduleApi.ts:144-148 | text whose parse has no truthy message, null included, is shown as it is |
| ScheduleApi.EmptyMessageFallsBack | src/app/services/scheduleApi.ts:133-156 | an object whose message is empty or missing gives the status line, as no body does |
| Statistics.Fresh | src/app/components/statistics/statistics.component.ts:147-166 | one unscheduled slot without a booking per label |
| Statistics.MorningFromAt | src/app/components/statistics/statistics.component.ts:152-155 | the loop pushes ":00" and ":30" AM labels for each hour, in order |
| Statistics.AfternoonFromAt | src/app/components/statistics/statistics.component.ts:160-165 | the loop pushes ":00" and, below 9, ":30" PM labels for each hour, in order |
| Statistics.MorningTimes | src/app/components/statistics/statistics.component.ts:151-156 | 11 morning slots, slot i at 7:00 plus i half hours (7:00 AM to 12:00 PM) |
| Statistics.AfternoonTimes | src/app/components/statistics/statistics.component.ts:158-165 | 18 afternoon slots, slot i at 12:30 plus i half hours (12:30 PM to 9:00 PM) |
| Statistics.FreshTemplate | src/app/components/statistics/statistics.component.ts:147-166 | the fresh template has 11 and 18 slots, all unscheduled and without a booking |
| Statistics.SlotSeconds | src/app/components/statistics/statistics.component.ts:221-240 | corrected: no instant without a valid selected date; otherwise the slot label's time of day on the selected day itself |
| Statistics.SlotSecondsAsWritten | src/app/components/statistics/statistics.component.ts:221-240 | as written: east of or at UTC the same instant as the corrected one; west of UTC a whole day earlier |
| Statistics.WestOfUtcMarksNothing | src/app/components/statistics/statistics.component.ts:173-240 | as written, west of UTC no slot of either template is covered by any loaded booking, so the grid stays empty |
| Statistics.CoversHalfOpen | src/app/components/statistics/statistics.component.ts:192 | a slot is covered exactly when start ≤ slot < end; the start is covered, the end is not |
| Statistics.MarkAll | src/app/components/statistics/statistics.component.ts:188-213 | one booking's pass over the slots marks each slot on its own |
| Statistics.Pass | src/app/components/statistics/statistics.component.ts:175-214 | the pass keeps the number of slots and their labels |
| Statistics.PassPerSlot | src/app/components/statistics/statistics.component.ts:175-214 | each slot ends as if the bookings were applied to it alone |
| Statistics.SlotAfterUncovered | src/app/components/statistics/statistics.component.ts:206-212 | a slot no booking covers is left untouched |
| Statistics.SlotAfterLast | src/app/components/statistics/statistics.component.ts:206-212 | a covered slot is scheduled and shows the last covering booking |
| Statistics.PassMarks | src/app/components/statistics/statistics.component.ts:175-214 | after a pass, an uncovered slot is unchanged and a covered one references the last covering booking |
| Statistics.LastIndexCovering | src/app/components/statistics/statistics.component.ts:175-214 | when some booking covers a slot, there is a last one that does |
| Statistics.UpdateTimeSlots | src/app/components/statistics/statistics.component.ts:169-218 | only the slots change, 11 morning and 18 afternoon |
| Statistics.UpdateTimeSlotsMarks | src/app/components/statistics/statistics.component.ts:169-218 | a slot is scheduled exactly when some booking covers it; otherwise it is the fresh slot; when covered it shows the last covering booking, from a fresh template whatever the slots were before |
| Statistics.UpdateTimeSlotsEmpty | src/app/components/statistics/statistics.component.ts:171 | with no bookings every slot is the fresh unscheduled slot |
| Statistics.MorningScheduled | src/app/components/statistics/statistics.component.ts:151-156 | on a readable day morning slot i is scheduled exactly when some loaded booking covers 7:00 plus i half hours |
| Statistics.OneBookingMorning | src/app/components/statistics/statistics.component.ts:192 | with one booking, morning slot i is scheduled exactly when start ≤ 7:00 + i half hours < end |
| Statistics.DayOf | src/app/components/statistics/statistics.component.ts:110-111 | a parsed day has a month in 1..12 and a day in 1..31 |
| Statistics.ToDisplay | src/app/components/statistics/statistics.component.ts:123-133 | the grid's booking keeps id and room and shows the user as "scheduled by" |
| Statistics.Displays | src/app/components/statistics/statistics.component.ts:123-133 | one grid booking per kept booking, in order |
| Statistics.RetainIsTwoFilters | src/app/components/statistics/statistics.component.ts:116-122 | the room filter followed by the day filter is the one combined filter |
| Statistics.LoadSchedules | src/app/components/statistics/statistics.component.ts:104-144 | nothing happens without a selected room; a failed fetch sets the error; otherwise no more bookings are kept than were fetched |
| Statistics.LoadSchedulesRetains | src/app/components/statistics/statistics.component.ts:116-133 | a fetched booking is kept exactly when its room is the selected room and its day the selected day; the kept ones keep their order |
| Statistics.LoadedBookingsMatch | src/app/components/statistics/statistics.component.ts:116-122 | every booking on the grid comes from a fetched booking of the selected room and day |
| Statistics.ResetSchedules | src/app/components/statistics/statistics.component.ts:243-246 | no bookings are left, and the slots are those of an update over no bookings |
| Statistics.Initial | src/app/components/statistics/statistics.component.ts:34-45 | the page starts with no room and no bookings |
| Statistics.LoadBuildings | src/app/components/statistics/statistics.component.ts:59-76 | a failed fetch sets the error; a success stores the rooms and changes only the building list |
| Statistics.LoadBuildingsDistinct | src/app/components/statistics/statistics.component.ts:65-67 | the building list names each building of the rooms exactly once, in increasing order |
| Statistics.OnBuildingChange | src/app/components/statistics/statistics.component.ts:79-85 | the building is set, the room cleared, no bookings kept and every slot fresh |
| Statistics.OnBuildingChangeRooms | src/app/components/statistics/statistics.component.ts:80-82 | the room list holds exactly the rooms of the building, in their order |
| Statistics.OnRoomChange | src/app/components/statistics/statistics.component.ts:88-94 | no room resets the bookings and slots; a room loads its bookings |
| Statistics.OnDateChange | src/app/components/statistics/statistics.component.ts:97-101 | without a room only the date changes; with one the bookings are reloaded |
| AddSchedule.DaysOfWeek | src/app/components/add-schedule/add-schedule.component.ts:63-71 | the picker has seven days |
| AddSchedule.DaysOfWeekStart | src/app/components/add-schedule/add-schedule.component.ts:63-71 | the picker lists Monday to Saturday then Sunday (ids 1..6, 0), none selected, and its names agree with the weekday numbering |
| AddSchedule.ToggleDay | src/app/components/add-schedule/add-schedule.component.ts:508-510 | only that day's flag flips and the picker stays a week |
| AddSchedule.ToggleDayInvolution | src/app/components/add-schedule/add-schedule.component.ts:508-510 | toggling a day twice restores the picker |
| AddSchedule.SelectedDays | src/app/components/add-schedule/add-schedule.component.ts:427-429 | an id is listed exactly when a selected day has it |
| AddSchedule.AreNoDaysSelectedSpec | src/app/components/add-schedule/add-schedule.component.ts:512-514 | no day is selected exactly when every flag is off, and exactly when the selected ids are empty |
| AddSchedule.SelectedDaysInOrder | src/app/components/add-schedule/add-schedule.component.ts:427-429 | the selected ids come in the picker's order |
| AddSchedule.SelectedDaysDistinct | src/app/components/add-schedule/add-schedule.component.ts:427-429 | distinct picker ids give distinct selected ids |
| AddSchedule.SelectedDaysOfWeek | src/app/components/add-schedule/add-schedule.component.ts:63-71 | for the week picker the selected ids are distinct, in 0..6, and in the order 1..6, 0 |
| AddSchedule.OnBuildingChange | src/app/components/add-schedule/add-schedule.component.ts:291-319 | the room control is enabled exactly when a building is set; a chosen room is cleared exactly when its id is truthy (not 0) and the new list does not offer it, so room 0 is kept; nothing else in the form changes |
| AddSchedule.OnBuildingChangeRooms | src/app/components/add-schedule/add-schedule.component.ts:295-297 | the offered rooms are exactly the building's rooms, by room number |
| AddSchedule.FindCourse | src/app/components/add-schedule/add-schedule.component.ts:386-388 | a found course has the id; none is found only when no course has it |
| AddSchedule.BaseOf | src/app/components/add-schedule/add-schedule.component.ts:438-449 | the base schedule carries the form's room, course and stored times, the user and the given status |
| AddSchedule.OnSubmit | src/app/components/add-schedule/add-schedule.component.ts:367-506 | an invalid form marks the fields touched and sends nothing; a request is sent only from a valid form and sets loading; a valid form that sends nothing shows the no-day message and clears loading |
| AddSchedule.OnSubmitSends | src/app/components/add-schedule/add-schedule.component.ts:367-435 | a request is sent exactly when the form is valid and it is an edit, a single booking, or a recurring one with a day selected |
| AddSchedule.EditKeepsIdentity | src/app/components/add-schedule/add-schedule.component.ts:390-403 | an edit keeps id, user and status of the booking and sets room, date, times and course from the form |
| AddSchedule.NewBookingsPending | src/app/components/add-schedule/add-schedule.component.ts:437-487 | new single and recurring bookings are PENDING for the user; the pattern runs from the date to the end date on the selected days, at least one |
| AddSchedule.RecurringDays | src/app/components/add-schedule/add-schedule.component.ts:427-454 | a recurring request's weekdays are distinct, in 0..6 and in picker order |
| AddSchedule.RecurringNeedsADay | src/app/components/add-schedule/add-schedule.component.ts:431-435 | a recurring submit with no day selected shows "Please select at least one day of the week", clears loading and sends nothing |

## Left out

- HTTP and RxJS: every call to the server, `forkJoin`, the subscriptions and the `isLoading` flags of the list views. Server replies are parameters of the transition functions.
- JavaScript `Date`: time zones, daylight saving, `toISOString`, `setHours` and `toLocaleDateString`. The model counts time as seconds into the selected day, the resolution of a stored "HH:MM:SS".
- Statistics.DayOf: a calendar day is read only from "YYYY-MM-DD" with month 1..12 and day 1..31; the looser dates a JavaScript engine accepts, and days past the end of a month, are not modelled.
- Statistics.SlotSeconds: the rest of the model takes slot instants on the selected day itself, the behaviour the code evidently intends; the shift of a whole day that the code makes west of UTC is modelled only by `Statistics.SlotSecondsAsWritten` (see "## Findings"). Daylight-saving changes and a booking spilling over midnight are not modelled.
- Text.StrLess: `localeCompare` and the default `sort()` are modelled as code-unit order; locale collation is not modelled.
- Text.ToLower: lowers ASCII letters only; Unicode case mapping is not modelled.
- Js.Value: numbers are integers; floating point and NaN in stored values are not modelled.
- Sorting.SortDataSorted: sortedness is proved only when every value in the column is of one kind (all strings or all numbers); a column mixing kinds gives JavaScript an inconsistent comparator whose order is up to the engine.
- Sorting.SortBy: the engine's sort algorithm is replaced by a stable insertion sort with the same comparator, so the order of equal keys is one valid outcome, not necessarily the engine's.
- Paging.TotalPages: the page size is at least 1; the page-size box only offers 10, 20 and 30.
- TableView.ApplyStatus: the sharing of record objects between the list and its view lists is modelled by replacing equal rows; ids are assumed unique as the server assigns them.
- AddSchedule.OnSubmit: the date picker's value is taken to survive `new Date(...).toISOString().split('T')[0]` unchanged; the disabled state of form controls and the validators' subscriptions are not modelled.
- The add dialog's `ngOnInit`, `loadDepartments`, `loadProgramsByDepartment`, `loadCoursesByProgram`, `loadCourseDetails`, `onDepartmentChange`, `onProgramChange` and `onRoomChange`: they prefill form fields from server replies and hold no decision logic beyond that.
- The messages of the add dialog's HTTP error callbacks: they only prefix `error.message`.
- ScheduleList.DeleteSchedule: the two delete replies are applied in a fixed order (the unconditional one first); the real order depends on the network.
- The booking list's add and edit dialogs (schedule.component.ts:105-202): they repeat the management list's, which is modelled.
- Presentation helpers: `getStatusBadgeClass`, `getSortIcon`, `formatDate`, `switchView`, `goBack`, `console` output, routing and the modal components' styling.
- The `building`/`buildingName` drift between the room type and the code that reads it: one field `building` is modelled.
- Negative or non-integer ids as object keys: the selection map is modelled with integer ids listed in ascending order, as `Object.entries` lists integer-like keys.

## Findings

| source | as written | input that shows it | evidently intended | confidence | as-written member | corrected member |
|---|---|---|---|---|---|---|
| src/app/components/schedule/schedule.component.ts:225-265 | `deleteSchedule` subscribes to the dialog and also sends `deleteSchedule(id)` straight away, outside the subscription | a listed booking whose delete dialog is cancelled: it is deleted anyway; confirmed, the same request is sent twice | one request, sent only when the dialog closes with the id | high, not executed | ScheduleList.DeleteWithoutConfirmation, ScheduleList.ConfirmSendsTwice | ScheduleList.DeleteScheduleConfirmed |
| src/app/components/manage-schedule/manage-schedule.component.ts:519-521 | `modalRef.closed.subscribe(() => performBulkDelete(...))` ignores the value the dialog closes with | a bulk-delete dialog closed with a falsy value (anything but the confirm button's `true`) still deletes every ticked booking | delete only when the dialog closes with a truthy value, as the bulk status action does | low, not executed; the dialog's only close call passes `true`, and its template is not part of this model | ManageSchedule.BulkDeleteOnAnyClose | ManageSchedule.OpenBulkDeleteConfirmed |
| src/app/components/statistics/statistics.component.ts:221-240 | `parseTimeSlot` reads the day with `new Date(dateString)`, which is midnight UTC for "YYYY-MM-DD", then rebuilds the slot from its local `getFullYear`/`getMonth`/`getDate` | a browser at UTC-5, date "2024-05-06", a booking that day from 09:00:00 to 10:00:00: the 9:00 AM slot is 09:00 on 2024-05-05, before the booking, and no slot of the grid is marked | the slot's time on the selected day in local time, e.g. `new Date(y, m - 1, d, hours, minutes)` from the date's parts | high, not executed | Statistics.SlotSecondsAsWritten, Statistics.WestOfUtcMarksNothing | Statistics.SlotSeconds |

=== FILE: addschedule.dfy ===
/** The booking form of add-schedule.component.ts: the weekday picker of a
    recurring booking, the room choice narrowed by building, and `onSubmit`,
    which turns the form into exactly one of an update, a recurring-creation
    or a single-creation request, or into no request at all. */
module AddSchedule {
  import opened Wrappers
  import opened Seqs
  import opened TimeFormat
  import opened Domain
  import RoomPipes
  import opened ScheduleApi

  // ---------------------------------------------------------------------------
  // Weekdays
  // ---------------------------------------------------------------------------

  /** An entry of `daysOfWeek`. */
  datatype WeekDay = WeekDay(id: int, name: string, selected: bool)

  /** The pattern numbers of the picker's days, Monday first, Sunday last. */
  const WeekOrder: seq<int> := [1, 2, 3, 4, 5, 6, 0]

  /** The picker as the component starts it: nothing selected. */
  function DaysOfWeek(): (days: seq<WeekDay>)
    ensures |days| == 7
  {
    [WeekDay(1, "Monday", false), WeekDay(2, "Tuesday", false), WeekDay(3, "Wednesday", false),
     WeekDay(4, "Thursday", false), WeekDay(5, "Friday", false), WeekDay(6, "Saturday", false),
     WeekDay(0, "Sunday", false)]
  }

  /** The picker's days: the seven of `DaysOfWeek` in its order, whatever
      their flags. */
  predicate IsWeek(days: seq<WeekDay>) {
    |days| == 7
    && forall i :: 0 <= i < 7 ==> days[i].id == WeekOrder[i] && days[i].name == DaysOfWeek()[i].name
  }

  /** `toggleDay(day)` for the day at position `i`. */
  function ToggleDay(days: seq<WeekDay>, i: int): (r: seq<WeekDay>)
    requires 0 <= i < |days|
    ensures |r| == |days|
    ensures r[i].selected == !days[i].selected && r[i].id == days[i].id && r[i].name == days[i].name
    ensures forall j :: 0 <= j < |days| && j != i ==> r[j] == days[j]
    ensures IsWeek(days) ==> IsWeek(r)
  {
    days[i := days[i].(selected := !days[i].selected)]
  }

  /** Toggling a day twice leaves the picker as it was. */
  lemma ToggleDayInvolution(days: seq<WeekDay>, i: int)
    requires 0 <= i < |days|
    ensures ToggleDay(ToggleDay(days, i), i) == days
  {
  }

  /** `daysOfWeek.every(d => !d.selected)`. */
  predicate AreNoDaysSelected(days: seq<WeekDay>) {
    days == [] || (!days[0].selected && AreNoDaysSelected(days[1..]))
  }

  /** `daysOfWeek.filter(day => day.selected).map(day => day.id)`. */
  function SelectedDays(days: seq<WeekDay>): (ids: seq<int>)
    ensures forall x :: x in ids <==> exists i :: 0 <= i < |days| && days[i].selected && days[i].id == x
  {
    if days == [] then []
    else
      var rest := SelectedDays(days[1..]);
      assert forall i :: 0 < i < |days| ==> days[i] == days[1..][i - 1];
      (if days[0].selected then [days[0].id] else []) + rest
  }

  /** The ids of the picker's days, in its order. */
  function DayIds(days: seq<WeekDay>): (ids: seq<int>)
    ensures |ids| == |days|
    ensures forall i :: 0 <= i < |days| ==> ids[i] == days[i].id
  {
    seq(|days|, i requires 0 <= i < |days| => days[i].id)
  }

  /** No day is selected exactly when every flag is off, and exactly when
      the selected ids are empty. */
  lemma {:induction false} AreNoDaysSelectedSpec(days: seq<WeekDay>)
    ensures AreNoDaysSelected(days) <==> forall i :: 0 <= i < |days| ==> !days[i].selected
    ensures AreNoDaysSelected(days) <==> SelectedDays(days) == []
  {
    if days != [] {
      AreNoDaysSelectedSpec(days[1..]);
      assert forall i :: 0 < i < |days| ==> days[i] == days[1..][i - 1];
    }
  }

  /** The selected ids come in the picker's order. */
  lemma {:induction false} SelectedDaysInOrder(days: seq<WeekDay>)
    ensures IsSubsequence(SelectedDays(days), DayIds(days))
  {
    if days != [] {
      SelectedDaysInOrder(days[1..]);
      assert DayIds(days)[1..] == DayIds(days[1..]);
      assert DayIds(days) == [days[0].id] + DayIds(days[1..]);
      if days[0].selected {
        assert SelectedDays(days)[1..] == SelectedDays(days[1..]);
        assert SelectedDays(days)[0] == DayIds(days)[0];
      } else {
        assert SelectedDays(days) == SelectedDays(days[1..]);
        SubsequencePrepend(days[0].id, SelectedDays(days[1..]), DayIds(days[1..]));
      }
    }
  }

  /** Ids taken from a list of distinct ids are distinct. */
  lemma {:induction false} SelectedDaysDistinct(days: seq<WeekDay>)
    requires NoDuplicates(DayIds(days))
    ensures NoDuplicates(SelectedDays(days))
  {
    if days != [] {
      var tail := days[1..];
      assert DayIds(days)[1..] == DayIds(tail);
      assert NoDuplicates(DayIds(tail));
      SelectedDaysDistinct(tail);
      if days[0].selected {
        var r := SelectedDays(days);
        assert r[1..] == SelectedDays(tail);
        assert days[0].id !in SelectedDays(tail) by {
          forall i | 0 <= i < |tail| && tail[i].selected
            ensures tail[i].id != days[0].id
          {
            assert DayIds(days)[i + 1] == tail[i].id;
          }
        }
        forall i, j | 0 <= i < j < |r|
          ensures r[i] != r[j]
        {
          if i == 0 {
            assert r[j] in SelectedDays(tail);
          } else {
            assert r[i] == SelectedDays(tail)[i - 1] && r[j] == SelectedDays(tail)[j - 1];
          }
        }
      }
    }
  }

  /** The pattern's weekdays: distinct, each in 0..6 (0 being Sunday), in the
      picker's order Monday..Saturday then Sunday. */
  lemma SelectedDaysOfWeek(days: seq<WeekDay>)
    requires IsWeek(days)
    ensures NoDuplicates(SelectedDays(days))
    ensures forall x :: x in SelectedDays(days) ==> 0 <= x <= 6
    ensures IsSubsequence(SelectedDays(days), WeekOrder)
  {
    assert DayIds(days) == WeekOrder;
    SelectedDaysDistinct(days);
    SelectedDaysInOrder(days);
  }

  /** The picker starts as a week with nothing selected. */
  lemma DaysOfWeekStart()
    ensures IsWeek(DaysOfWeek())
    ensures AreNoDaysSelected(DaysOfWeek())
    ensures WeekdayName(DaysOfWeek()[6].id) == DaysOfWeek()[6].name
    ensures forall i :: 0 <= i < 7 ==> WeekdayName(DaysOfWeek()[i].id) == DaysOfWeek()[i].name
  {
    AreNoDaysSelectedSpec(DaysOfWeek());
  }

  // ---------------------------------------------------------------------------
  // The form
  // ---------------------------------------------------------------------------

  /** The form's controls. Select controls hold `None` for the empty choice
      ''; the date controls hold "YYYY-MM-DD" text. */
  datatype FormValue = FormValue(
    roomId: Option<int>,
    date: string,
    startTime: TimeInput,
    endTime: TimeInput,
    departmentId: Option<int>,
    programId: Option<int>,
    courseId: Option<int>,
    isRecurring: bool,
    endDate: string)

  /** `Validators.required` on a time control. */
  predicate Filled(t: TimeInput) {
    t != TimeText("")
  }

  /** The form is valid: every required control is filled, and the end date
      too when the booking recurs. */
  predicate FormValid(f: FormValue) {
    f.roomId.Some? && f.date != "" && Filled(f.startTime) && Filled(f.endTime)
    && f.departmentId.Some? && f.programId.Some? && f.courseId.Some?
    && (f.isRecurring ==> f.endDate != "")
  }

  /** The component's state. `roomEnabled` is the enabled state of the room
      control; `touched` records `markAllAsTouched()`. */
  datatype State = State(
    rooms: seq<Room>,
    userId: int,
    userName: string,
    isEditMode: bool,
    existingSchedule: Option<Schedule>,
    selectedRoom: Option<Room>,
    courses: seq<Course>,
    selectedBuilding: string,
    filteredRooms: seq<Room>,
    roomEnabled: bool,
    buildingTouched: bool,
    form: FormValue,
    touched: bool,
    days: seq<WeekDay>,
    isLoading: bool,
    errorMessage: string)

  const NoDaysMessage := "Please select at least one day of the week"

  // ---------------------------------------------------------------------------
  // onBuildingChange
  // ---------------------------------------------------------------------------

  /** `filteredRooms.some(room => room.id === id)`. */
  predicate Offers(rooms: seq<Room>, id: int) {
    exists i :: 0 <= i < |rooms| && rooms[i].id == id
  }

  /** `onBuildingChange()` after the select set `building`: the building's
      rooms by room number, the room control enabled exactly when a building
      is chosen, and a chosen room the new list does not offer cleared.
      The clear is guarded by the control's value being truthy, so a room
      id of 0 is never cleared. */
  function OnBuildingChange(st: State, building: string): (r: State)
    ensures r.buildingTouched && r.selectedBuilding == building
    ensures r.roomEnabled <==> building != ""
    ensures r.form.roomId.None? <==>
              st.form.roomId.None? || (st.form.roomId.value != 0 && !Offers(r.filteredRooms, st.form.roomId.value))
    ensures st.form.roomId == Some(0) ==> r.form.roomId == Some(0)
    ensures r.form == st.form.(roomId := r.form.roomId)
    ensures r.form.roomId.Some? ==> r.form.roomId == st.form.roomId && r.selectedRoom == st.selectedRoom
    ensures st.form.roomId.Some? && r.form.roomId.None? ==> r.selectedRoom.None?
    ensures r.rooms == st.rooms && r.days == st.days
  {
    var filtered := RoomPipes.RoomsOf(st.rooms, building);
    var s := st.(buildingTouched := true, selectedBuilding := building, filteredRooms := filtered,
                 roomEnabled := building != "");
    if s.form.roomId.Some? && s.form.roomId.value != 0 && !Offers(filtered, s.form.roomId.value) then
      s.(form := s.form.(roomId := None), selectedRoom := None)
    else s
  }

  /** The room choice offers exactly the building's rooms, sorted by room
      number. */
  lemma OnBuildingChangeRooms(st: State, building: string)
    ensures var rooms := OnBuildingChange(st, building).filteredRooms;
            (forall x :: x in rooms <==> x in st.rooms && x.building == building)
            && forall i, j :: 0 <= i < j < |rooms| ==>
                 rooms[i].roomNumber == rooms[j].roomNumber || Text.StrLess(rooms[i].roomNumber, rooms[j].roomNumber)
  {
    RoomPipes.RoomsOfSpec(st.rooms, building);
  }

  // ---------------------------------------------------------------------------
  // onSubmit
  // ---------------------------------------------------------------------------

  /** The request `onSubmit` sends. */
  datatype Request =
    | Update(id: int, schedule: Schedule)
    | CreateRecurring(request: RecurringScheduleRequest)
    | CreateSingle(newSchedule: NewSchedule)

  /** The state after `onSubmit` and the request it sent, if any. */
  datatype Submitted = Submitted(state: State, request: Option<Request>)

  /** `courses.find(course => course.id === id)`. */
  function FindCourse(courses: seq<Course>, id: int): (c: Option<Course>)
    ensures c.Some? ==> c.value in courses && c.value.id == id
    ensures c.None? ==> forall i :: 0 <= i < |courses| ==> courses[i].id != id
  {
    match FindIndex(courses, (c: Course) => c.id == id)
    case None => None
    case Some(i) => Some(courses[i])
  }

  /** The fields every request copies from the form: room, times and
      course, the times normalised to "HH:MM:00". */
  function BaseOf(st: State, status: Status): (b: BaseSchedule)
    requires FormValid(st.form)
    ensures b.roomId == st.form.roomId.value && b.courseId == st.form.courseId.value
    ensures b.startTime == FormatTime(st.form.startTime) && b.endTime == FormatTime(st.form.endTime)
    ensures b.userId == st.userId && b.userName == st.userName && b.status == status
  {
    var course := FindCourse(st.courses, st.form.courseId.value);
    BaseSchedule(
      st.form.roomId.value,
      if st.selectedRoom.Some? then st.selectedRoom.value.roomNumber else "",
      st.userId,
      st.userName,
      FormatTime(st.form.startTime),
      FormatTime(st.form.endTime),
      st.form.courseId.value,
      if course.Some? then course.value.courseCode else "",
      if course.Some? then course.value.description else "",
      status)
  }

  /** `onSubmit()`. The date picker's "YYYY-MM-DD" value comes back
      unchanged from `new Date(d).toISOString().split('T')[0]`. */
  function OnSubmit(st: State): (r: Submitted)
    ensures !FormValid(st.form) ==> r == Submitted(st.(touched := true), None)
    ensures r.request.Some? ==> FormValid(st.form) && r.state == st.(isLoading := true)
    ensures r.request.None? && FormValid(st.form) ==>
              r.state == st.(errorMessage := NoDaysMessage, isLoading := false)
  {
    if !FormValid(st.form) then Submitted(st.(touched := true), None)
    else
      var f := st.form;
      var loading := st.(isLoading := true);
      if st.isEditMode && st.existingSchedule.Some? then
        var b := BaseOf(st, st.existingSchedule.value.status);
        var updated := st.existingSchedule.value.(
          roomId := b.roomId, roomNumber := b.roomNumber, date := f.date,
          startTime := b.startTime, endTime := b.endTime,
          courseId := b.courseId, courseCode := b.courseCode, courseDescription := b.courseDescription);
        Submitted(loading, Some(Update(updated.id, updated)))
      else if f.isRecurring then
        var selected := SelectedDays(st.days);
        if selected == [] then Submitted(st.(errorMessage := NoDaysMessage, isLoading := false), None)
        else
          Submitted(loading, Some(CreateRecurring(RecurringScheduleRequest(
            BaseOf(st, PENDING), RecurrencePattern(f.date, f.endDate, selected)))))
      else
        Submitted(loading, Some(CreateSingle(NewSchedule(BaseOf(st, PENDING), f.date))))
  }

  /** Exactly when a request goes out: the form is valid and it is an edit, a
      single booking, or a recurring booking with some weekday picked. */
  lemma OnSubmitSends(st: State)
    ensures OnSubmit(st).request.Some?
        <==> FormValid(st.form)
             && ((st.isEditMode && st.existingSchedule.Some?) || !st.form.isRecurring || !AreNoDaysSelected(st.days))
  {
    AreNoDaysSelectedSpec(st.days);
  }

  /** An edit keeps the booking's id, owner and status and takes room, date,
      times and course from the form. */
  lemma EditKeepsIdentity(st: State)
    requires FormValid(st.form) && st.isEditMode && st.existingSchedule.Some?
    ensures var e := st.existingSchedule.value;
            match OnSubmit(st).request
            case Some(Update(id, s)) =>
              id == e.id && s.id == e.id && s.userId == e.userId && s.userName == e.userName && s.status == e.status
              && s.roomId == st.form.roomId.value && s.date == st.form.date && s.courseId == st.form.courseId.value
              && s.startTime == FormatTime(st.form.startTime) && s.endTime == FormatTime(st.form.endTime)
            case _ => false
  {
  }

  /** A new booking, single or recurring, is always PENDING and belongs to the
      form's user; a recurring one runs from the date field to the end-date
      field on the picked weekdays. */
  lemma NewBookingsPending(st: State)
    requires !(st.isEditMode && st.existingSchedule.Some?)
    ensures match OnSubmit(st).request
            case Some(CreateSingle(n)) =>
              n.fields.status == PENDING && n.fields.userId == st.userId && n.date == st.form.date
            case Some(CreateRecurring(q)) =>
              q.baseSchedule.status == PENDING && q.baseSchedule.userId == st.userId
              && q.recurrencePattern == RecurrencePattern(st.form.date, st.form.endDate, SelectedDays(st.days))
              && q.recurrencePattern.daysOfWeek != []
            case Some(Update(_, _)) => false
            case None => true
  {
  }

  /** A recurring request made from the picker names distinct weekdays in
      0..6 (0 being Sunday), Monday first. */
  lemma RecurringDays(st: State)
    requires IsWeek(st.days)
    ensures match OnSubmit(st).request
            case Some(CreateRecurring(q)) =>
              var d := q.recurrencePattern.daysOfWeek;
              NoDuplicates(d) && (forall x :: x in d ==> 0 <= x <= 6) && IsSubsequence(d, WeekOrder)
            case _ => true
  {
    SelectedDaysOfWeek(st.days);
  }

  /** With the picker left empty a recurring booking sends nothing and says
      why. */
  lemma RecurringNeedsADay(st: State)
    requires FormValid(st.form) && !(st.isEditMode && st.existingSchedule.Some?)
    requires st.form.isRecurring && AreNoDaysSelected(st.days)
    ensures OnSubmit(st) == Submitted(st.(errorMessage := NoDaysMessage, isLoading := false), None)
  {
    AreNoDaysSelectedSpec(st.days);
  }
}

=== FILE: domain.dfy ===
/** The records the scheduler exchanges with its server: bookings
    (`Schedule`), rooms and courses, and the row the list views display (a
    booking together with the name of its room's building). */
module Domain {
  import opened Wrappers
  import opened Seqs
  import Js

  /** The review state of a booking. */
  datatype Status = PENDING | APPROVED | REJECTED {
    function Name(): string {
      match this
      case PENDING => "PENDING"
      case APPROVED => "APPROVED"
      case REJECTED => "REJECTED"
    }
  }

  /** A booking as the server stores it; date and times are the server's
      text forms ("YYYY-MM-DD", "HH:MM:SS"). */
  datatype Schedule = Schedule(
    id: int,
    roomId: int,
    roomNumber: string,
    userId: int,
    userName: string,
    date: string,
    startTime: string,
    endTime: string,
    courseId: int,
    courseCode: string,
    courseDescription: string,
    status: Status)

  /** A room; `building` is the name of the building the room is in. */
  datatype Room = Room(id: int, roomNumber: string, building: string)

  /** A course offered for booking. */
  datatype Course = Course(id: int, courseCode: string, description: string)

  /** A row of the list views: a booking and its room's building name. */
  datatype Row = Row(schedule: Schedule, building: string) {
    function Id(): int { schedule.id }
  }

  /** `rooms.find(r => r.id === roomId)`. */
  function FindRoom(rooms: seq<Room>, roomId: int): Option<Room> {
    match FindIndex(rooms, (r: Room) => r.id == roomId)
    case None => None
    case Some(i) => Some(rooms[i])
  }

  /** `room?.building || 'N/A'`: the building of the first room with the
      booking's room id, or "N/A" when there is none or its name is empty. */
  function BuildingOf(rooms: seq<Room>, roomId: int): (b: string)
    ensures b != ""
    ensures b == "N/A" || exists i :: 0 <= i < |rooms| && rooms[i].id == roomId && rooms[i].building == b
    ensures (forall i :: 0 <= i < |rooms| ==> rooms[i].id != roomId) ==> b == "N/A"
  {
    match FindRoom(rooms, roomId)
    case Some(room) => if room.building != "" then room.building else "N/A"
    case None => "N/A"
  }

  /** The row shown for a booking: the booking with its building. */
  function WithBuilding(rooms: seq<Room>, s: Schedule): (r: Row)
    ensures r.schedule == s
  {
    Row(s, BuildingOf(rooms, s.roomId))
  }

  /** `list.map(s => ({...s, building: ...}))`. */
  function WithBuildings(rooms: seq<Room>, list: seq<Schedule>): (rows: seq<Row>)
    ensures |rows| == |list|
    ensures forall i :: 0 <= i < |list| ==> rows[i] == WithBuilding(rooms, list[i])
  {
    seq(|list|, i requires 0 <= i < |list| => WithBuilding(rooms, list[i]))
  }

  /** The row as the JavaScript object the table utilities inspect. Columns
      the record does not have (such as `purpose`) are absent. */
  function RowView(r: Row): Js.Value {
    var s := r.schedule;
    Js.Obj(map[
      "id" := Js.Num(s.id),
      "roomId" := Js.Num(s.roomId),
      "roomNumber" := Js.Str(s.roomNumber),
      "userId" := Js.Num(s.userId),
      "userName" := Js.Str(s.userName),
      "date" := Js.Str(s.date),
      "startTime" := Js.Str(s.startTime),
      "endTime" := Js.Str(s.endTime),
      "courseId" := Js.Num(s.courseId),
      "courseCode" := Js.Str(s.courseCode),
      "courseDescription" := Js.Str(s.courseDescription),
      "status" := Js.Str(s.status.Name()),
      "building" := Js.Str(r.building)])
  }

  /** A row has no `purpose` field. */
  lemma NoPurposeField(r: Row)
    ensures RowView(r).Obj? && "purpose" !in RowView(r).fields
  {
    assert "purpose"[0] == 'p';
  }

  /** Ids are unique within a list. */
  predicate UniqueIds(rows: seq<Row>) {
    forall i, j :: 0 <= i < j < |rows| ==> rows[i].Id() != rows[j].Id()
  }

  /** `rows.map(r => r.id)`. */
  function Ids(rows: seq<Row>): (ids: seq<int>)
    ensures |ids| == |rows|
    ensures forall i :: 0 <= i < |rows| ==> ids[i] == rows[i].Id()
  {
    seq(|rows|, i requires 0 <= i < |rows| => rows[i].Id())
  }
}

=== FILE: jsvalue.dfy ===
/** The JavaScript values the table utilities inspect: the records they search
    and sort are plain objects whose properties are reached through
    `getNestedValue`. Numbers are integers; property access on anything but an
    object yields `undefined` (string indices and `length` are never used as
    column names). */
module Js {
  import opened Wrappers
  import Text

  datatype Value =
    | Null
    | Undefined
    | Bool(b: bool)
    | Num(n: int)
    | Str(s: string)
    | Obj(fields: map<string, Value>)

  /** JavaScript truthiness. */
  predicate Truthy(v: Value) {
    match v
    case Null => false
    case Undefined => false
    case Bool(b) => b
    case Num(n) => n != 0
    case Str(s) => s != []
    case Obj(_) => true
  }

  /** `v[key]`. */
  function Get(v: Value, key: string): Value {
    if v.Obj? && key in v.fields then v.fields[key] else Undefined
  }

  /** `String(v)`. */
  function ToJsString(v: Value): string {
    match v
    case Null => "null"
    case Undefined => "undefined"
    case Bool(b) => if b then "true" else "false"
    case Num(n) => Text.IntToString(n)
    case Str(s) => s
    case Obj(_) => "[object Object]"
  }

  /** One step of the `reduce` in `getNestedValue`:
      `acc && acc[key] !== undefined ? acc[key] : null`. */
  function Step(acc: Value, key: string): Value {
    if Truthy(acc) && Get(acc, key) != Undefined then Get(acc, key) else Null
  }

  function Walk(acc: Value, keys: seq<string>): Value
    decreases |keys|
  {
    if keys == [] then acc else Walk(Step(acc, keys[0]), keys[1..])
  }

  /** `getNestedValue(obj, path)` of sortTable.ts and searchTable.ts (the two
      copies are identical). */
  function GetNestedValue(obj: Value, path: string): Value {
    Walk(obj, Text.Split(path, '.'))
  }

  /** The path resolved strictly: every step must land on a truthy value
      holding the next key. `None` as soon as a step is missing. */
  function Resolve(v: Value, keys: seq<string>): Option<Value>
    decreases |keys|
  {
    if keys == [] then Some(v)
    else if Truthy(v) && Get(v, keys[0]) != Undefined then Resolve(Get(v, keys[0]), keys[1..])
    else None
  }

  lemma {:induction false} WalkFromNull(keys: seq<string>)
    ensures Walk(Null, keys) == Null
  {
    if keys != [] {
      WalkFromNull(keys[1..]);
    }
  }

  /** `getNestedValue` follows the dotted path and yields `null` as soon as a
      step is missing; it never yields `undefined`. */
  lemma {:induction false} WalkResolves(v: Value, keys: seq<string>)
    ensures Walk(v, keys) == Resolve(v, keys).GetOr(Null)
    ensures keys != [] ==> Walk(v, keys) != Undefined
  {
    if keys != [] {
      if Truthy(v) && Get(v, keys[0]) != Undefined {
        WalkResolves(Get(v, keys[0]), keys[1..]);
      } else {
        WalkFromNull(keys[1..]);
      }
    }
  }

  lemma GetNestedValueResolves(obj: Value, path: string)
    ensures GetNestedValue(obj, path) == Resolve(obj, Text.Split(path, '.')).GetOr(Null)
    ensures GetNestedValue(obj, path) != Undefined
  {
    WalkResolves(obj, Text.Split(path, '.'));
  }

  /** A column name without a dot reads one property of the record: its value
      when present, `null` when absent. */
  lemma {:induction false} GetNestedValueOfColumn(fields: map<string, Value>, column: string)
    requires '.' !in column
    ensures GetNestedValue(Obj(fields), column)
         == (if column in fields && fields[column] != Undefined then fields[column] else Null)
  {
    Text.SplitNoSeparator(column, '.');
    var keys := [column];
    assert Walk(Obj(fields), keys) == Walk(Step(Obj(fields), column), keys[1..]);
    assert keys[1..] == [];
  }
}

=== FILE: managerequest.dfy ===
/** The administrator's request list (manage-request.component.ts): the
    shared table pipeline, per-booking status changes, and the bulk status
    action over the ticked bookings, whose count and ids are derived from
    the selection on demand. */
module ManageRequest {
  import opened Wrappers
  import opened Seqs
  import Js
  import opened Domain
  import opened Paging
  import opened TableView
  import Selection

  const Columns: seq<string> :=
    ["roomNumber", "building", "courseCode", "courseDescription", "userName", "date", "status", "startTime", "endTime"]

  const BatchError: string := "Failed to update schedules. Please try again."

  datatype State = State(
    table: Table,
    rooms: seq<Room>,
    flags: Selection.Flags,
    selectAll: bool,
    errorMessage: string)

  /** The getter `selectedCount`. */
  function SelectedCount(s: State): (n: nat)
    ensures n == |SelectedScheduleIds(s)|
  {
    Selection.CountSelected(s.flags)
  }

  /** The getter `selectedScheduleIds`: exactly the ticked ids, ascending. */
  function SelectedScheduleIds(s: State): (ids: seq<int>)
    ensures forall x :: x in ids <==> Selection.IsSelected(s.flags, x)
    ensures forall i, j :: 0 <= i < j < |ids| ==> ids[i] < ids[j]
  {
    Selection.SelectedIdsAscending(s.flags);
    Selection.SelectedIds(s.flags)
  }

  /** `applyFilters()` followed by `updateSelectAllState()` unless the list
      is empty. */
  function Refresh(s: State): (r: State)
    ensures r.table == ApplyFilters(s.table, Columns)
    ensures r.flags == s.flags
    ensures s.table.schedules == [] ==> r.selectAll == s.selectAll
    ensures s.table.schedules != [] ==> r.selectAll == SelectAllState(r.flags, r.table.paginated)
  {
    var t := ApplyFilters(s.table, Columns);
    if s.table.schedules == [] then s.(table := t)
    else s.(table := t, selectAll := SelectAllState(s.flags, t.paginated))
  }

  /** How the server answered a status change. */
  datatype StatusReply = Updated(id: int, status: Status) | Refused(message: string)

  /** `updateStatus(schedule, newStatus)`: no call when the status is
      already the requested one; on success the booking with the returned
      id takes the returned status (the view lists share the object, so
      they show it too, without a recomputation). */
  function UpdateStatus(s: State, schedule: Schedule, newStatus: Status, reply: StatusReply): (r: State)
    ensures schedule.status == newStatus ==> r == s
    ensures schedule.status != newStatus && reply.Updated? ==>
              r.table == ApplyStatus(s.table, reply.id, reply.status) && r.flags == s.flags
    ensures schedule.status != newStatus && reply.Refused? ==>
              r == s.(errorMessage := "Failed to update status: " + reply.message)
  {
    if schedule.status == newStatus then s
    else match reply
      case Updated(id, status) => s.(table := ApplyStatus(s.table, id, status))
      case Refused(message) => s.(errorMessage := "Failed to update status: " + message)
  }

  /** A successful status change touches only the first booking with the
      returned id, and only its status. */
  lemma UpdateStatusOnlyMatching(s: State, schedule: Schedule, newStatus: Status, id: int, status: Status, i: int)
    requires schedule.status != newStatus
    requires 0 <= i < |s.table.schedules|
    ensures var r := UpdateStatus(s, schedule, newStatus, Updated(id, status));
            |r.table.schedules| == |s.table.schedules|
            && (FirstWithId(s.table.schedules, id, i) ==> r.table.schedules[i] == WithStatus(s.table.schedules[i], status))
            && (!FirstWithId(s.table.schedules, id, i) ==> r.table.schedules[i] == s.table.schedules[i])
  {
    match FindIndex(s.table.schedules, (x: Row) => x.Id() == id)
    case None =>
    case Some(k) =>
      assert FirstWithId(s.table.schedules, id, k);
  }

  /** `toggleSelection(id)`: no recount here, the count is a getter. */
  function ToggleSelection(s: State, id: int): (r: State)
    ensures Selection.IsSelected(r.flags, id) <==> !Selection.IsSelected(s.flags, id)
    ensures forall x :: x != id ==> Selection.Lookup(r.flags, x) == Selection.Lookup(s.flags, x)
    ensures r.selectAll == SelectAllState(r.flags, s.table.paginated)
    ensures r.table == s.table
  {
    var flags := Selection.Toggle(s.flags, id);
    s.(flags := flags, selectAll := SelectAllState(flags, s.table.paginated))
  }

  /** `toggleSelectAll()`: only the current page's boxes take the new
      value. */
  function ToggleSelectAll(s: State): (r: State)
    ensures r.selectAll == !s.selectAll
    ensures forall x :: x in Ids(s.table.paginated) ==> Selection.Lookup(r.flags, x) == Some(r.selectAll)
    ensures forall x :: x !in Ids(s.table.paginated) ==> Selection.Lookup(r.flags, x) == Selection.Lookup(s.flags, x)
    ensures r.table == s.table
  {
    var b := !s.selectAll;
    s.(selectAll := b, flags := Selection.PutAll(s.flags, Ids(s.table.paginated), b))
  }

  /** `clearSelections()`. */
  function ClearSelections(s: State): (r: State)
    ensures SelectedCount(r) == 0 && !r.selectAll && r.table == s.table
  {
    s.(flags := Selection.Empty, selectAll := false)
  }

  /** How the server answered the batch call: the bookings it changed, as
      (id, status) pairs, or a failure. */
  datatype BatchReply = BatchUpdated(updates: seq<(int, Status)>) | BatchFailed

  /** The ids and status the batch call sends. */
  function BatchRequest(s: State, action: Status): (req: (seq<int>, Status))
    ensures req.1 == action
    ensures forall x :: x in req.0 <==> Selection.IsSelected(s.flags, x)
  {
    (SelectedScheduleIds(s), action)
  }

  /** `executeBulkAction(action)`: on success each returned status is copied
      into the booking with that id, the view is recomputed and the
      selection cleared. */
  function ExecuteBulkAction(s: State, action: Status, reply: BatchReply): (r: State)
    ensures reply.BatchUpdated? ==>
              r.table.schedules == SetStatuses(s.table.schedules, reply.updates)
              && SelectedCount(r) == 0 && !r.selectAll
    ensures reply.BatchFailed? ==> r == s.(errorMessage := BatchError)
  {
    match reply
    case BatchUpdated(updates) =>
      ClearSelections(Refresh(s.(table := s.table.(schedules := SetStatuses(s.table.schedules, updates)))))
    case BatchFailed => s.(errorMessage := BatchError)
  }

  /** `openBulkActionModal(action)`: nothing when no box is ticked; the
      action runs only when the dialog closes with a truthy value. */
  function OpenBulkAction(s: State, action: Status, end: ModalEnd, reply: BatchReply): (r: State)
    ensures SelectedCount(s) == 0 ==> r == s
    ensures !(end.Closed? && Js.Truthy(end.value)) ==> r == s
    ensures SelectedCount(s) > 0 && end.Closed? && Js.Truthy(end.value) ==> r == ExecuteBulkAction(s, action, reply)
  {
    if SelectedCount(s) == 0 then s
    else match end
      case Closed(v) => if Js.Truthy(v) then ExecuteBulkAction(s, action, reply) else s
      case Dismissed => s
  }

  /** With unique ids, after a successful batch every booking the server
      names carries the status of the last entry naming it; the others keep
      theirs. */
  lemma BulkActionCopiesStatuses(s: State, action: Status, updates: seq<(int, Status)>, i: int)
    requires UniqueIds(s.table.schedules) && 0 <= i < |s.table.schedules|
    ensures var r := ExecuteBulkAction(s, action, BatchUpdated(updates));
            (forall u :: u in updates ==> u.0 != s.table.schedules[i].Id()) ==> r.table.schedules[i] == s.table.schedules[i]
    ensures var r := ExecuteBulkAction(s, action, BatchUpdated(updates));
            forall k :: LastNaming(updates, s.table.schedules[i].Id(), k) ==>
              r.table.schedules[i] == WithStatus(s.table.schedules[i], updates[k].1)
  {
    forall k | LastNaming(updates, s.table.schedules[i].Id(), k)
      ensures SetStatuses(s.table.schedules, updates)[i] == WithStatus(s.table.schedules[i], updates[k].1)
    {
      SetStatusesLastWins(s.table.schedules, updates, i, k);
    }
  }

  /** `sort(column)`, written the same way in the booking management list;
      the ticked boxes survive a re-sort. */
  function Sort(s: State, column: string): (r: State)
    ensures r.table.sort == ToggleSort(s.table.sort, column)
    ensures r.flags == s.flags
  {
    Refresh(s.(table := s.table.(sort := ToggleSort(s.table.sort, column))))
  }

  /** `changePage(page)`, written the same way in the booking management
      list; the ticked boxes on every page are kept. */
  function ChangePage(s: State, page: int): (r: State)
    ensures !(1 <= page <= s.table.totalPages) ==> r == s
    ensures r.flags == s.flags
  {
    if 1 <= page <= s.table.totalPages then Refresh(s.(table := s.table.(currentPage := page)))
    else s
  }

  /** `changePageSize(event)`, written the same way in the booking
      management list; the ticked boxes are kept. */
  function ChangePageSize(s: State, size: PageSize): (r: State)
    ensures r.table.itemsPerPage == size && r.table.currentPage == 1
    ensures r.flags == s.flags
  {
    Refresh(s.(table := s.table.(itemsPerPage := size, currentPage := 1)))
  }
}

=== FILE: manageschedule.dfy ===
/** The administrator's booking list (manage-schedule.component.ts): the
    shared table pipeline, the check-box selection with its stored
    `selectedCount`, bulk deletion, single deletion and the add/edit
    dialogs' results. */
module ManageSchedule {
  import opened Wrappers
  import opened Seqs
  import Js
  import opened Domain
  import opened Paging
  import opened TableView
  import Selection
  import Text

  const Columns: seq<string> :=
    ["roomNumber", "building", "courseCode", "courseDescription", "date", "status", "startTime", "endTime"]

  const LoadError: string := "Failed to load data. Please try again later."
  const DeleteError: string := "Failed to delete schedule. Please try again."
  const BulkDeleteError: string := "Failed to delete selected schedules. Please try again."

  datatype State = State(
    table: Table,
    rooms: seq<Room>,
    flags: Selection.Flags,
    selectedCount: int,
    selectAll: bool,
    errorMessage: string)

  const Initial: State := State(TableView.Initial, [], Selection.Empty, 0, false, "")

  /** The page is at least 1 and the stored count is the number of ticked
      boxes. */
  predicate Valid(s: State) {
    TableView.Valid(s.table) && s.selectedCount == Selection.CountSelected(s.flags)
  }

  /** `applyFilters()`: the table pipeline, then `updateSelectAllState()`
      unless the early return for an empty list was taken. */
  function Refresh(s: State): (r: State)
    ensures r.table == ApplyFilters(s.table, Columns)
    ensures r.flags == s.flags && r.selectedCount == s.selectedCount && r.rooms == s.rooms
    ensures s.table.schedules == [] ==> r.selectAll == s.selectAll
    ensures s.table.schedules != [] ==>
              r.selectAll == SelectAllState(r.flags, r.table.paginated)
  {
    var t := ApplyFilters(s.table, Columns);
    if s.table.schedules == [] then s.(table := t)
    else s.(table := t, selectAll := SelectAllState(s.flags, t.paginated))
  }

  /** `loadData` with its `next` branch: the old error is cleared,
      bookings get their building, the view is recomputed. */
  function Loaded(s: State, schedules: seq<Schedule>, rooms: seq<Room>): (r: State)
    ensures r.rooms == rooms && |r.table.schedules| == |schedules|
    ensures forall i :: 0 <= i < |schedules| ==>
              r.table.schedules[i] == Row(schedules[i], BuildingOf(rooms, schedules[i].roomId))
    ensures r.errorMessage == ""
  {
    var rows := WithBuildings(rooms, schedules);
    Refresh(s.(rooms := rooms, errorMessage := "", table := s.table.(schedules := rows, filtered := rows)))
  }

  /** The `error` branch of `loadData`. */
  function LoadFailed(s: State): (r: State)
    ensures r.errorMessage == LoadError && r.table == s.table
  {
    s.(errorMessage := LoadError)
  }

  /** `sort(column)`, written the same way in the request list; here the
      ticked boxes and their count survive a re-sort. */
  function Sort(s: State, column: string): (r: State)
    ensures r.table.sort == ToggleSort(s.table.sort, column)
    ensures r.flags == s.flags && r.selectedCount == s.selectedCount
  {
    Refresh(s.(table := s.table.(sort := ToggleSort(s.table.sort, column))))
  }

  /** `onSearch` / `clearSearch`. */
  function Search(s: State, term: string): (r: State)
    ensures r.table.searchTerm == term
    ensures s.table.schedules != [] && Text.IsBlank(term) ==> multiset(r.table.filtered) == multiset(s.table.schedules)
  {
    Refresh(s.(table := s.table.(searchTerm := term)))
  }

  /** `changePage(page)`, written the same way in the request list; here
      the ticked boxes, including those on other pages, are kept. */
  function ChangePage(s: State, page: int): (r: State)
    ensures !(1 <= page <= s.table.totalPages) ==> r == s
    ensures r.flags == s.flags && r.selectedCount == s.selectedCount
  {
    if 1 <= page <= s.table.totalPages then Refresh(s.(table := s.table.(currentPage := page)))
    else s
  }

  /** `changePageSize(event)`, written the same way in the request list;
      here the ticked boxes are kept. */
  function ChangePageSize(s: State, size: PageSize): (r: State)
    ensures r.table.itemsPerPage == size && r.table.currentPage == 1
    ensures r.flags == s.flags && r.selectedCount == s.selectedCount
  {
    Refresh(s.(table := s.table.(itemsPerPage := size, currentPage := 1)))
  }

  /** `toggleSelection(id)`: flip one box, recount, recompute the header
      box. */
  function ToggleSelection(s: State, id: int): (r: State)
    ensures Selection.IsSelected(r.flags, id) <==> !Selection.IsSelected(s.flags, id)
    ensures forall x :: x != id ==> Selection.Lookup(r.flags, x) == Selection.Lookup(s.flags, x)
    ensures r.selectedCount == Selection.CountSelected(r.flags)
    ensures r.selectAll == SelectAllState(r.flags, s.table.paginated)
    ensures r.table == s.table
  {
    var flags := Selection.Toggle(s.flags, id);
    s.(flags := flags, selectedCount := Selection.CountSelected(flags),
       selectAll := SelectAllState(flags, s.table.paginated))
  }

  /** `toggleSelectAll()`: flip the header box and give every row of the
      current page that value; rows on other pages keep theirs. */
  function ToggleSelectAll(s: State): (r: State)
    ensures r.selectAll == !s.selectAll
    ensures forall x :: x in Ids(s.table.paginated) ==> Selection.Lookup(r.flags, x) == Some(r.selectAll)
    ensures forall x :: x !in Ids(s.table.paginated) ==> Selection.Lookup(r.flags, x) == Selection.Lookup(s.flags, x)
    ensures r.selectedCount == Selection.CountSelected(r.flags)
    ensures r.table == s.table
  {
    var b := !s.selectAll;
    var flags := Selection.PutAll(s.flags, Ids(s.table.paginated), b);
    s.(selectAll := b, flags := flags, selectedCount := Selection.CountSelected(flags))
  }

  /** `clearSelections()`. */
  function ClearSelections(s: State): (r: State)
    ensures forall x :: !Selection.IsSelected(r.flags, x)
    ensures r.selectedCount == 0 && !r.selectAll && r.table == s.table
  {
    s.(flags := Selection.Empty, selectedCount := 0, selectAll := false)
  }

  /** `performBulkDelete(ids)`: on success the bookings with those ids are
      dropped, the view recomputed and the selection cleared. */
  function PerformBulkDelete(s: State, ids: seq<int>, reply: Reply): (r: State)
    ensures reply == Ok ==> r.table.schedules == RemoveIds(s.table.schedules, ids)
    ensures reply == Ok ==> r.selectedCount == 0 && !r.selectAll && forall x :: !Selection.IsSelected(r.flags, x)
    ensures reply == Failed ==> r == s.(errorMessage := BulkDeleteError)
  {
    match reply
    case Ok => ClearSelections(Refresh(s.(table := s.table.(schedules := RemoveIds(s.table.schedules, ids)))))
    case Failed => s.(errorMessage := BulkDeleteError)
  }

  /** `openBulkDeleteModal()`: the ticked ids are collected up front and
      deleted whenever the dialog is closed, whatever value it closes with. */
  function OpenBulkDelete(s: State, end: ModalEnd, reply: Reply): (r: State)
    ensures end.Dismissed? ==> r == s
    ensures end.Closed? ==> r == PerformBulkDelete(s, Selection.SelectedIds(s.flags), reply)
  {
    match end
    case Dismissed => s
    case Closed(_) => PerformBulkDelete(s, Selection.SelectedIds(s.flags), reply)
  }

  /** Closing the bulk-delete dialog with any value deletes every ticked
      booking, even a value that does not confirm. */
  lemma BulkDeleteOnAnyClose(s: State, v: Js.Value)
    ensures var r := OpenBulkDelete(s, Closed(v), Ok);
            forall x :: x in r.table.schedules <==> x in s.table.schedules && !Selection.IsSelected(s.flags, x.Id())
  {
  }

  /** The bookings a successful bulk delete keeps stay in their order. */
  lemma BulkDeleteKeepsOrder(s: State, ids: seq<int>)
    ensures IsSubsequence(PerformBulkDelete(s, ids, Ok).table.schedules, s.table.schedules)
  {
    RemoveIdsKeepsOrder(s.table.schedules, ids);
  }

  /** The `next` branch of the delete call: the booking goes and the view is
      recomputed. */
  function Deleted(s: State, id: int): (r: State)
    ensures forall x :: x in r.table.schedules <==> x in s.table.schedules && x.Id() != id
    ensures r.flags == s.flags && r.rooms == s.rooms
  {
    RemoveIdMembers(s.table.schedules, id);
    Refresh(s.(table := s.table.(schedules := RemoveIds(s.table.schedules, [id]))))
  }

  /** `deleteSchedule(id)`: nothing for an unknown id; otherwise, when the
      dialog closes with that id, the server call and its outcome. */
  function DeleteSchedule(s: State, id: int, confirmed: Option<int>, reply: Reply): (r: State)
    ensures (forall i :: 0 <= i < |s.table.schedules| ==> s.table.schedules[i].Id() != id) ==> r == s
    ensures confirmed != Some(id) ==> r == s
    ensures confirmed == Some(id) && reply == Ok ==>
              forall x :: x in r.table.schedules <==> x in s.table.schedules && x.Id() != id
    ensures reply == Failed ==> r.table == s.table
  {
    match FindIndex(s.table.schedules, (x: Row) => x.Id() == id)
    case None => s
    case Some(_) =>
      if confirmed != Some(id) then s
      else match reply
        case Ok => Deleted(s, id)
        case Failed => s.(errorMessage := DeleteError)
  }

  /** The add dialog's result: appended with buildings, view recomputed;
      nothing when the dialog closes without a result. */
  function AddClosed(s: State, added: Added): (r: State)
    ensures added == NoResult ==> r == s
    ensures added != NoResult ==> r.table.schedules == s.table.schedules + AddedRows(s.rooms, added)
  {
    if added == NoResult then s
    else Refresh(s.(table := s.table.(schedules := s.table.schedules + AddedRows(s.rooms, added))))
  }

  /** The edit dialog's result replaces the first booking with its id (with
      a fresh building); an unknown id or no result changes nothing. */
  function EditClosed(s: State, updated: Option<Schedule>): (r: State)
    ensures updated.None? ==> r == s
    ensures updated.Some? && (forall i :: 0 <= i < |s.table.schedules| ==> s.table.schedules[i].Id() != updated.value.id) ==> r == s
    ensures updated.Some? ==> |r.table.schedules| == |s.table.schedules|
    ensures updated.Some? ==>
              forall i :: FirstWithId(s.table.schedules, updated.value.id, i) ==>
                r.table.schedules == s.table.schedules[i := WithBuilding(s.rooms, updated.value)]
  {
    match updated
    case None => s
    case Some(u) =>
      match FindIndex(s.table.schedules, (x: Row) => x.Id() == u.id)
      case None => s
      case Some(i) => Refresh(s.(table := s.table.(schedules := s.table.schedules[i := WithBuilding(s.rooms, u)])))
  }

  /** `openBulkDeleteModal()` as evidently intended: the ticked ids are
      deleted only when the dialog closes with a truthy value, the `true`
      its confirm button closes with; any other ending keeps the state. */
  function OpenBulkDeleteConfirmed(s: State, end: ModalEnd, reply: Reply): (r: State)
    ensures !(end.Closed? && Js.Truthy(end.value)) ==> r == s
    ensures end.Closed? && Js.Truthy(end.value) ==>
              r == PerformBulkDelete(s, Selection.SelectedIds(s.flags), reply)
  {
    match end
    case Dismissed => s
    case Closed(v) => if Js.Truthy(v) then PerformBulkDelete(s, Selection.SelectedIds(s.flags), reply) else s
  }

  /** With the confirmation gate, a dialog closed with a falsy value keeps
      every booking and every ticked box. */
  lemma FalsyCloseKeepsBookings(s: State, v: Js.Value, reply: Reply)
    requires !Js.Truthy(v)
    ensures var r := OpenBulkDeleteConfirmed(s, Closed(v), reply);
            r.table.schedules == s.table.schedules && r.flags == s.flags
  {
  }

  /** Confirming the gated dialog deletes exactly the ticked bookings. */
  lemma ConfirmedBulkDeleteRemovesTicked(s: State)
    ensures var r := OpenBulkDeleteConfirmed(s, Closed(Js.Bool(true)), Ok);
            forall x :: x in r.table.schedules <==> x in s.table.schedules && !Selection.IsSelected(s.flags, x.Id())
  {
  }

  /** The user's actions on the page. */
  datatype Action =
    | Load(schedules: seq<Schedule>, rooms: seq<Room>)
    | LoadError
    | SortBy(column: string)
    | SearchFor(term: string)
    | GoToPage(page: int)
    | PageSizeTo(size: PageSize)
    | ToggleOne(id: int)
    | ToggleAll
    | Clear
    | BulkDelete(end: ModalEnd, reply: Reply)
    | DeleteOne(id: int, confirmed: Option<int>, reply: Reply)
    | AddDialog(added: Added)
    | EditDialog(updated: Option<Schedule>)

  function Step(s: State, a: Action): State {
    match a
    case Load(schedules, rooms) => Loaded(s, schedules, rooms)
    case LoadError => LoadFailed(s)
    case SortBy(column) => Sort(s, column)
    case SearchFor(term) => Search(s, term)
    case GoToPage(page) => ChangePage(s, page)
    case PageSizeTo(size) => ChangePageSize(s, size)
    case ToggleOne(id) => ToggleSelection(s, id)
    case ToggleAll => ToggleSelectAll(s)
    case Clear => ClearSelections(s)
    case BulkDelete(end, reply) => OpenBulkDelete(s, end, reply)
    case DeleteOne(id, confirmed, reply) => DeleteSchedule(s, id, confirmed, reply)
    case AddDialog(added) => AddClosed(s, added)
    case EditDialog(updated) => EditClosed(s, updated)
  }

  /** Every action keeps the current page at least 1 and the stored
      `selectedCount` equal to the number of ticked boxes. */
  lemma StepKeepsValid(s: State, a: Action)
    requires Valid(s)
    ensures Valid(Step(s, a))
  {
  }

  /** The page with the corrected bulk delete: the same as `Step` except
      that a bulk-delete dialog deletes only on a truthy close. */
  function StepCorrected(s: State, a: Action): (r: State)
    ensures !a.BulkDelete? ==> r == Step(s, a)
    ensures a.BulkDelete? ==> r == OpenBulkDeleteConfirmed(s, a.end, a.reply)
  {
    match a
    case BulkDelete(end, reply) => OpenBulkDeleteConfirmed(s, end, reply)
    case _ => Step(s, a)
  }

  /** The corrected page keeps the same invariant as the page as written. */
  lemma StepCorrectedKeepsValid(s: State, a: Action)
    requires Valid(s)
    ensures Valid(StepCorrected(s, a))
  {
    StepKeepsValid(s, a);
  }

  /** From the initial state, any sequence of actions keeps the state
      valid. */
  lemma {:induction false} RunKeepsValid(s: State, actions: seq<Action>)
    requires Valid(s)
    ensures Valid(Run(s, actions))
    decreases |actions|
  {
    if actions != [] {
      StepKeepsValid(s, actions[0]);
      RunKeepsValid(Step(s, actions[0]), actions[1..]);
    }
  }

  function Run(s: State, actions: seq<Action>): State
    decreases |actions|
  {
    if actions == [] then s else Run(Step(s, actions[0]), actions[1..])
  }
}

=== FILE: myschedule.dfy ===
/** The faculty member's own list (my-schedule.component.ts): the shared
    table pipeline and the booking requests the add dialog returns. */
module MySchedule {
  import opened Domain
  import opened TableView

  const Columns: seq<string> :=
    ["roomNumber", "building", "courseCode", "courseDescription", "date", "status", "startTime", "endTime"]

  datatype State = State(table: Table, rooms: seq<Room>)

  /** The result of `openRequestScheduleModal`'s dialog: the new bookings
      are appended after the existing ones, each with its building, and the
      view is recomputed; nothing happens without a result. */
  function RequestClosed(s: State, added: Added): (r: State)
    ensures added == NoResult ==> r == s
    ensures added != NoResult ==> r.table == ApplyFilters(s.table.(schedules := r.table.schedules), Columns)
    ensures |s.table.schedules| <= |r.table.schedules|
    ensures r.table.schedules[..|s.table.schedules|] == s.table.schedules
    ensures r.table.schedules[|s.table.schedules|..] == AddedRows(s.rooms, added)
  {
    if added == NoResult then s
    else
      var rows := s.table.schedules + AddedRows(s.rooms, added);
      assert rows[..|s.table.schedules|] == s.table.schedules;
      s.(table := ApplyFilters(s.table.(schedules := rows), Columns))
  }

  /** A returned booking whose room is not among the loaded rooms is shown
      with building "N/A". */
  lemma UnknownRoomShowsNA(s: State, x: Schedule)
    requires forall i :: 0 <= i < |s.rooms| ==> s.rooms[i].id != x.roomId
    ensures RequestClosed(s, One(x)).table.schedules == s.table.schedules + [Row(x, "N/A")]
  {
  }
}

=== FILE: paging.dfy ===
/** The pagination arithmetic the five list views share: the page count
    `Math.ceil(n / itemsPerPage)`, the clamp of the current page, the page
    slice, and the window of at most five page buttons (`getPageArray`). */
module Paging {
  /** The page sizes the views offer are 10, 20 and 30; any positive size is
      modelled. */
  type PageSize = k: int | k >= 1 witness 10

  function Min(a: int, b: int): int { if a <= b then a else b }
  function Max(a: int, b: int): int { if a >= b then a else b }

  /** `Math.ceil(n / k)`: the least number of pages of `k` rows holding `n`. */
  function TotalPages(n: nat, k: PageSize): (t: nat)
    ensures n <= t * k
    ensures t == 0 || (t - 1) * k < n
    ensures t == 0 <==> n == 0
  {
    var t := (n + k - 1) / k;
    assert n + k - 1 == t * k + (n + k - 1) % k;
    t
  }

  /** `if (currentPage > totalPages) currentPage = totalPages || 1`. */
  function Clamp(current: int, total: nat): (p: int)
    ensures current <= total ==> p == current
    ensures current >= 1 ==> 1 <= p <= Max(total, 1)
    ensures current > total ==> p == Max(total, 1)
  {
    if current > total then (if total == 0 then 1 else total) else current
  }

  /** `Array.prototype.slice(start, end)`: negative bounds count from the
      end, bounds past the end are cut to the length. */
  function JsSlice<T>(s: seq<T>, start: int, end: int): (r: seq<T>)
    ensures 0 <= start <= end <= |s| ==> r == s[start..end]
    ensures |r| <= |s|
  {
    var from := if start < 0 then Max(|s| + start, 0) else Min(start, |s|);
    var to := if end < 0 then Max(|s| + end, 0) else Min(end, |s|);
    if from >= to then [] else s[from..to]
  }

  /** `startIndex = (currentPage - 1) * itemsPerPage`. */
  function Offset(current: int, k: PageSize): (start: int)
    ensures current >= 1 ==> start >= 0
  {
    assert current >= 1 ==> (current - 1) * k >= 0 by {
      if current >= 1 {
        MulMonotone(0, current - 1, k);
      }
    }
    (current - 1) * k
  }

  /** The rows shown on page `current`: `slice(start, min(start + k, n))`. */
  function Page<T>(s: seq<T>, current: int, k: PageSize): seq<T> {
    var start := Offset(current, k);
    JsSlice(s, start, Min(start + k, |s|))
  }

  /** Multiplying by a non-negative factor keeps the order. */
  lemma MulMonotone(a: int, b: int, k: int)
    requires a <= b && k >= 0
    ensures a * k <= b * k
  {
    assert b * k - a * k == (b - a) * k;
  }

  /** A page within range is the contiguous run of at most `k` rows starting
      at `(current - 1) * k`; every page but the last is full. */
  lemma PageIsSlice<T>(s: seq<T>, current: int, k: PageSize)
    requires 1 <= current <= Max(TotalPages(|s|, k), 1)
    ensures 0 <= Offset(current, k) <= Min(Offset(current, k) + k, |s|) <= |s|
    ensures Page(s, current, k) == s[Offset(current, k)..Min(Offset(current, k) + k, |s|)]
    ensures |Page(s, current, k)| <= k
    ensures current < TotalPages(|s|, k) ==> |Page(s, current, k)| == k
    ensures |s| > 0 ==> |Page(s, current, k)| > 0
  {
    var t := TotalPages(|s|, k);
    var start := (current - 1) * k;
    assert start + k == current * k;
    MulMonotone(0, current - 1, k);
    if t == 0 {
      assert current == 1 && start == 0;
    } else {
      MulMonotone(current - 1, t - 1, k);
      assert start < |s|;
      if current < t {
        MulMonotone(current, t - 1, k);
      }
    }
  }

  /** Every row is on exactly one page: row `i` is entry `i % k` of page
      `i / k + 1`, and that page is within range. */
  lemma PageLocates<T>(s: seq<T>, k: PageSize, i: int)
    requires 0 <= i < |s|
    ensures 1 <= i / k + 1 <= TotalPages(|s|, k)
    ensures i % k < |Page(s, i / k + 1, k)|
    ensures Page(s, i / k + 1, k)[i % k] == s[i]
  {
    var q := i / k;
    var t := TotalPages(|s|, k);
    assert i == q * k + i % k;
    MulMonotone(0, q, k);
    if q + 1 > t {
      MulMonotone(t, q, k);
      assert false;
    }
    PageIsSlice(s, q + 1, k);
    assert (q + 1 - 1) * k == q * k;
    assert (q + 1) * k == q * k + k;
  }

  /** The paging fields `applyFilters` derives from the list it shows. */
  datatype Paged<T> = Paged(total: nat, current: int, page: seq<T>)

  /** Lines `totalPages = ...` to `paginated = ...slice(...)` of
      `applyFilters`: count the pages, clamp the current page, cut its
      slice. */
  function Paginate<T>(f: seq<T>, current: int, k: PageSize): (p: Paged<T>)
    ensures |f| <= p.total * k && (p.total == 0 || (p.total - 1) * k < |f|)
    ensures current >= 1 ==> 1 <= p.current <= Max(p.total, 1)
    ensures current >= 1 ==> |p.page| <= k
    ensures current >= 1 && f == [] ==> p.total == 0 && p.current == 1 && p.page == []
    ensures 1 <= current <= p.total ==> p.current == current
    ensures current >= 1 ==>
              0 <= Offset(p.current, k) <= Min(Offset(p.current, k) + k, |f|) <= |f|
              && p.page == f[Offset(p.current, k)..Min(Offset(p.current, k) + k, |f|)]
  {
    var total := TotalPages(|f|, k);
    var c := Clamp(current, total);
    var page := Page(f, c, k);
    assert current >= 1 ==>
             |page| <= k
             && 0 <= Offset(c, k) <= Min(Offset(c, k) + k, |f|) <= |f|
             && page == f[Offset(c, k)..Min(Offset(c, k) + k, |f|)] by {
      if current >= 1 {
        PageIsSlice(f, c, k);
      }
    }
    Paged(total, c, page)
  }

  /** `lo, lo + 1, ..., hi` (empty when `hi < lo`). */
  function Range(lo: int, hi: int): (r: seq<int>)
    ensures |r| == Max(hi - lo + 1, 0)
    ensures forall i :: 0 <= i < |r| ==> r[i] == lo + i
  {
    if hi < lo then [] else seq(hi - lo + 1, i requires 0 <= i <= hi - lo => lo + i)
  }

  /** `getPageArray()`. */
  function PageArray(total: nat, current: int): seq<int> {
    if total <= 5 then Range(1, total)
    else if current <= 3 then Range(1, Min(5, total))
    else if current >= total - 2 then Range(total - 5 + 1, total)
    else Range(current - 2, current + 2)
  }

  /** The page buttons: `min(5, total)` consecutive ascending page numbers,
      all in range, and the current page among them whenever it is in
      range. */
  lemma PageArrayWindow(total: nat, current: int)
    ensures |PageArray(total, current)| == Min(5, total)
    ensures forall i :: 0 < i < |PageArray(total, current)| ==>
              PageArray(total, current)[i] == PageArray(total, current)[i - 1] + 1
    ensures forall i :: 0 <= i < |PageArray(total, current)| ==> 1 <= PageArray(total, current)[i] <= total
    ensures 1 <= current <= total ==> current in PageArray(total, current)
  {
    var r := PageArray(total, current);
    if 1 <= current <= total {
      var lo := r[0];
      assert r[current - lo] == current;
    }
  }
}

=== FILE: request.dfy ===
/** The request list (request.component.ts): the shared table pipeline
    over columns that include the absent `purpose`, and the per-booking
    status change. */
module RequestList {
  import Seqs
  import opened Domain
  import opened TableView

  const Columns: seq<string> := ["roomNumber", "building", "purpose", "userName", "date", "status", "startTime", "endTime"]

  datatype State = State(table: Table, rooms: seq<Room>, errorMessage: string)

  /** How the server answered a status change. */
  datatype StatusReply = Updated(id: int, status: Status) | Refused(message: string)

  /** `updateStatus(schedule, newStatus)`: no call when nothing changes; on
      success the first booking with the returned id takes the returned
      status, with the view lists showing the same object. */
  function UpdateStatus(s: State, schedule: Schedule, newStatus: Status, reply: StatusReply): (r: State)
    ensures schedule.status == newStatus ==> r == s
    ensures schedule.status != newStatus && reply.Updated? ==>
              r.table.schedules == SetStatus(s.table.schedules, reply.id, reply.status)
              && r.table.currentPage == s.table.currentPage && r.table.totalPages == s.table.totalPages
    ensures schedule.status != newStatus && reply.Refused? ==>
              r == s.(errorMessage := "Failed to update status: " + reply.message)
  {
    if schedule.status == newStatus then s
    else match reply
      case Updated(id, status) => s.(table := ApplyStatus(s.table, id, status))
      case Refused(message) => s.(errorMessage := "Failed to update status: " + message)
  }

  /** The status change leaves every other booking alone and changes nothing
      but the status of the one it names. */
  lemma UpdateStatusOnlyMatching(s: State, schedule: Schedule, newStatus: Status, id: int, status: Status, i: int)
    requires schedule.status != newStatus && 0 <= i < |s.table.schedules|
    ensures var r := UpdateStatus(s, schedule, newStatus, Updated(id, status));
            r.table.schedules[i].building == s.table.schedules[i].building
            && r.table.schedules[i].schedule.(status := s.table.schedules[i].schedule.status) == s.table.schedules[i].schedule
            && (s.table.schedules[i].Id() != id ==> r.table.schedules[i] == s.table.schedules[i])
  {
    var rows := s.table.schedules;
    match Seqs.FindIndex(rows, (x: Row) => x.Id() == id)
    case None =>
    case Some(k) =>
      assert FirstWithId(rows, id, k);
  }
}

=== FILE: roompipes.dfy ===
/** The two pipes of utils/roomPipes.ts: the sorted list of building names
    and the rooms of one building ordered by room number. Both `sort()` on
    strings and `localeCompare` are code-unit order here. */
module RoomPipes {
  import opened Text
  import opened Seqs
  import Js
  import Sorting
  import opened Domain

  /** The sort key of a building name. */
  function NameKey(): string -> Js.Value {
    (s: string) => Js.Str(s)
  }

  /** The sort key of a room: its room number. */
  function RoomNumberKey(): Room -> Js.Value {
    (r: Room) => Js.Str(r.roomNumber)
  }

  function Buildings(rooms: seq<Room>): (names: seq<string>)
    ensures |names| == |rooms|
    ensures forall i :: 0 <= i < |rooms| ==> names[i] == rooms[i].building
  {
    seq(|rooms|, i requires 0 <= i < |rooms| => rooms[i].building)
  }

  /** `RoomsByBuildingPipe.transform(rooms)`. */
  function RoomsByBuilding(rooms: seq<Room>): (names: seq<string>)
    ensures rooms == [] ==> names == []
  {
    if rooms == [] then []
    else Sorting.SortBy(Dedup(Buildings(rooms)), NameKey(), Sorting.Asc)
  }

  /** The building list names every building of the rooms and nothing else,
      each once, in strictly ascending order. */
  lemma RoomsByBuildingSpec(rooms: seq<Room>)
    ensures forall b :: b in RoomsByBuilding(rooms) <==> exists i :: 0 <= i < |rooms| && rooms[i].building == b
    ensures forall i, j :: 0 <= i < j < |RoomsByBuilding(rooms)| ==>
              StrLess(RoomsByBuilding(rooms)[i], RoomsByBuilding(rooms)[j])
  {
    if rooms != [] {
      var names := Dedup(Buildings(rooms));
      var r := RoomsByBuilding(rooms);
      forall b
        ensures b in r <==> exists i :: 0 <= i < |rooms| && rooms[i].building == b
      {
        assert b in r <==> b in multiset(names);
        if b in Buildings(rooms) {
          var i :| 0 <= i < |rooms| && Buildings(rooms)[i] == b;
          assert rooms[i].building == b;
        }
      }
      Sorting.SortBySorted(names, NameKey(), Sorting.Asc);
      DistinctSorted(names, r);
    }
  }

  /** A sorted permutation of a duplicate-free list of names is strictly
      ascending. */
  lemma DistinctSorted(names: seq<string>, r: seq<string>)
    requires NoDuplicates(names) && multiset(r) == multiset(names)
    requires Sorting.Sorted(r, NameKey(), Sorting.Asc)
    ensures forall i, j :: 0 <= i < j < |r| ==> StrLess(r[i], r[j])
  {
    PermutationNoDuplicates(names, r);
    forall i, j | 0 <= i < j < |r|
      ensures StrLess(r[i], r[j])
    {
      assert Sorting.Compare(Js.Str(r[i]), Js.Str(r[j]), Sorting.Asc) <= 0;
    }
  }

  /** `FilterByBuildingPipe.transform(rooms, building)`. */
  function FilterByBuilding(rooms: seq<Room>, building: string): (r: seq<Room>)
    ensures rooms == [] || building == "" ==> r == []
  {
    if rooms == [] || building == "" then []
    else RoomsOf(rooms, building)
  }

  /** The rooms of `building`, sorted by room number with `localeCompare`. */
  function RoomsOf(rooms: seq<Room>, building: string): seq<Room> {
    Sorting.SortBy(Filter(rooms, (room: Room) => room.building == building), RoomNumberKey(), Sorting.Asc)
  }

  /** The filtered list holds exactly the rooms of the building, each as often
      as in the input, ordered by room number. */
  lemma FilterByBuildingSpec(rooms: seq<Room>, building: string)
    requires rooms != [] && building != ""
    ensures multiset(FilterByBuilding(rooms, building)) == multiset(Filter(rooms, (room: Room) => room.building == building))
    ensures forall x :: x in FilterByBuilding(rooms, building) <==> x in rooms && x.building == building
    ensures forall i, j :: 0 <= i < j < |FilterByBuilding(rooms, building)| ==>
              var a, b := FilterByBuilding(rooms, building)[i], FilterByBuilding(rooms, building)[j];
              a.roomNumber == b.roomNumber || StrLess(a.roomNumber, b.roomNumber)
  {
    RoomsOfSpec(rooms, building);
  }

  /** `RoomsOf` holds exactly the rooms of the building, each as often as in
      the input, ordered by room number. */
  lemma RoomsOfSpec(rooms: seq<Room>, building: string)
    ensures multiset(RoomsOf(rooms, building)) == multiset(Filter(rooms, (room: Room) => room.building == building))
    ensures forall x :: x in RoomsOf(rooms, building) <==> x in rooms && x.building == building
    ensures forall i, j :: 0 <= i < j < |RoomsOf(rooms, building)| ==>
              var a, b := RoomsOf(rooms, building)[i], RoomsOf(rooms, building)[j];
              a.roomNumber == b.roomNumber || StrLess(a.roomNumber, b.roomNumber)
  {
    var p := (room: Room) => room.building == building;
    var kept := Filter(rooms, p);
    var r := RoomsOf(rooms, building);
    forall x
      ensures x in r <==> x in rooms && x.building == building
    {
      FilterMembers(rooms, p, x);
      assert x in r <==> x in multiset(kept);
    }
    Sorting.SortBySorted(kept, RoomNumberKey(), Sorting.Asc);
    forall i, j | 0 <= i < j < |r|
      ensures r[i].roomNumber == r[j].roomNumber || StrLess(r[i].roomNumber, r[j].roomNumber)
    {
      assert Sorting.Compare(Js.Str(r[i].roomNumber), Js.Str(r[j].roomNumber), Sorting.Asc) <= 0;
    }
  }
}

=== FILE: schedule.dfy ===
/** The booking list (schedule.component.ts): the shared table pipeline
    over columns that include `purpose`, a field bookings do not have, and
    `deleteSchedule`, which sends one delete request as soon as it is called
    and a second one if the dialog is confirmed. */
module ScheduleList {
  import opened Wrappers
  import opened Seqs
  import opened Domain
  import opened Paging
  import opened TableView
  import Js
  import Searching

  const Columns: seq<string> := ["roomNumber", "building", "purpose", "date", "status", "startTime", "endTime"]

  const DeleteError: string := "Failed to delete schedule. Please try again."

  /** The view, the rooms, the error text and the ids of the delete
      requests sent so far (in order). */
  datatype State = State(table: Table, rooms: seq<Room>, errorMessage: string, deleteRequests: seq<int>)

  /** The `purpose` column is absent from every row, so it never matches a
      search term. */
  lemma PurposeNeverMatches(r: Row, loweredTerm: string)
    ensures !Searching.ColumnMatches(RowView(r), loweredTerm, "purpose")
  {
    NoPurposeField(r);
    assert '.' !in "purpose";
    Js.GetNestedValueOfColumn(RowView(r).fields, "purpose");
  }

  /** The reply to the request sent on opening the dialog: on success the
      booking goes and the view is recomputed. */
  function ImmediateDelete(s: State, id: int, reply: Reply): (r: State)
    ensures r.deleteRequests == s.deleteRequests && r.rooms == s.rooms
    ensures reply == Ok ==> r.table == ApplyFilters(s.table.(schedules := RemoveIds(s.table.schedules, [id])), Columns)
    ensures reply == Ok ==> forall x :: x in r.table.schedules <==> x in s.table.schedules && x.Id() != id
    ensures reply == Failed ==> r.table == s.table && r.errorMessage == DeleteError
  {
    match reply
    case Ok => s.(table := ApplyFilters(s.table.(schedules := RemoveIds(s.table.schedules, [id])), Columns))
    case Failed => s.(errorMessage := DeleteError)
  }

  /** The reply to the request sent on confirmation: on success the booking
      goes; with neither a search term nor a sort column the searched list is
      set to a copy of the bookings and the page is left as it was,
      otherwise the view is recomputed. */
  function ConfirmedDelete(s: State, id: int, reply: Reply): (r: State)
    ensures r.deleteRequests == s.deleteRequests && r.rooms == s.rooms
    ensures reply == Ok ==> r.table.schedules == RemoveIds(s.table.schedules, [id])
    ensures reply == Ok ==> forall x :: x in r.table.schedules <==> x in s.table.schedules && x.Id() != id
    ensures reply == Ok && s.table.searchTerm == "" && s.table.sort.column == "" ==>
              r.table.filtered == r.table.schedules && r.table.paginated == s.table.paginated
    ensures reply == Failed ==> r.table == s.table && r.errorMessage == DeleteError
  {
    match reply
    case Ok =>
      var t := s.table.(schedules := RemoveIds(s.table.schedules, [id]));
      if s.table.searchTerm == "" && s.table.sort.column == "" then s.(table := t.(filtered := t.schedules))
      else s.(table := ApplyFilters(t, Columns))
    case Failed => s.(errorMessage := DeleteError)
  }

  /** `deleteSchedule(id)`: nothing for an unknown id. Otherwise the
      request is sent at once (its reply `first`), and if the dialog closes
      with the id a second request follows (its reply `second`). */
  function DeleteSchedule(s: State, id: int, first: Reply, confirmed: Option<int>, second: Reply): (r: State)
    ensures (forall i :: 0 <= i < |s.table.schedules| ==> s.table.schedules[i].Id() != id) ==> r == s
    ensures (exists i :: 0 <= i < |s.table.schedules| && s.table.schedules[i].Id() == id) ==>
              r.deleteRequests == s.deleteRequests + (if confirmed == Some(id) then [id, id] else [id])
    ensures first == Ok ==> forall x :: x in r.table.schedules <==> x in s.table.schedules && x.Id() != id
  {
    match FindIndex(s.table.schedules, (x: Row) => x.Id() == id)
    case None => s
    case Some(_) =>
      var s1 := ImmediateDelete(s.(deleteRequests := s.deleteRequests + [id]), id, first);
      if confirmed == Some(id) then ConfirmedDelete(s1.(deleteRequests := s1.deleteRequests + [id]), id, second)
      else s1
  }

  /** For a known id, the booking is deleted even when the dialog is
      cancelled: the request sent on opening does not wait for it. */
  lemma DeleteWithoutConfirmation(s: State, id: int, i: int)
    requires 0 <= i < |s.table.schedules| && s.table.schedules[i].Id() == id
    ensures var r := DeleteSchedule(s, id, Ok, None, Ok);
            r.deleteRequests == s.deleteRequests + [id]
            && forall x :: x in r.table.schedules <==> x in s.table.schedules && x.Id() != id
  {
    assert FindIndex(s.table.schedules, (x: Row) => x.Id() == id).Some?;
  }

  /** Confirming sends the same delete request twice. */
  lemma ConfirmSendsTwice(s: State, id: int, i: int, first: Reply, second: Reply)
    requires 0 <= i < |s.table.schedules| && s.table.schedules[i].Id() == id
    ensures DeleteSchedule(s, id, first, Some(id), second).deleteRequests == s.deleteRequests + [id, id]
  {
    assert FindIndex(s.table.schedules, (x: Row) => x.Id() == id).Some?;
  }

  /** After a successful delete the id is gone and the other bookings keep
      their order. */
  lemma DeleteKeepsOthers(s: State, id: int, confirmed: Option<int>, second: Reply)
    ensures var r := DeleteSchedule(s, id, Ok, confirmed, second);
            (forall x :: x in r.table.schedules ==> x.Id() != id)
            && IsSubsequence(r.table.schedules, s.table.schedules)
  {
    var rows := s.table.schedules;
    var once := RemoveIds(rows, [id]);
    RemoveIdsKeepsOrder(rows, [id]);
    FilterAll(once, (x: Row) => x.Id() !in [id]);
    match FindIndex(rows, (x: Row) => x.Id() == id)
    case None =>
      SubsequenceOfItself(rows);
    case Some(_) =>
  }
  /** `deleteSchedule(id)` as evidently intended: nothing for an unknown id
      or a cancelled dialog; when the dialog closes with the id, one delete
      request is sent and its reply handled as in the confirmed branch. */
  function DeleteScheduleConfirmed(s: State, id: int, confirmed: Option<int>, reply: Reply): (r: State)
    ensures (forall i :: 0 <= i < |s.table.schedules| ==> s.table.schedules[i].Id() != id) ==> r == s
    ensures confirmed != Some(id) ==> r == s
    ensures confirmed == Some(id) && (exists i :: 0 <= i < |s.table.schedules| && s.table.schedules[i].Id() == id) ==>
              r.deleteRequests == s.deleteRequests + [id]
    ensures confirmed == Some(id) && reply == Ok ==>
              forall x :: x in r.table.schedules <==> x in s.table.schedules && x.Id() != id
  {
    match FindIndex(s.table.schedules, (x: Row) => x.Id() == id)
    case None => s
    case Some(_) =>
      if confirmed == Some(id) then ConfirmedDelete(s.(deleteRequests := s.deleteRequests + [id]), id, reply)
      else s
  }

  /** With the corrected delete, a cancelled dialog keeps the booking and
      sends nothing, where the code as written deletes it. */
  lemma CancelKeepsBooking(s: State, id: int, i: int, reply: Reply)
    requires 0 <= i < |s.table.schedules| && s.table.schedules[i].Id() == id
    ensures var r := DeleteScheduleConfirmed(s, id, None, reply);
            s.table.schedules[i] in r.table.schedules && r.deleteRequests == s.deleteRequests
    ensures s.table.schedules[i] !in DeleteSchedule(s, id, Ok, None, reply).table.schedules
  {
  }

  /** The corrected delete sends at most one request, whatever the dialog
      returns, and never rewrites the requests already sent; the code as
      written sends two on confirmation. */
  lemma AtMostOneRequest(s: State, id: int, confirmed: Option<int>, reply: Reply)
    ensures var r := DeleteScheduleConfirmed(s, id, confirmed, reply);
            |s.deleteRequests| <= |r.deleteRequests| <= |s.deleteRequests| + 1
            && r.deleteRequests[..|s.deleteRequests|] == s.deleteRequests
  {
  }
}

=== FILE: scheduleapi.dfy ===
/** The parts of services/scheduleApi.ts that are logic rather than HTTP
    calls: the shape of the recurring-booking request and the way an HTTP
    error is turned into the message the components show. */
module ScheduleApi {
  import opened Wrappers
  import Js
  import Text
  import opened Domain

  // ---------------------------------------------------------------------------
  // Request shapes
  // ---------------------------------------------------------------------------

  /** `Omit<Schedule, 'id' | 'date'>`: a booking without id and date. */
  datatype BaseSchedule = BaseSchedule(
    roomId: int,
    roomNumber: string,
    userId: int,
    userName: string,
    startTime: string,
    endTime: string,
    courseId: int,
    courseCode: string,
    courseDescription: string,
    status: Status)

  /** The dates between which, and the weekdays on which, the booking repeats;
      weekdays are numbered 0 = Sunday, 1 = Monday, ..., 6 = Saturday. */
  datatype RecurrencePattern = RecurrencePattern(startDate: string, endDate: string, daysOfWeek: seq<int>)

  datatype RecurringScheduleRequest = RecurringScheduleRequest(
    baseSchedule: BaseSchedule,
    recurrencePattern: RecurrencePattern)

  /** A booking to create: every field of `Schedule` but the id, which the
      server assigns. */
  datatype NewSchedule = NewSchedule(fields: BaseSchedule, date: string)

  /** The booking with its id and date dropped. */
  function Omit(s: Schedule): (b: BaseSchedule)
    ensures b.roomId == s.roomId && b.userId == s.userId && b.courseId == s.courseId && b.status == s.status
  {
    BaseSchedule(s.roomId, s.roomNumber, s.userId, s.userName, s.startTime, s.endTime,
                 s.courseId, s.courseCode, s.courseDescription, s.status)
  }

  /** The booking a base schedule becomes once the server gives it an id and
      a date: it has exactly those, and dropping them again gives the base. */
  function Complete(b: BaseSchedule, id: int, date: string): (s: Schedule)
    ensures s.id == id && s.date == date
    ensures Omit(s) == b
  {
    Schedule(id, b.roomId, b.roomNumber, b.userId, b.userName, date, b.startTime, b.endTime,
             b.courseId, b.courseCode, b.courseDescription, b.status)
  }

  /** A base schedule determines every field of a booking except its id and
      date: completing the omission of a booking gives the booking back. */
  lemma OmitComplete(s: Schedule)
    ensures Complete(Omit(s), s.id, s.date) == s
  {
  }

  /** The weekday a pattern number stands for. */
  function WeekdayName(d: int): (name: string)
    requires 0 <= d < 7
    ensures d == 0 <==> name == "Sunday"
  {
    ["Sunday", "Monday", "Tuesday", "Wednesday", "Thursday", "Friday", "Saturday"][d]
  }

  // ---------------------------------------------------------------------------
  // handleError
  // ---------------------------------------------------------------------------

  /** `error.error` of an `HttpErrorResponse`: a client-side `ErrorEvent` or
      the response body the server sent. */
  datatype ErrorBody = ClientEvent(message: string) | Payload(body: Js.Value)

  /** The `HttpErrorResponse`: its body, HTTP status and own message. */
  datatype HttpError = HttpError(error: ErrorBody, status: int, message: string)

  /** The `Error` thrown on to the components, with the status attached. */
  datatype ApiError = ApiError(message: string, status: int)

  /** The fallback message naming the status and the response's message. */
  function CodeMessage(status: int, message: string): string {
    "Error Code: " + Text.IntToString(status) + "\nMessage: " + message
  }

  /** `handleError(error)`. `jsonParse` is `JSON.parse`, with `None` when it
      throws. Reading `message` of a parsed `null` also throws and is caught,
      like reading it off a non-object, which yields `undefined`: either way
      the raw text is used. `new Error(m)` stores `String(m)`. */
  function HandleError(e: HttpError, jsonParse: string -> Option<Js.Value>): (r: ApiError)
    ensures r.status == e.status
    ensures e.error.ClientEvent? ==> r.message == "Error: " + e.error.message
    ensures e.error.Payload? && e.error.body.Obj? && Js.Truthy(Js.Get(e.error.body, "message"))
            ==> r.message == Js.ToJsString(Js.Get(e.error.body, "message"))
    ensures e.error.Payload? && e.error.body.Str? && jsonParse(e.error.body.s).None?
            ==> r.message == e.error.body.s
    ensures e.error.Payload? && !e.error.body.Str? && !(e.error.body.Obj? && Js.Truthy(Js.Get(e.error.body, "message")))
            ==> r.message == CodeMessage(e.status, e.message)
  {
    var message := match e.error
      case ClientEvent(m) => "Error: " + m
      case Payload(body) =>
        if body.Obj? && Js.Truthy(Js.Get(body, "message")) then Js.ToJsString(Js.Get(body, "message"))
        else if body.Str? then
          match jsonParse(body.s)
          case None => body.s
          case Some(parsed) =>
            if Js.Truthy(Js.Get(parsed, "message")) then Js.ToJsString(Js.Get(parsed, "message")) else body.s
        else CodeMessage(e.status, e.message);
    ApiError(message, e.status)
  }

  /** A body sent as JSON text reads the same as the object it encodes: when
      the text parses to an object with a message, the two bodies give the same
      error. */
  lemma TextBodyAsObject(status: int, message: string, text: string, jsonParse: string -> Option<Js.Value>)
    requires jsonParse(text).Some? && jsonParse(text).value.Obj?
    requires Js.Truthy(Js.Get(jsonParse(text).value, "message"))
    ensures HandleError(HttpError(Payload(Js.Str(text)), status, message), jsonParse)
         == HandleError(HttpError(Payload(jsonParse(text).value), status, message), jsonParse)
  {
  }

  /** Text that parses to something without a truthy message, `null` among
      them, is shown as it is. */
  lemma TextBodyWithoutMessage(status: int, message: string, text: string, jsonParse: string -> Option<Js.Value>)
    requires jsonParse(text).Some? && !Js.Truthy(Js.Get(jsonParse(text).value, "message"))
    ensures HandleError(HttpError(Payload(Js.Str(text)), status, message), jsonParse).message == text
  {
  }

  /** An object body whose message is empty or missing falls back to the
      status line, like a body that is not there at all. */
  lemma EmptyMessageFallsBack(status: int, message: string, fields: map<string, Js.Value>, jsonParse: string -> Option<Js.Value>)
    requires "message" !in fields || fields["message"] == Js.Str("")
    ensures HandleError(HttpError(Payload(Js.Obj(fields)), status, message), jsonParse)
         == HandleError(HttpError(Payload(Js.Null), status, message), jsonParse)
  {
  }
}

=== FILE: searching.dfy ===
/** `searchData` of utils/searchTable.ts: keeps the rows in which some listed
    column shows the search term, ignoring letter case. */
module Searching {
  import opened Text
  import opened Seqs
  import Js

  /** The value at `column` is neither null nor undefined and its lower-cased
      text contains `loweredTerm`. */
  predicate ColumnMatches(v: Js.Value, loweredTerm: string, column: string) {
    var value := Js.GetNestedValue(v, column);
    value != Js.Null && value != Js.Undefined
    && Includes(ToLower(Js.ToJsString(value)), loweredTerm)
  }

  /** `searchColumns.some(column => ...)`. */
  predicate SomeColumnMatches(v: Js.Value, loweredTerm: string, columns: seq<string>)
    ensures SomeColumnMatches(v, loweredTerm, columns)
        <==> exists i :: 0 <= i < |columns| && ColumnMatches(v, loweredTerm, columns[i])
  {
    Any(columns, (c: string) => ColumnMatches(v, loweredTerm, c))
  }

  /** The row matches the term: the term is lower-cased, not trimmed. */
  predicate Matches(v: Js.Value, term: string, columns: seq<string>) {
    SomeColumnMatches(v, ToLower(term), columns)
  }

  /** `searchData(data, searchTerm, searchColumns)`. `view` presents a row as
      the object the utility inspects. */
  function SearchData<T>(data: seq<T>, view: T -> Js.Value, term: string, columns: seq<string>): (r: seq<T>)
    ensures IsBlank(term) ==> r == data
    ensures !IsBlank(term) ==> forall i :: 0 <= i < |r| ==> Matches(view(r[i]), term, columns)
    ensures |r| <= |data|
  {
    if IsBlank(term) then data
    else Filter(data, (x: T) => Matches(view(x), term, columns))
  }

  /** With a non-blank term a row is kept exactly when some listed column
      matches, and the kept rows are an order-preserving sub-list. */
  lemma SearchDataKeeps<T>(data: seq<T>, view: T -> Js.Value, term: string, columns: seq<string>, x: T)
    requires !IsBlank(term)
    ensures x in SearchData(data, view, term, columns)
        <==> x in data && exists i :: 0 <= i < |columns| && ColumnMatches(view(x), ToLower(term), columns[i])
  {
    FilterMembers(data, (x: T) => Matches(view(x), term, columns), x);
  }

  lemma SearchDataSubsequence<T>(data: seq<T>, view: T -> Js.Value, term: string, columns: seq<string>)
    ensures IsSubsequence(SearchData(data, view, term, columns), data)
  {
    if IsBlank(term) {
      SubsequenceOfItself(data);
    } else {
      FilterSubsequence(data, (x: T) => Matches(view(x), term, columns));
    }
  }

  /** A null or undefined value never matches, whatever the term. */
  lemma AbsentNeverMatches(v: Js.Value, loweredTerm: string, column: string)
    requires Js.GetNestedValue(v, column) in {Js.Null, Js.Undefined}
    ensures !ColumnMatches(v, loweredTerm, column)
  {
  }

  /** A non-blank term and no columns to search give no rows. */
  lemma SearchNoColumns<T>(data: seq<T>, view: T -> Js.Value, term: string)
    requires !IsBlank(term)
    ensures SearchData(data, view, term, []) == []
  {
    FilterNone(data, (x: T) => Matches(view(x), term, []));
  }

  /** A text lacking one of the term's characters does not contain it. */
  lemma MissingChar(s: string, t: string, c: char)
    requires c in t && c !in s
    ensures !Includes(s, t)
  {
    var k :| 0 <= k < |t| && t[k] == c;
    forall i | 0 <= i && i + |t| <= |s|
      ensures !OccursAt(s, t, i)
    {
      assert s[i..i + |t|][k] == s[i + k] != t[k];
    }
  }

  /** The term is not trimmed: a trailing space takes part in the match, so
      "math " does not find a column whose text is "math". */
  lemma TermNotTrimmed(v: Js.Value, column: string, word: string)
    requires Js.GetNestedValue(v, column) == Js.Str(word)
    requires ' ' !in word
    ensures !ColumnMatches(v, ToLower(word + " "), column)
  {
    var lowered := ToLower(word + " ");
    assert lowered[|word|] == ' ';
    assert ' ' !in ToLower(word) by {
      forall k | 0 <= k < |word|
        ensures ToLower(word)[k] != ' '
      {
        assert word[k] != ' ';
      }
    }
    MissingChar(ToLower(word), lowered, ' ');
  }
}

=== FILE: selection.dfy ===
/** The check-box selection of the admin list views, the JavaScript object
    `{ [id: number]: boolean }`. Its integer keys enumerate in ascending
    order (`Object.entries`, `Object.values`), so it is kept as a list of
    entries strictly ascending by id. */
module Selection {
  import opened Wrappers
  import opened Seqs

  datatype Entry = Entry(id: int, selected: bool)

  /** Each entry's id is below the next one's. */
  predicate Ascending(entries: seq<Entry>)
    decreases |entries|
  {
    |entries| <= 1 || (entries[0].id < entries[1].id && Ascending(entries[1..]))
  }

  type Flags = entries: seq<Entry> | Ascending(entries) witness []

  /** `{}`. */
  const Empty: Flags := []

  /** In an ascending list every entry after the first has a larger id. */
  lemma {:induction false} AfterFirst(f: seq<Entry>)
    requires f != [] && Ascending(f)
    ensures forall e :: e in f[1..] ==> f[0].id < e.id
    decreases |f|
  {
    if |f| > 1 {
      AfterFirst(f[1..]);
      assert forall e :: e in f[1..] ==> e == f[1] || e in f[1..][1..];
    }
  }

  /** Ascending from one entry to the next means ascending between any two. */
  lemma {:induction false} AscendingPairs(f: seq<Entry>)
    requires Ascending(f)
    ensures forall i, j :: 0 <= i < j < |f| ==> f[i].id < f[j].id
    decreases |f|
  {
    if f != [] {
      AscendingPairs(f[1..]);
      AfterFirst(f);
      forall i, j | 0 <= i < j < |f| ensures f[i].id < f[j].id {
        assert f[j] == f[1..][j - 1];
        if i > 0 { assert f[i] == f[1..][i - 1]; }
      }
    }
  }

  /** `selected[id]`; `None` is `undefined` (never set). */
  function Lookup(f: Flags, id: int): Option<bool> {
    if f == [] then None
    else if f[0].id == id then Some(f[0].selected)
    else Lookup(f[1..], id)
  }

  /** A flag is found exactly when some entry has the id, and then it is
      that entry's flag. */
  lemma {:induction false} LookupFound(f: Flags, id: int)
    ensures Lookup(f, id).Some? <==> exists i :: 0 <= i < |f| && f[i].id == id
    ensures forall i :: 0 <= i < |f| && f[i].id == id ==> Lookup(f, id) == Some(f[i].selected)
  {
    if f != [] {
      var rest: Flags := f[1..];
      LookupFound(rest, id);
      AfterFirst(f);
      assert forall i :: 1 <= i < |f| ==> f[i] == rest[i - 1] && f[i] in rest;
      if f[0].id != id {
        assert (exists i :: 0 <= i < |f| && f[i].id == id) ==> exists i :: 0 <= i < |rest| && rest[i].id == id;
      }
    }
  }

  /** The flag is truthy: set and true. */
  predicate IsSelected(f: Flags, id: int) {
    Lookup(f, id) == Some(true)
  }

  /** Looking up in a list with an entry in front: that entry, or the rest. */
  lemma LookupCons(e: Entry, t: Flags, x: int)
    requires Ascending([e] + t)
    ensures Lookup([e] + t, x) == if e.id == x then Some(e.selected) else Lookup(t, x)
  {
    var f: Flags := [e] + t;
    assert f[0] == e && f[1..] == t;
  }

  /** `selected[id] = b`: the new entry is there, and every other entry was
      there before. */
  function Put(f: Flags, id: int, b: bool): (r: Flags)
    ensures Entry(id, b) in r
    ensures forall e :: e in r ==> e.id == id || e in f
  {
    if f == [] || id < f[0].id then
      var r := [Entry(id, b)] + f;
      assert r[1..] == f;
      r
    else if id == f[0].id then
      var r := [Entry(id, b)] + f[1..];
      assert r[1..] == f[1..];
      assert forall e :: e in f[1..] ==> e in f;
      r
    else
      var rest: Flags := f[1..];
      var tail := Put(rest, id, b);
      AfterFirst(f);
      assert tail[0] in tail;
      var r := [f[0]] + tail;
      assert r[1..] == tail;
      assert forall e :: e in rest ==> e in f;
      r
  }

  /** After the put, the id reads the new flag and every other id reads what
      it read before. */
  lemma {:induction false} PutLookup(f: Flags, id: int, b: bool, x: int)
    ensures Lookup(Put(f, id, b), x) == if x == id then Some(b) else Lookup(f, x)
  {
    if f == [] || id < f[0].id {
      LookupCons(Entry(id, b), f, x);
    } else if id == f[0].id {
      var rest: Flags := f[1..];
      assert [f[0]] + rest == f;
      LookupCons(Entry(id, b), rest, x);
      LookupCons(f[0], rest, x);
    } else {
      var rest: Flags := f[1..];
      assert [f[0]] + rest == f;
      PutLookup(rest, id, b, x);
      LookupCons(f[0], Put(rest, id, b), x);
      LookupCons(f[0], rest, x);
    }
  }

  /** The pointwise reading of a put, for every id at once. */
  lemma PutLookupAll(f: Flags, id: int, b: bool)
    ensures forall x :: Lookup(Put(f, id, b), x) == if x == id then Some(b) else Lookup(f, x)
  {
    forall x { PutLookup(f, id, b, x); }
  }

  /** `selected[id] = !selected[id]`. */
  function Toggle(f: Flags, id: int): (r: Flags)
    ensures IsSelected(r, id) <==> !IsSelected(f, id)
    ensures forall x :: x != id ==> Lookup(r, x) == Lookup(f, x)
  {
    PutLookupAll(f, id, !IsSelected(f, id));
    Put(f, id, !IsSelected(f, id))
  }

  /** `ids.forEach(id => selected[id] = b)`. */
  function PutAll(f: Flags, ids: seq<int>, b: bool): (r: Flags)
    ensures forall x :: Lookup(r, x) == if x in ids then Some(b) else Lookup(f, x)
    decreases |ids|
  {
    if ids == [] then f
    else
      PutLookupAll(f, ids[0], b);
      var r := PutAll(Put(f, ids[0], b), ids[1..], b);
      assert forall x :: x in ids <==> x == ids[0] || x in ids[1..];
      r
  }

  /** `ids.every(id => selected[id])`. */
  predicate AllSelected(f: Flags, ids: seq<int>) {
    forall i :: 0 <= i < |ids| ==> IsSelected(f, ids[i])
  }

  /** The entries flagged true, in key order. */
  function TrueEntries(f: Flags): (r: seq<Entry>)
    ensures forall e :: e in r <==> e in f && e.selected
  {
    var r := Filter(f, (e: Entry) => e.selected);
    assert forall e :: e in r <==> e in f && e.selected by {
      forall e { FilterMembers(f, (e: Entry) => e.selected, e); }
    }
    r
  }

  /** `Object.values(selected).filter(Boolean).length`. */
  function CountSelected(f: Flags): (n: nat)
    ensures n <= |f|
  {
    |TrueEntries(f)|
  }

  /** `Object.entries(selected).filter(([_, s]) => s).map(([id, _]) => id)`;
      the key text converts back to the same number. */
  function SelectedIds(f: Flags): (ids: seq<int>)
    ensures |ids| == CountSelected(f)
    ensures forall x :: x in ids <==> IsSelected(f, x)
  {
    var t := TrueEntries(f);
    var ids := seq(|t|, i requires 0 <= i < |t| => t[i].id);
    assert forall x :: x in ids <==> IsSelected(f, x) by {
      forall x
        ensures x in ids <==> IsSelected(f, x)
      {
        LookupFound(f, x);
        if IsSelected(f, x) {
          var i :| 0 <= i < |f| && f[i].id == x;
          assert f[i] in t;
          var j :| 0 <= j < |t| && t[j] == f[i];
          assert ids[j] == x;
        }
        if x in ids {
          var j :| 0 <= j < |ids| && ids[j] == x;
          assert t[j] in f;
        }
      }
    }
    ids
  }

  /** The selected ids come out strictly ascending, hence without repeats. */
  lemma SelectedIdsAscending(f: Flags)
    ensures forall i, j :: 0 <= i < j < |SelectedIds(f)| ==> SelectedIds(f)[i] < SelectedIds(f)[j]
  {
    FilterSubsequence(f, (e: Entry) => e.selected);
    SubsequenceAscending(TrueEntries(f), f);
    AscendingPairs(TrueEntries(f));
  }

  /** A sub-list of an ascending list is ascending. */
  lemma {:induction false} SubsequenceAscending(a: seq<Entry>, b: seq<Entry>)
    requires IsSubsequence(a, b) && Ascending(b)
    ensures Ascending(a)
    decreases |b|
  {
    if a != [] && b != [] {
      if a[0] == b[0] {
        SubsequenceAscending(a[1..], b[1..]);
        if |a| > 1 {
          SubsequenceMembers(a[1..], b[1..]);
          AfterFirst(b);
          assert a[1] in a[1..];
        }
      } else {
        SubsequenceAscending(a, b[1..]);
      }
    }
  }

  /** Every element of a sub-list is an element of the list. */
  lemma {:induction false} SubsequenceMembers<T>(a: seq<T>, b: seq<T>)
    requires IsSubsequence(a, b)
    ensures forall x :: x in a ==> x in b
    decreases |b|
  {
    if a != [] && b != [] {
      if a[0] == b[0] {
        SubsequenceMembers(a[1..], b[1..]);
        assert forall x :: x in a ==> x == a[0] || x in a[1..];
      } else {
        SubsequenceMembers(a, b[1..]);
      }
    }
  }
}

=== FILE: seqs.dfy ===
/** The array operations the components build on: `filter`, `findIndex`,
    and the order-preserving sub-list relation their results satisfy. */
module Seqs {
  import opened Wrappers

  /** `a` is `b` with some elements left out, the rest in their order. */
  ghost predicate IsSubsequence<T>(a: seq<T>, b: seq<T>)
    decreases |b|
  {
    if a == [] then true
    else if b == [] then false
    else if a[0] == b[0] then IsSubsequence(a[1..], b[1..])
    else IsSubsequence(a, b[1..])
  }

  lemma {:induction false} SubsequenceOfItself<T>(a: seq<T>)
    ensures IsSubsequence(a, a)
  {
    if a != [] {
      SubsequenceOfItself(a[1..]);
    }
  }

  /** `s.filter(p)`: the elements satisfying `p`, in order. */
  function Filter<T>(s: seq<T>, p: T -> bool): (r: seq<T>)
    ensures |r| <= |s|
    ensures forall i :: 0 <= i < |r| ==> p(r[i])
  {
    if s == [] then []
    else if p(s[0]) then [s[0]] + Filter(s[1..], p)
    else Filter(s[1..], p)
  }

  /** An element is kept exactly when it is in the input and satisfies `p`. */
  lemma {:induction false} FilterMembers<T>(s: seq<T>, p: T -> bool, x: T)
    ensures x in Filter(s, p) <==> x in s && p(x)
  {
    if s != [] {
      FilterMembers(s[1..], p, x);
      assert x in s <==> x == s[0] || x in s[1..];
    }
  }

  /** The kept elements keep their relative order. */
  lemma {:induction false} FilterSubsequence<T>(s: seq<T>, p: T -> bool)
    ensures IsSubsequence(Filter(s, p), s)
  {
    if s != [] {
      FilterSubsequence(s[1..], p);
      if p(s[0]) {
        assert Filter(s, p)[1..] == Filter(s[1..], p);
      }
    }
  }

  /** Filtering a list that already satisfies `p` everywhere keeps it whole. */
  lemma {:induction false} FilterAll<T>(s: seq<T>, p: T -> bool)
    requires forall i :: 0 <= i < |s| ==> p(s[i])
    ensures Filter(s, p) == s
  {
    if s != [] {
      FilterAll(s[1..], p);
    }
  }

  /** Nothing is kept when no element satisfies `p`. */
  lemma {:induction false} FilterNone<T>(s: seq<T>, p: T -> bool)
    requires forall i :: 0 <= i < |s| ==> !p(s[i])
    ensures Filter(s, p) == []
  {
    if s != [] {
      FilterNone(s[1..], p);
    }
  }

  /** Filtering distributes over concatenation. */
  lemma {:induction false} FilterAppend<T>(a: seq<T>, b: seq<T>, p: T -> bool)
    ensures Filter(a + b, p) == Filter(a, p) + Filter(b, p)
  {
    if a != [] {
      assert (a + b)[1..] == a[1..] + b;
      FilterAppend(a[1..], b, p);
    } else {
      assert a + b == b;
    }
  }

  /** Putting an element in front keeps a sub-list a sub-list. */
  lemma {:induction false} SubsequencePrepend<T>(x: T, a: seq<T>, b: seq<T>)
    ensures IsSubsequence(a, b) ==> IsSubsequence(a, [x] + b)
    decreases |b|, 1
  {
    if IsSubsequence(a, b) && a != [] {
      assert ([x] + b)[1..] == b;
      if a[0] == x {
        SubsequenceTail(a, b);
      }
    }
  }

  /** Leaving out the first element of a sub-list keeps it a sub-list. */
  lemma {:induction false} SubsequenceTail<T>(a: seq<T>, b: seq<T>)
    ensures a != [] && IsSubsequence(a, b) ==> IsSubsequence(a[1..], b)
    decreases |b|, 0
  {
    if a != [] && IsSubsequence(a, b) && b != [] {
      if a[0] == b[0] {
        SubsequencePrepend(b[0], a[1..], b[1..]);
      } else {
        SubsequenceTail(a, b[1..]);
        SubsequencePrepend(b[0], a[1..], b[1..]);
      }
      assert [b[0]] + b[1..] == b;
    }
  }

  /** Filtering by `p` and then by `q` is filtering by a condition that
      holds exactly where both do. */
  lemma {:induction false} FilterFilter<T>(s: seq<T>, p: T -> bool, q: T -> bool, pq: T -> bool)
    requires forall i :: 0 <= i < |s| ==> pq(s[i]) == (p(s[i]) && q(s[i]))
    ensures Filter(Filter(s, p), q) == Filter(s, pq)
  {
    if s != [] {
      FilterFilter(s[1..], p, q, pq);
      if p(s[0]) {
        assert ([s[0]] + Filter(s[1..], p))[1..] == Filter(s[1..], p);
      }
    }
  }

  /** `s.some(p)`: some element satisfies `p`. */
  predicate Any<T>(s: seq<T>, p: T -> bool)
    ensures Any(s, p) <==> exists i :: 0 <= i < |s| && p(s[i])
  {
    if s == [] then false
    else
      var rest := Any(s[1..], p);
      assert forall i :: 0 < i < |s| ==> s[i] == s[1..][i - 1];
      p(s[0]) || rest
  }

  /** The index of the first element of `s` satisfying `p` (`findIndex`;
      `None` is -1). */
  function FindIndex<T>(s: seq<T>, p: T -> bool): (r: Option<nat>)
    ensures r.Some? ==> r.value < |s| && p(s[r.value]) && forall j :: 0 <= j < r.value ==> !p(s[j])
    ensures r.None? ==> forall j :: 0 <= j < |s| ==> !p(s[j])
  {
    if s == [] then None
    else if p(s[0]) then Some(0)
    else match FindIndex(s[1..], p)
      case None => None
      case Some(i) => Some(i + 1)
  }

  /** No value occurs twice. */
  predicate NoDuplicates<T(==)>(s: seq<T>) {
    forall i, j :: 0 <= i < j < |s| ==> s[i] != s[j]
  }

  /** `[...new Set(s)]`: the distinct values in order of first occurrence. */
  function Dedup<T(==,!new)>(s: seq<T>): (r: seq<T>)
    ensures forall x :: x in r <==> x in s
    ensures NoDuplicates(r)
  {
    if s == [] then []
    else
      var d := Dedup(s[..|s| - 1]);
      assert s == s[..|s| - 1] + [s[|s| - 1]];
      if s[|s| - 1] in d then d else d + [s[|s| - 1]]
  }

  /** A value after position `i` equal to `s[i]` adds to its count. */
  lemma CountOfPair<T>(s: seq<T>, i: int, j: int)
    requires 0 <= i < j < |s|
    ensures multiset(s)[s[i]] >= 1 + multiset([s[j]])[s[i]]
  {
    assert s == s[..i] + [s[i]] + s[i + 1..j] + [s[j]] + s[j + 1..];
  }

  /** A duplicate-free list holds each value at most once. */
  lemma {:induction false} NoDuplicatesCounts<T>(s: seq<T>)
    requires NoDuplicates(s)
    ensures forall x :: multiset(s)[x] <= 1
  {
    if s != [] {
      assert s == [s[0]] + s[1..];
      NoDuplicatesCounts(s[1..]);
      assert s[0] !in s[1..];
    }
  }

  /** Any rearrangement of a duplicate-free list is duplicate-free. */
  lemma PermutationNoDuplicates<T>(a: seq<T>, b: seq<T>)
    requires NoDuplicates(a) && multiset(b) == multiset(a)
    ensures NoDuplicates(b)
  {
    NoDuplicatesCounts(a);
    forall i, j | 0 <= i < j < |b|
      ensures b[i] != b[j]
    {
      CountOfPair(b, i, j);
      assert multiset([b[j]])[b[i]] == 0;
    }
  }
}

=== FILE: sorting.dfy ===
/** `sortData` of utils/sortTable.ts: a stable sort of the rows by the value
    found at a (possibly dotted) column path, with the comparator the utility
    hands to `Array.prototype.sort`. The sort itself is modelled as a stable
    insertion sort: for a comparator that is a total preorder on the keys at
    hand, every stable sort produces this same order. */
module Sorting {
  import opened Wrappers
  import opened Text
  import Js

  datatype Direction = Asc | Desc

  /** `{ column, direction }`; an empty column means "unsorted". */
  datatype SortColumn = SortColumn(column: string, direction: Direction)

  // ---------------------------------------------------------------------------
  // The comparator
  // ---------------------------------------------------------------------------

  /** ToPrimitive of the values at hand: an object becomes its string form. */
  function ToPrimitive(v: Js.Value): (p: Js.Value)
    ensures !p.Obj?
  {
    if v.Obj? then Js.Str(Js.ToJsString(v)) else v
  }

  /** ToNumber of a primitive; `None` is NaN. */
  function ToNum(v: Js.Value): Option<int> {
    match v
    case Null => Some(0)
    case Undefined => None
    case Bool(b) => Some(if b then 1 else 0)
    case Num(n) => Some(n)
    case Str(s) => ToNumber(s)
    case Obj(_) => None
  }

  /** JavaScript's `a < b`: two strings compare by code units, anything else
      as numbers, and NaN compares false. */
  predicate JsLess(a: Js.Value, b: Js.Value) {
    var pa, pb := ToPrimitive(a), ToPrimitive(b);
    if pa.Str? && pb.Str? then StrLess(pa.s, pb.s)
    else
      var na, nb := ToNum(pa), ToNum(pb);
      na.Some? && nb.Some? && na.value < nb.value
  }

  /** The comparison of two keys in ascending order: 0 for identical values,
      the sign of `localeCompare` for two strings, otherwise -1 when `a < b`
      and 1 in every other case. */
  function AscCompare(a: Js.Value, b: Js.Value): int {
    if a == b then 0
    else if a.Str? && b.Str? then (if StrLess(a.s, b.s) then -1 else 1)
    else if JsLess(a, b) then -1
    else 1
  }

  /** The comparator of `sortData` for the given direction. */
  function Compare(a: Js.Value, b: Js.Value, dir: Direction): (c: int)
    ensures -1 <= c <= 1
    ensures c == 0 <==> a == b
    ensures a.Str? && b.Str? && a != b ==> (c < 0 <==> (dir == Asc <==> StrLess(a.s, b.s)))
    ensures a.Num? && b.Num? && a != b ==> (c < 0 <==> (dir == Asc <==> a.n < b.n))
  {
    if dir == Asc then AscCompare(a, b) else -AscCompare(a, b)
  }

  /** Equal keys compare as 0, and 'desc' is the exact negation of 'asc'. */
  lemma CompareDirections(a: Js.Value, b: Js.Value)
    ensures Compare(a, a, Asc) == 0 && Compare(a, a, Desc) == 0
    ensures Compare(a, b, Desc) == -Compare(a, b, Asc)
  {
  }

  /** Keys of one kind: both strings or both numbers. On such keys the
      comparator is a total preorder; on mixed kinds it need not be. */
  predicate SameKind(a: Js.Value, b: Js.Value) {
    (a.Str? && b.Str?) || (a.Num? && b.Num?)
  }

  /** On keys of one kind, swapping the operands negates the comparison. */
  lemma CompareAntisymmetric(a: Js.Value, b: Js.Value, dir: Direction)
    requires SameKind(a, b)
    ensures Compare(b, a, dir) == -Compare(a, b, dir)
  {
    if a != b && a.Str? {
      StrLessTotal(a.s, b.s);
      if StrLess(a.s, b.s) {
        StrLessAsymmetric(a.s, b.s);
      } else {
        StrLessAsymmetric(b.s, a.s);
      }
    }
  }

  /** In ascending order, "not after" is the key order itself. */
  lemma AscNotAfter(a: Js.Value, b: Js.Value)
    requires SameKind(a, b)
    ensures AscCompare(a, b) <= 0 <==> (if a.Str? then a == b || StrLess(a.s, b.s) else a.n <= b.n)
  {
    if a != b && a.Str? && !StrLess(a.s, b.s) {
      assert AscCompare(a, b) == 1;
    }
  }

  /** On keys of one kind, "not after" is transitive. */
  lemma CompareTransitive(a: Js.Value, b: Js.Value, c: Js.Value, dir: Direction)
    requires SameKind(a, b) && SameKind(b, c)
    requires Compare(a, b, dir) <= 0 && Compare(b, c, dir) <= 0
    ensures Compare(a, c, dir) <= 0
    decreases if dir == Desc then 1 else 0
  {
    if dir == Asc {
      AscNotAfter(a, b);
      AscNotAfter(b, c);
      AscNotAfter(a, c);
      if a.Str? && a != b && b != c {
        StrLessTransitive(a.s, b.s, c.s);
      }
    } else {
      CompareAntisymmetric(a, b, Asc);
      CompareAntisymmetric(b, c, Asc);
      CompareAntisymmetric(a, c, Asc);
      CompareTransitive(c, b, a, Asc);
    }
  }

  // ---------------------------------------------------------------------------
  // The sort
  // ---------------------------------------------------------------------------

  /** Inserts `x` after every element that does not sort after it. */
  function Insert<T(==)>(x: T, s: seq<T>, key: T -> Js.Value, dir: Direction): (r: seq<T>)
    ensures multiset(r) == multiset(s) + multiset{x}
  {
    if s == [] then [x]
    else if Compare(key(x), key(s[|s| - 1]), dir) < 0 then
      assert s == s[..|s| - 1] + [s[|s| - 1]];
      Insert(x, s[..|s| - 1], key, dir) + [s[|s| - 1]]
    else s + [x]
  }

  /** Stable sort of `s` by `key` in direction `dir`. */
  function SortBy<T(==)>(s: seq<T>, key: T -> Js.Value, dir: Direction): (r: seq<T>)
    ensures multiset(r) == multiset(s)
  {
    if s == [] then []
    else
      assert s == s[..|s| - 1] + [s[|s| - 1]];
      Insert(s[|s| - 1], SortBy(s[..|s| - 1], key, dir), key, dir)
  }

  /** The value a row shows in a column: `getNestedValue(row, column)`. */
  function ColumnKey<T>(view: T -> Js.Value, column: string): T -> Js.Value {
    x => Js.GetNestedValue(view(x), column)
  }

  /** `sortData(data, sortColumn)`. `view` presents a row as the object the
      utility inspects. */
  function SortData<T(==)>(data: seq<T>, view: T -> Js.Value, sc: SortColumn): (r: seq<T>)
    ensures sc.column == "" ==> r == data
    ensures multiset(r) == multiset(data)
  {
    if sc.column == "" then data else SortBy(data, ColumnKey(view, sc.column), sc.direction)
  }

  // ---------------------------------------------------------------------------
  // Order of the result
  // ---------------------------------------------------------------------------

  /** No element sorts after a later one. */
  predicate Sorted<T>(s: seq<T>, key: T -> Js.Value, dir: Direction) {
    forall i, j :: 0 <= i < j < |s| ==> Compare(key(s[i]), key(s[j]), dir) <= 0
  }

  /** All keys are strings, or all keys are numbers. */
  predicate KeysOfOneKind<T(==)>(s: seq<T>, key: T -> Js.Value) {
    (forall x | x in s :: key(x).Str?) || (forall x | x in s :: key(x).Num?)
  }

  /** Two members of a list whose keys are of one kind have keys of one kind. */
  lemma MembersOfOneKind<T>(s: seq<T>, key: T -> Js.Value, a: T, b: T)
    requires KeysOfOneKind(s, key) && a in s && b in s
    ensures SameKind(key(a), key(b))
  {
  }

  lemma {:induction false} InsertSorted<T>(x: T, s: seq<T>, key: T -> Js.Value, dir: Direction)
    requires Sorted(s, key, dir)
    requires KeysOfOneKind(s + [x], key)
    ensures Sorted(Insert(x, s, key, dir), key, dir)
    decreases |s|, 1
  {
    if s != [] {
      if Compare(key(x), key(s[|s| - 1]), dir) < 0 {
        InsertBeforeLast(x, s, key, dir);
      } else {
        InsertAfterLast(x, s, key, dir);
      }
    }
  }

  /** `x` sorts before the last element: it goes into the rest. */
  lemma {:induction false} InsertBeforeLast<T>(x: T, s: seq<T>, key: T -> Js.Value, dir: Direction)
    requires s != [] && Compare(key(x), key(s[|s| - 1]), dir) < 0
    requires Sorted(s, key, dir)
    requires KeysOfOneKind(s + [x], key)
    ensures Sorted(Insert(x, s, key, dir), key, dir)
    decreases |s|, 0
  {
    var init, last := s[..|s| - 1], s[|s| - 1];
    assert forall y | y in init + [x] :: y in s + [x];
    assert Sorted(init, key, dir);
    InsertSorted(x, init, key, dir);
    assert forall k :: 0 <= k < |init| ==> init[k] == s[k];
    InsertBelow(x, init, last, key, dir);
    SortedSnoc(Insert(x, init, key, dir), last, key, dir);
  }

  /** Inserting an element that sorts before `last` into a list whose
      elements all sort no later than `last` keeps that so. */
  lemma InsertBelow<T>(x: T, init: seq<T>, last: T, key: T -> Js.Value, dir: Direction)
    requires Compare(key(x), key(last), dir) < 0
    requires forall k :: 0 <= k < |init| ==> Compare(key(init[k]), key(last), dir) <= 0
    ensures forall i :: 0 <= i < |Insert(x, init, key, dir)| ==> Compare(key(Insert(x, init, key, dir)[i]), key(last), dir) <= 0
  {
    var ins := Insert(x, init, key, dir);
    forall i | 0 <= i < |ins|
      ensures Compare(key(ins[i]), key(last), dir) <= 0
    {
      assert ins[i] in multiset(ins);
      if ins[i] != x {
        assert ins[i] in multiset(init);
        var k :| 0 <= k < |init| && init[k] == ins[i];
      }
    }
  }

  /** A sorted list followed by an element no earlier than all of it is
      sorted. */
  lemma SortedSnoc<T>(ins: seq<T>, last: T, key: T -> Js.Value, dir: Direction)
    requires Sorted(ins, key, dir)
    requires forall i :: 0 <= i < |ins| ==> Compare(key(ins[i]), key(last), dir) <= 0
    ensures Sorted(ins + [last], key, dir)
  {
    var r := ins + [last];
    forall i, j | 0 <= i < j < |r|
      ensures Compare(key(r[i]), key(r[j]), dir) <= 0
    {
      assert r[i] == ins[i];
      if j < |ins| {
        assert r[j] == ins[j];
      }
    }
  }

  /** `x` does not sort before the last element: it is appended. */
  lemma InsertAfterLast<T>(x: T, s: seq<T>, key: T -> Js.Value, dir: Direction)
    requires s != [] && Compare(key(x), key(s[|s| - 1]), dir) >= 0
    requires Sorted(s, key, dir)
    requires KeysOfOneKind(s + [x], key)
    ensures Sorted(Insert(x, s, key, dir), key, dir)
  {
    var last := s[|s| - 1];
    var r := s + [x];
    MembersOfOneKind(r, key, x, last);
    CompareAntisymmetric(key(x), key(last), dir);
    assert Compare(key(last), key(x), dir) <= 0;
    forall i, j | 0 <= i < j < |r|
      ensures Compare(key(r[i]), key(r[j]), dir) <= 0
    {
      assert r[i] == s[i];
      if j < |s| {
        assert r[j] == s[j];
      } else if i < |s| - 1 {
        MembersOfOneKind(r, key, s[i], last);
        CompareTransitive(key(s[i]), key(last), key(x), dir);
      }
    }
  }

  /** Keys of one kind give a sorted result. */
  lemma {:induction false} SortBySorted<T>(s: seq<T>, key: T -> Js.Value, dir: Direction)
    requires KeysOfOneKind(s, key)
    ensures Sorted(SortBy(s, key, dir), key, dir)
  {
    if s != [] {
      var init, last := s[..|s| - 1], s[|s| - 1];
      assert forall y | y in init :: y in s;
      SortBySorted(init, key, dir);
      var sorted := SortBy(init, key, dir);
      assert forall y | y in sorted + [last] :: y in s by {
        forall y | y in sorted + [last]
          ensures y in s
        {
          if y in sorted {
            assert y in multiset(sorted);
          }
        }
      }
      InsertSorted(last, sorted, key, dir);
    }
  }

  /** `sortData` on a column whose values are all strings or all numbers
      yields the rows in non-decreasing ('asc') or non-increasing ('desc')
      order of that column, as a permutation of the input. */
  lemma SortDataSorted<T>(data: seq<T>, view: T -> Js.Value, sc: SortColumn)
    requires sc.column != ""
    requires KeysOfOneKind(data, ColumnKey(view, sc.column))
    ensures Sorted(SortData(data, view, sc), ColumnKey(view, sc.column), sc.direction)
    ensures multiset(SortData(data, view, sc)) == multiset(data)
  {
    SortBySorted(data, ColumnKey(view, sc.column), sc.direction);
  }

  /** Ascending order on string keys: each key is before or equal to every
      later one in code-unit order; descending order reverses it. */
  lemma SortedStrings<T>(s: seq<T>, key: T -> Js.Value, dir: Direction, i: int, j: int)
    requires Sorted(s, key, dir)
    requires 0 <= i < j < |s| && key(s[i]).Str? && key(s[j]).Str?
    ensures dir == Asc ==> key(s[i]) == key(s[j]) || StrLess(key(s[i]).s, key(s[j]).s)
    ensures dir == Desc ==> key(s[i]) == key(s[j]) || StrLess(key(s[j]).s, key(s[i]).s)
  {
    var a, b := key(s[i]), key(s[j]);
    assert Compare(a, b, dir) <= 0;
    if a != b && dir == Desc {
      StrLessTotal(a.s, b.s);
    }
  }
}

=== FILE: statistics.dfy ===
/** The room-occupancy grid of the statistics page: a fixed template of
    half-hour slots for the morning (7:00 AM to 12:00 PM) and the afternoon
    (12:30 PM to 9:00 PM), filled from the bookings of one room on one
    calendar day. A slot is marked when a booking covers it on the half-open
    interval from its start to its end; when bookings overlap, the last one in
    the list wins.

    Times of day are seconds after the selected day's midnight and calendar
    days are the (year, month, day) triple of the "YYYY-MM-DD" text; the grid
    only ever compares instants of one day, and the retained bookings all lie
    on the selected day. */
module Statistics {
  import opened Wrappers
  import opened Seqs
  import opened Text
  import opened TimeFormat
  import opened Domain
  import RoomPipes

  // ---------------------------------------------------------------------------
  // Data
  // ---------------------------------------------------------------------------

  /** A retained booking as the grid shows it (`ScheduleDisplay`): `start` and
      `end` are its `startTime`/`endTime` instants, `None` being an Invalid
      Date. */
  datatype Display = Display(
    id: int,
    roomId: int,
    scheduledBy: string,
    start: Option<int>,
    end: Option<int>,
    courseId: int,
    courseCode: string,
    courseDescription: string,
    status: Status)

  /** One cell of the grid: its 12-hour label and the booking shown in it. */
  datatype TimeSlot = TimeSlot(time: string, schedule: Option<Display>, isScheduled: bool)

  /** A calendar day as `new Date("YYYY-MM-DD")` followed by `setHours(0, 0, 0, 0)`
      identifies it. */
  datatype Day = Day(year: nat, month: nat, day: nat)

  /** The page state. `selectedRoom` is `number | null`; `selectedDate` is the
      date input's "YYYY-MM-DD" text. */
  datatype State = State(
    rooms: seq<Room>,
    buildings: seq<string>,
    filteredRooms: seq<Room>,
    schedules: seq<Display>,
    selectedBuilding: string,
    selectedRoom: Option<int>,
    selectedDate: string,
    morningSlots: seq<TimeSlot>,
    afternoonSlots: seq<TimeSlot>,
    errorMessage: string)

  const LoadBuildingsError := "Failed to load buildings. Please try again later."
  const LoadSchedulesError := "Failed to load schedules. Please try again later."

  // ---------------------------------------------------------------------------
  // The slot template (generateTimeSlots)
  // ---------------------------------------------------------------------------

  /** `${hour}:${mm} ${period}`. */
  function Label(hour: nat, mm: string, period: string): string {
    NatToString(hour) + ":" + mm + " " + period
  }

  /** The morning loop from `hour` on: "h:00 AM" and "h:30 AM" for each hour
      below 12. */
  function MorningFrom(hour: nat): seq<string>
    decreases 12 - hour
  {
    if hour >= 12 then []
    else [Label(hour, "00", "AM"), Label(hour, "30", "AM")] + MorningFrom(hour + 1)
  }

  /** The afternoon loop from `hour` on: "h:00 PM" for each hour up to 9 and
      "h:30 PM" for each hour below 9. */
  function AfternoonFrom(hour: nat): seq<string>
    decreases 10 - hour
  {
    if hour > 9 then []
    else [Label(hour, "00", "PM")] + (if hour < 9 then [Label(hour, "30", "PM")] else [])
         + AfternoonFrom(hour + 1)
  }

  /** The morning labels: the loop over hours 7..11, then "12:00 PM". */
  function MorningLabels(): seq<string> {
    MorningFrom(7) + ["12:00 PM"]
  }

  /** The afternoon labels: "12:30 PM", then the loop over hours 1..9. */
  function AfternoonLabels(): seq<string> {
    ["12:30 PM"] + AfternoonFrom(1)
  }

  /** Fresh, unscheduled slots for the given labels. */
  function Fresh(labels: seq<string>): (slots: seq<TimeSlot>)
    ensures |slots| == |labels|
    ensures forall i :: 0 <= i < |labels| ==> slots[i] == TimeSlot(labels[i], None, false)
  {
    seq(|labels|, i requires 0 <= i < |labels| => TimeSlot(labels[i], None, false))
  }

  /** The minutes text of a loop label: "30" for the second half of the hour. */
  function Half(half: bool): string {
    if half then "30" else "00"
  }

  lemma {:induction false} MorningFromLength(hour: nat)
    requires hour <= 12
    ensures |MorningFrom(hour)| == 2 * (12 - hour)
    decreases 12 - hour
  {
    if hour < 12 {
      MorningFromLength(hour + 1);
    }
  }

  /** The morning loop started at `hour` puts the labels of hour `h` at
      positions 2·(h - hour) and 2·(h - hour) + 1. */
  lemma {:induction false} MorningFromAt(hour: nat, h: nat, half: bool)
    requires hour <= h < 12
    ensures |MorningFrom(hour)| == 2 * (12 - hour)
    ensures MorningFrom(hour)[2 * (h - hour) + (if half then 1 else 0)] == Label(h, Half(half), "AM")
    decreases 12 - hour
  {
    MorningFromLength(hour);
    if h > hour {
      MorningFromAt(hour + 1, h, half);
    }
  }

  lemma {:induction false} AfternoonFromLength(hour: nat)
    requires 1 <= hour <= 9
    ensures |AfternoonFrom(hour)| == 2 * (9 - hour) + 1
    decreases 10 - hour
  {
    if hour < 9 {
      AfternoonFromLength(hour + 1);
    }
  }

  /** The afternoon loop started at `hour` puts the labels of hour `h` at
      positions 2·(h - hour) and, below 9, 2·(h - hour) + 1. */
  lemma {:induction false} AfternoonFromAt(hour: nat, h: nat, half: bool)
    requires 1 <= hour <= h <= 9
    requires half ==> h < 9
    ensures |AfternoonFrom(hour)| == 2 * (9 - hour) + 1
    ensures AfternoonFrom(hour)[2 * (h - hour) + (if half then 1 else 0)] == Label(h, Half(half), "PM")
    decreases 10 - hour
  {
    AfternoonFromLength(hour);
    if h > hour {
      AfternoonFromAt(hour + 1, h, half);
    }
  }

  /** The instant a slot label stands for on the selected day, in seconds
      after its midnight (`parseTimeSlot(slot.time, selectedDate)`); `None` is
      an Invalid Date, from an unreadable label or selected date. */
  function SlotSeconds(time: string, selectedDate: string): (t: Option<int>)
    ensures DayOf(selectedDate).None? ==> t.None?
    ensures DayOf(selectedDate).Some? && ParseTimeSlot(time).Some? ==> t == Some(ParseTimeSlot(time).value.Seconds())
  {
    if DayOf(selectedDate).None? then None
    else match ParseTimeSlot(time)
      case None => None
      case Some(c) => Some(c.Seconds())
  }

  lemma DigitsOfHalves()
    ensures AllDigits("00") && DigitsValue("00") == 0
    ensures AllDigits("30") && DigitsValue("30") == 30
  {
    assert "00"[..1] == "0" && "0"[..0] == [];
    assert "30"[..1] == "3" && "3"[..0] == [];
  }

  lemma TwelveText()
    ensures NatToString(12) == "12"
  {
    assert NatToString(1) == "1" && NatToString(2) == "2";
  }

  /** A loop label reads back as its hour and its 0 or 30 minutes. */
  lemma ParseHalfHour(h: nat, half: bool, period: string)
    requires period == "AM" || period == "PM"
    requires 1 <= h <= 11
    ensures ParseTimeSlot(Label(h, Half(half), period))
         == Some(ClockTime(if period == "PM" then h + 12 else h, if half then 30 else 0))
  {
    DigitsOfHalves();
    ParseTimeSlotLabel(h, Half(half), period);
  }

  /** The loop label of hour `h` in the morning template. */
  lemma MorningSlot(h: nat, half: bool)
    requires 7 <= h < 12
    ensures var i := 2 * (h - 7) + (if half then 1 else 0);
            |MorningLabels()| == 11
            && ParseTimeSlot(MorningLabels()[i]) == Some(ClockTime(h, if half then 30 else 0))
  {
    MorningFromAt(7, h, half);
    ParseHalfHour(h, half, "AM");
  }

  /** The loop label of hour `h` in the afternoon template. */
  lemma AfternoonSlot(h: nat, half: bool)
    requires 1 <= h <= 9 && (half ==> h < 9)
    ensures var i := 2 * (h - 1) + (if half then 1 else 0) + 1;
            |AfternoonLabels()| == 18
            && ParseTimeSlot(AfternoonLabels()[i]) == Some(ClockTime(h + 12, if half then 30 else 0))
  {
    AfternoonFromAt(1, h, half);
    ParseHalfHour(h, half, "PM");
  }

  /** The two labels around noon, written out in the template, are the loop
      labels of hour 12. */
  lemma NoonLabels()
    ensures Label(12, "00", "PM") == "12:00 PM"
    ensures Label(12, "30", "PM") == "12:30 PM"
  {
    TwelveText();
  }

  /** They read back as 12:00 and 12:30. */
  lemma NoonSlots()
    ensures ParseTimeSlot(Label(12, "00", "PM")) == Some(ClockTime(12, 0))
    ensures ParseTimeSlot(Label(12, "30", "PM")) == Some(ClockTime(12, 30))
  {
    DigitsOfHalves();
    ParseTimeSlotLabel(12, "00", "PM");
    ParseTimeSlotLabel(12, "30", "PM");
  }

  /** The morning template: 11 slots from 7:00 AM, 30 minutes apart, the last
      being noon. */
  lemma MorningTimes()
    ensures |MorningLabels()| == 11
    ensures forall i :: 0 <= i < 11 ==>
              ParseTimeSlot(MorningLabels()[i]).Some?
              && ParseTimeSlot(MorningLabels()[i]).value.Seconds() == 7 * 3600 + 1800 * i
  {
    MorningFromLength(7);
    forall i | 0 <= i < 11
      ensures ParseTimeSlot(MorningLabels()[i]).Some?
      ensures ParseTimeSlot(MorningLabels()[i]).value.Seconds() == 7 * 3600 + 1800 * i
    {
      if i < 10 {
        var h, half := 7 + i / 2, i % 2 == 1;
        assert i == 2 * (h - 7) + (if half then 1 else 0);
        MorningSlot(h, half);
      } else {
        NoonLabels();
        NoonSlots();
      }
    }
  }

  /** The afternoon template: 18 slots from 12:30 PM, 30 minutes apart, the
      last being 9:00 PM. */
  lemma AfternoonTimes()
    ensures |AfternoonLabels()| == 18
    ensures forall i :: 0 <= i < 18 ==>
              ParseTimeSlot(AfternoonLabels()[i]).Some?
              && ParseTimeSlot(AfternoonLabels()[i]).value.Seconds() == 12 * 3600 + 1800 + 1800 * i
  {
    AfternoonFromLength(1);
    forall i | 0 <= i < 18
      ensures ParseTimeSlot(AfternoonLabels()[i]).Some?
      ensures ParseTimeSlot(AfternoonLabels()[i]).value.Seconds() == 12 * 3600 + 1800 + 1800 * i
    {
      if i == 0 {
        NoonLabels();
        NoonSlots();
      } else {
        var h, half := 1 + (i - 1) / 2, (i - 1) % 2 == 1;
        assert i == 2 * (h - 1) + (if half then 1 else 0) + 1;
        AfternoonSlot(h, half);
      }
    }
  }

  /** The fresh template: every slot unscheduled and showing no booking. */
  lemma FreshTemplate()
    ensures |Fresh(MorningLabels())| == 11 && |Fresh(AfternoonLabels())| == 18
    ensures forall i :: 0 <= i < 11 ==> !Fresh(MorningLabels())[i].isScheduled && Fresh(MorningLabels())[i].schedule.None?
    ensures forall i :: 0 <= i < 18 ==> !Fresh(AfternoonLabels())[i].isScheduled && Fresh(AfternoonLabels())[i].schedule.None?
  {
    MorningTimes();
    AfternoonTimes();
  }

  // ---------------------------------------------------------------------------
  // Marking (updateTimeSlots)
  // ---------------------------------------------------------------------------

  /** `slotTime >= startTime && slotTime < endTime`: a comparison with an
      Invalid Date is false. */
  predicate Covers(d: Display, t: Option<int>) {
    t.Some? && d.start.Some? && d.end.Some? && d.start.value <= t.value < d.end.value
  }

  /** A booking covers the instant of its own start and not that of its end. */
  lemma CoversHalfOpen(d: Display, t: int)
    requires d.start.Some? && d.end.Some?
    ensures Covers(d, Some(t)) <==> d.start.value <= t < d.end.value
    ensures d.start.value < d.end.value ==> Covers(d, d.start)
    ensures !Covers(d, d.end)
  {
  }

  /** The `isWithinSchedule` branch for one slot. */
  function Mark(slot: TimeSlot, d: Display, selectedDate: string): TimeSlot {
    if Covers(d, SlotSeconds(slot.time, selectedDate)) then TimeSlot(slot.time, Some(d), true)
    else slot
  }

  /** The inner `forEach` over all slots for one booking. */
  function MarkAll(slots: seq<TimeSlot>, d: Display, selectedDate: string): (r: seq<TimeSlot>)
    ensures |r| == |slots|
    ensures forall i :: 0 <= i < |slots| ==> r[i] == Mark(slots[i], d, selectedDate)
  {
    seq(|slots|, i requires 0 <= i < |slots| => Mark(slots[i], d, selectedDate))
  }

  /** The outer `forEach` over the bookings, in list order. */
  function Pass(slots: seq<TimeSlot>, schedules: seq<Display>, selectedDate: string): (r: seq<TimeSlot>)
    ensures |r| == |slots|
    ensures forall i :: 0 <= i < |slots| ==> r[i].time == slots[i].time
    decreases |schedules|
  {
    if schedules == [] then slots
    else MarkAll(Pass(slots, schedules[..|schedules| - 1], selectedDate), schedules[|schedules| - 1], selectedDate)
  }

  /** Booking `k` is the last one in the list covering instant `t`. */
  predicate LastCovering(schedules: seq<Display>, k: int, t: Option<int>) {
    0 <= k < |schedules| && Covers(schedules[k], t)
    && forall j :: k < j < |schedules| ==> !Covers(schedules[j], t)
  }

  /** One slot followed through the pass: marked by each booking in turn. */
  function SlotAfter(slot: TimeSlot, schedules: seq<Display>, selectedDate: string): (r: TimeSlot)
    ensures r.time == slot.time
    decreases |schedules|
  {
    if schedules == [] then slot
    else Mark(SlotAfter(slot, schedules[..|schedules| - 1], selectedDate), schedules[|schedules| - 1], selectedDate)
  }

  /** The pass treats every slot on its own. */
  lemma {:induction false} PassPerSlot(slots: seq<TimeSlot>, schedules: seq<Display>, selectedDate: string, i: int)
    requires 0 <= i < |slots|
    ensures Pass(slots, schedules, selectedDate)[i] == SlotAfter(slots[i], schedules, selectedDate)
    decreases |schedules|
  {
    if schedules != [] {
      PassPerSlot(slots, schedules[..|schedules| - 1], selectedDate, i);
    }
  }

  /** A slot no booking covers goes through the pass untouched. */
  lemma {:induction false} SlotAfterUncovered(slot: TimeSlot, schedules: seq<Display>, selectedDate: string, t: Option<int>)
    requires t == SlotSeconds(slot.time, selectedDate)
    requires forall k :: 0 <= k < |schedules| ==> !Covers(schedules[k], t)
    ensures SlotAfter(slot, schedules, selectedDate) == slot
    decreases |schedules|
  {
    if schedules != [] {
      SlotAfterUncovered(slot, schedules[..|schedules| - 1], selectedDate, t);
    }
  }

  /** A slot comes out of the pass showing the last booking covering it. */
  lemma {:induction false} SlotAfterLast(slot: TimeSlot, schedules: seq<Display>, selectedDate: string, t: Option<int>, k: int)
    requires t == SlotSeconds(slot.time, selectedDate)
    requires LastCovering(schedules, k, t)
    ensures SlotAfter(slot, schedules, selectedDate) == TimeSlot(slot.time, Some(schedules[k]), true)
    decreases |schedules|
  {
    var n := |schedules| - 1;
    var prefix := schedules[..n];
    var before := SlotAfter(slot, prefix, selectedDate);
    assert SlotAfter(slot, schedules, selectedDate) == Mark(before, schedules[n], selectedDate);
    assert SlotSeconds(before.time, selectedDate) == t;
    if k < n {
      assert !Covers(schedules[n], t);
      assert LastCovering(prefix, k, t) by {
        assert prefix[k] == schedules[k];
        assert forall j :: k < j < n ==> prefix[j] == schedules[j];
      }
      SlotAfterLast(slot, prefix, selectedDate, t, k);
      assert Mark(before, schedules[n], selectedDate) == before;
    } else {
      assert k == n;
      assert Covers(schedules[n], t);
      assert Mark(before, schedules[n], selectedDate) == TimeSlot(slot.time, Some(schedules[n]), true);
    }
  }

  /** After a pass a slot shows the last booking covering its instant, and is
      left as it was when none covers it. */
  lemma PassMarks(slots: seq<TimeSlot>, schedules: seq<Display>, selectedDate: string, i: int)
    requires 0 <= i < |slots|
    ensures var t := SlotSeconds(slots[i].time, selectedDate);
            (forall k :: 0 <= k < |schedules| ==> !Covers(schedules[k], t))
            ==> Pass(slots, schedules, selectedDate)[i] == slots[i]
    ensures var t := SlotSeconds(slots[i].time, selectedDate);
            forall k :: LastCovering(schedules, k, t) ==>
              Pass(slots, schedules, selectedDate)[i] == TimeSlot(slots[i].time, Some(schedules[k]), true)
  {
    var t := SlotSeconds(slots[i].time, selectedDate);
    PassPerSlot(slots, schedules, selectedDate, i);
    if forall k :: 0 <= k < |schedules| ==> !Covers(schedules[k], t) {
      SlotAfterUncovered(slots[i], schedules, selectedDate, t);
    }
    forall k | LastCovering(schedules, k, t)
      ensures Pass(slots, schedules, selectedDate)[i] == TimeSlot(slots[i].time, Some(schedules[k]), true)
    {
      SlotAfterLast(slots[i], schedules, selectedDate, t, k);
    }
  }

  /** The index of the last booking covering `t`, when one does. */
  function LastIndexCovering(schedules: seq<Display>, t: Option<int>): (k: int)
    requires exists k :: 0 <= k < |schedules| && Covers(schedules[k], t)
    ensures LastCovering(schedules, k, t)
    decreases |schedules|
  {
    var n := |schedules| - 1;
    if Covers(schedules[n], t) then n
    else LastIndexCovering(schedules[..n], t)
  }

  /** `updateTimeSlots()`: regenerate the template, then mark it from the
      loaded bookings. */
  function UpdateTimeSlots(st: State): (r: State)
    ensures r == st.(morningSlots := r.morningSlots, afternoonSlots := r.afternoonSlots)
    ensures |r.morningSlots| == 11 && |r.afternoonSlots| == 18
  {
    FreshTemplate();
    st.(morningSlots := Pass(Fresh(MorningLabels()), st.schedules, st.selectedDate),
        afternoonSlots := Pass(Fresh(AfternoonLabels()), st.schedules, st.selectedDate))
  }

  /** A slot of the grid after an update is scheduled exactly when some loaded
      booking covers its instant, and it then shows the last such booking;
      otherwise it is the fresh slot. Nothing the grid showed before counts. */
  lemma UpdateTimeSlotsMarks(st: State, morning: bool, i: int)
    requires 0 <= i < (if morning then 11 else 18)
    ensures var labels := if morning then MorningLabels() else AfternoonLabels();
            var slot := if morning then UpdateTimeSlots(st).morningSlots[i] else UpdateTimeSlots(st).afternoonSlots[i];
            var t := SlotSeconds(labels[i], st.selectedDate);
            (slot.isScheduled <==> exists k :: 0 <= k < |st.schedules| && Covers(st.schedules[k], t))
            && (!slot.isScheduled ==> slot == TimeSlot(labels[i], None, false))
            && (forall k :: LastCovering(st.schedules, k, t) ==> slot == TimeSlot(labels[i], Some(st.schedules[k]), true))
  {
    FreshTemplate();
    var labels := if morning then MorningLabels() else AfternoonLabels();
    var t := SlotSeconds(labels[i], st.selectedDate);
    PassMarks(Fresh(labels), st.schedules, st.selectedDate, i);
    if exists k :: 0 <= k < |st.schedules| && Covers(st.schedules[k], t) {
      var k := LastIndexCovering(st.schedules, t);
    }
  }

  /** Without bookings every slot is the fresh, unscheduled one. */
  lemma UpdateTimeSlotsEmpty(st: State)
    requires st.schedules == []
    ensures UpdateTimeSlots(st).morningSlots == Fresh(MorningLabels())
    ensures UpdateTimeSlots(st).afternoonSlots == Fresh(AfternoonLabels())
  {
  }

  /** On a readable day the morning slot `i` stands for 7:00 + 30·i minutes. */
  lemma MorningSlotSeconds(selectedDate: string, i: int)
    requires 0 <= i < 11 && DayOf(selectedDate).Some?
    ensures SlotSeconds(MorningLabels()[i], selectedDate) == Some(7 * 3600 + 1800 * i)
  {
    MorningTimes();
  }

  /** The seconds in a day. */
  const DaySeconds: int := 24 * 3600

  /** `parseTimeSlot(slot.time, selectedDate)` as written, in a browser whose
      UTC offset is `offsetMinutes`: `new Date("YYYY-MM-DD")` is midnight UTC,
      whose local getters name the day before when the offset is negative,
      so the rebuilt instant falls a whole day before the selected day's. */
  function SlotSecondsAsWritten(time: string, selectedDate: string, offsetMinutes: int): (t: Option<int>)
    ensures t.Some? <==> SlotSeconds(time, selectedDate).Some?
    ensures offsetMinutes >= 0 ==> t == SlotSeconds(time, selectedDate)
    ensures offsetMinutes < 0 && t.Some? ==> t.value + DaySeconds == SlotSeconds(time, selectedDate).value
  {
    match SlotSeconds(time, selectedDate)
    case None => None
    case Some(c) => if offsetMinutes < 0 then Some(c - DaySeconds) else Some(c)
  }

  /** West of UTC the grid as written stays empty: no slot of either
      template is covered by any loaded booking, whose start and end are
      instants of the selected day itself. */
  lemma WestOfUtcMarksNothing(s: Schedule, selectedDate: string, offsetMinutes: int, morning: bool, i: int)
    requires offsetMinutes < 0
    requires 0 <= i < (if morning then 11 else 18)
    ensures var labels := if morning then MorningLabels() else AfternoonLabels();
            !Covers(ToDisplay(s), SlotSecondsAsWritten(labels[i], selectedDate, offsetMinutes))
  {
    MorningTimes();
    AfternoonTimes();
  }

  /** On a readable day the morning slot `i` is scheduled exactly when some
      loaded booking covers 7:00 + 30·i minutes. */
  lemma MorningScheduled(st: State, i: int)
    requires 0 <= i < 11 && DayOf(st.selectedDate).Some?
    ensures UpdateTimeSlots(st).morningSlots[i].isScheduled
        <==> exists k :: 0 <= k < |st.schedules| && Covers(st.schedules[k], Some(7 * 3600 + 1800 * i))
  {
    MorningSlotSeconds(st.selectedDate, i);
    UpdateTimeSlotsMarks(st, true, i);
  }

  /** A booking with readable times on a readable day, the only one loaded,
      marks the morning slot `i` exactly when its time 7:00 + 30·i minutes
      falls in the booking's half-open interval. */
  lemma OneBookingMorning(st: State, i: int)
    requires 0 <= i < 11
    requires |st.schedules| == 1 && st.schedules[0].start.Some? && st.schedules[0].end.Some?
    requires DayOf(st.selectedDate).Some?
    ensures UpdateTimeSlots(st).morningSlots[i].isScheduled
        <==> st.schedules[0].start.value <= 7 * 3600 + 1800 * i < st.schedules[0].end.value
  {
    var at := 7 * 3600 + 1800 * i;
    MorningScheduled(st, i);
    OnlyCovering(st.schedules, Some(at));
    CoversHalfOpen(st.schedules[0], at);
  }

  /** With one booking loaded, some booking covers an instant exactly when
      that one does. */
  lemma OnlyCovering(ds: seq<Display>, t: Option<int>)
    requires |ds| == 1
    ensures (exists k :: 0 <= k < |ds| && Covers(ds[k], t)) <==> Covers(ds[0], t)
  {
  }

  // ---------------------------------------------------------------------------
  // Loading (loadSchedules)
  // ---------------------------------------------------------------------------

  /** `new Date("YYYY-MM-DD")`: four-digit year, two-digit month 1..12 and
      day 1..31; anything else is an Invalid Date. */
  function DayOf(text: string): (d: Option<Day>)
    ensures d.Some? ==> 1 <= d.value.month <= 12 && 1 <= d.value.day <= 31
  {
    var parts := Split(text, '-');
    if |parts| != 3 || |parts[0]| != 4 || !AllDigits(parts[0]) || !IsTwoDigits(parts[1]) || !IsTwoDigits(parts[2]) then None
    else
      var month := DigitsValue(parts[1]);
      var day := DigitsValue(parts[2]);
      if 1 <= month <= 12 && 1 <= day <= 31 then Some(Day(DigitsValue(parts[0]), month, day))
      else None
  }

  /** `!this.selectedRoom` is false: a room id other than 0 is chosen. */
  predicate RoomSelected(selectedRoom: Option<int>) {
    selectedRoom.Some? && selectedRoom.value != 0
  }

  /** The booking lies on the selected day: both dates are valid and equal
      (`getTime()` of two Invalid Dates is NaN, never equal). */
  predicate SameDay(s: Schedule, selectedDate: string) {
    DayOf(s.date).Some? && DayOf(s.date) == DayOf(selectedDate)
  }

  /** The mapping to `ScheduleDisplay`: start and end are the local
      date-times `date + 'T' + time`. */
  function ToDisplay(s: Schedule): (d: Display)
    ensures d.id == s.id && d.roomId == s.roomId && d.scheduledBy == s.userName
  {
    var valid := DayOf(s.date).Some?;
    Display(s.id, s.roomId, s.userName,
            if valid then ClockOf(s.startTime) else None,
            if valid then ClockOf(s.endTime) else None,
            s.courseId, s.courseCode, s.courseDescription, s.status)
  }

  function Displays(list: seq<Schedule>): (ds: seq<Display>)
    ensures |ds| == |list|
    ensures forall i :: 0 <= i < |list| ==> ds[i] == ToDisplay(list[i])
  {
    seq(|list|, i requires 0 <= i < |list| => ToDisplay(list[i]))
  }

  /** The bookings of `room` on the selected day: the reply's two filters,
      by room and then by day, taken as one (see `RetainIsTwoFilters`). */
  function Retain(list: seq<Schedule>, room: int, selectedDate: string): seq<Schedule> {
    Filter(list, (s: Schedule) => s.roomId == room && SameDay(s, selectedDate))
  }

  /** Filtering by room and then by day is the single filter by both. */
  lemma RetainIsTwoFilters(list: seq<Schedule>, room: int, selectedDate: string)
    ensures Filter(Filter(list, (s: Schedule) => s.roomId == room), (s: Schedule) => SameDay(s, selectedDate))
         == Retain(list, room, selectedDate)
  {
    FilterFilter(list, (s: Schedule) => s.roomId == room, (s: Schedule) => SameDay(s, selectedDate),
                 (s: Schedule) => s.roomId == room && SameDay(s, selectedDate));
  }

  /** `loadSchedules()` with the reply of `getAllSchedules()`: `None` is the
      error callback. Without a selected room nothing happens. */
  function LoadSchedules(st: State, reply: Option<seq<Schedule>>): (r: State)
    ensures !RoomSelected(st.selectedRoom) ==> r == st
    ensures RoomSelected(st.selectedRoom) && reply.None? ==> r == st.(errorMessage := LoadSchedulesError)
    ensures RoomSelected(st.selectedRoom) && reply.Some? ==> |r.schedules| <= |reply.value|
  {
    if !RoomSelected(st.selectedRoom) then st
    else match reply
      case None => st.(errorMessage := LoadSchedulesError)
      case Some(list) =>
        UpdateTimeSlots(st.(schedules := Displays(Retain(list, st.selectedRoom.value, st.selectedDate))))
  }

  /** The grid keeps exactly the bookings of the selected room on the
      selected day, in the reply's order. */
  lemma LoadSchedulesRetains(st: State, list: seq<Schedule>, s: Schedule)
    requires RoomSelected(st.selectedRoom)
    ensures var r := LoadSchedules(st, Some(list));
            r.schedules == Displays(Retain(list, st.selectedRoom.value, st.selectedDate))
    ensures s in Retain(list, st.selectedRoom.value, st.selectedDate)
        <==> s in list && s.roomId == st.selectedRoom.value && SameDay(s, st.selectedDate)
    ensures IsSubsequence(Retain(list, st.selectedRoom.value, st.selectedDate), list)
  {
    var room, date := st.selectedRoom.value, st.selectedDate;
    FilterMembers(list, (s: Schedule) => s.roomId == room && SameDay(s, date), s);
    FilterSubsequence(list, (s: Schedule) => s.roomId == room && SameDay(s, date));
  }

  /** Every booking the grid shows is one of the reply's bookings for the
      selected room and day. */
  lemma LoadedBookingsMatch(st: State, list: seq<Schedule>, i: int)
    requires RoomSelected(st.selectedRoom)
    requires 0 <= i < |LoadSchedules(st, Some(list)).schedules|
    ensures exists s :: s in list && s.roomId == st.selectedRoom.value && SameDay(s, st.selectedDate)
                        && LoadSchedules(st, Some(list)).schedules[i] == ToDisplay(s)
  {
    var kept := Retain(list, st.selectedRoom.value, st.selectedDate);
    LoadSchedulesRetains(st, list, kept[i]);
  }

  // ---------------------------------------------------------------------------
  // Page events
  // ---------------------------------------------------------------------------

  /** `resetSchedules()`: no bookings and the fresh template. */
  function ResetSchedules(st: State): (r: State)
    ensures r.schedules == []
    ensures r == UpdateTimeSlots(st.(schedules := []))
  {
    st.(schedules := [], morningSlots := Fresh(MorningLabels()), afternoonSlots := Fresh(AfternoonLabels()))
  }

  /** `ngOnInit()` on the day `today`: no rooms yet and the fresh template. */
  function Initial(today: string): (st: State)
    ensures st.selectedRoom.None? && st.schedules == []
  {
    State([], [], [], [], "", None, today, Fresh(MorningLabels()), Fresh(AfternoonLabels()), "")
  }

  /** `loadBuildings()` with the reply of `getAllRooms()`: the rooms and their
      distinct building names in code-unit order. */
  function LoadBuildings(st: State, reply: Option<seq<Room>>): (r: State)
    ensures reply.None? ==> r == st.(errorMessage := LoadBuildingsError)
    ensures reply.Some? ==> r == st.(rooms := reply.value, buildings := r.buildings)
  {
    match reply
    case None => st.(errorMessage := LoadBuildingsError)
    case Some(rooms) => st.(rooms := rooms, buildings := RoomPipes.RoomsByBuilding(rooms))
  }

  /** The building list names each building of the loaded rooms once, in
      strictly ascending order. */
  lemma LoadBuildingsDistinct(st: State, rooms: seq<Room>)
    ensures var names := LoadBuildings(st, Some(rooms)).buildings;
            (forall b :: b in names <==> exists i :: 0 <= i < |rooms| && rooms[i].building == b)
            && forall i, j :: 0 <= i < j < |names| ==> StrLess(names[i], names[j])
  {
    RoomPipes.RoomsByBuildingSpec(rooms);
  }

  /** `onBuildingChange()` after the select set `building`. */
  function OnBuildingChange(st: State, building: string): (r: State)
    ensures r.selectedBuilding == building && r.selectedRoom.None? && r.schedules == []
    ensures r.morningSlots == Fresh(MorningLabels()) && r.afternoonSlots == Fresh(AfternoonLabels())
    ensures r.rooms == st.rooms && r.selectedDate == st.selectedDate
  {
    ResetSchedules(st.(selectedBuilding := building,
                       filteredRooms := Filter(st.rooms, (room: Room) => room.building == building),
                       selectedRoom := None))
  }

  /** The room choice offers exactly the loaded rooms of the chosen building,
      in their loaded order. */
  lemma OnBuildingChangeRooms(st: State, building: string, room: Room)
    ensures room in OnBuildingChange(st, building).filteredRooms <==> room in st.rooms && room.building == building
    ensures IsSubsequence(OnBuildingChange(st, building).filteredRooms, st.rooms)
  {
    FilterMembers(st.rooms, (room: Room) => room.building == building, room);
    FilterSubsequence(st.rooms, (room: Room) => room.building == building);
  }

  /** `onRoomChange()` after the select set `room`: load when a room is
      chosen, otherwise reset. */
  function OnRoomChange(st: State, room: Option<int>, reply: Option<seq<Schedule>>): (r: State)
    ensures !RoomSelected(room) ==> r.schedules == [] && r.selectedRoom == room
    ensures !RoomSelected(room) ==> r.morningSlots == Fresh(MorningLabels()) && r.afternoonSlots == Fresh(AfternoonLabels())
    ensures RoomSelected(room) ==> r == LoadSchedules(st.(selectedRoom := room), reply)
  {
    var s := st.(selectedRoom := room);
    if RoomSelected(room) then LoadSchedules(s, reply) else ResetSchedules(s)
  }

  /** `onDateChange()` after the input set `date`: reload when a room is
      chosen; otherwise the grid keeps what it shows. */
  function OnDateChange(st: State, date: string, reply: Option<seq<Schedule>>): (r: State)
    ensures !RoomSelected(st.selectedRoom) ==> r == st.(selectedDate := date)
    ensures RoomSelected(st.selectedRoom) ==> r == LoadSchedules(st.(selectedDate := date), reply)
  {
    var s := st.(selectedDate := date);
    if RoomSelected(st.selectedRoom) then LoadSchedules(s, reply) else s
  }
}

=== FILE: tableview.dfy ===
/** The table pipeline the five list views repeat line for line: the state
    record (all bookings, the searched-and-sorted list, the current page of
    it, the search term, the sort column and the paging fields) and its
    transitions — `applyFilters`, `sort`, `changePage`, `changePageSize`,
    the search box — together with the list edits the views apply to the
    booking list (status updates and removal by id). */
module TableView {
  import opened Wrappers
  import opened Text
  import opened Seqs
  import opened Domain
  import opened Paging
  import Sorting
  import Searching
  import Selection
  import Js

  datatype Table = Table(
    schedules: seq<Row>,
    filtered: seq<Row>,
    paginated: seq<Row>,
    searchTerm: string,
    sort: Sorting.SortColumn,
    currentPage: int,
    itemsPerPage: PageSize,
    totalPages: nat)

  /** The field initialisers every view shares. */
  const Initial: Table := Table([], [], [], "", Sorting.SortColumn("", Sorting.Asc), 1, 10, 1)

  /** The current page is never below 1. */
  predicate Valid(t: Table) {
    t.currentPage >= 1
  }

  /** A row passes the search box: a blank term passes every row. */
  predicate Passes(r: Row, term: string, columns: seq<string>) {
    IsBlank(term) || Searching.Matches(RowView(r), term, columns)
  }

  /** The search step followed by the sort step of `applyFilters`. */
  function Arrange(rows: seq<Row>, term: string, sc: Sorting.SortColumn, columns: seq<string>): (r: seq<Row>)
    ensures |r| <= |rows|
    ensures forall x :: x in r <==> x in rows && Passes(x, term, columns)
    ensures IsBlank(term) ==> multiset(r) == multiset(rows)
    ensures IsBlank(term) && sc.column == "" ==> r == rows
  {
    var searched := Searching.SearchData(rows, RowView, term, columns);
    var r := Sorting.SortData(searched, RowView, sc);
    assert forall x :: x in r <==> x in rows && Passes(x, term, columns) by {
      forall x
        ensures x in r <==> x in rows && Passes(x, term, columns)
      {
        assert x in r <==> x in multiset(searched);
        if !IsBlank(term) {
          Searching.SearchDataKeeps(rows, RowView, term, columns, x);
        }
      }
    }
    assert |r| == |multiset(r)|;
    r
  }

  /** `applyFilters()`: with no bookings the lists empty and the page count
      becomes 1 (the current page is left alone); otherwise search, sort,
      count pages, clamp the current page and cut out its slice. */
  function ApplyFilters(t: Table, columns: seq<string>): (r: Table)
    ensures r.schedules == t.schedules && r.searchTerm == t.searchTerm
    ensures r.sort == t.sort && r.itemsPerPage == t.itemsPerPage
    ensures t.schedules == [] ==>
              r.filtered == [] && r.paginated == [] && r.totalPages == 1 && r.currentPage == t.currentPage
    ensures t.schedules != [] ==>
              (forall x :: x in r.filtered <==> x in t.schedules && Passes(x, t.searchTerm, columns))
    ensures t.schedules != [] ==>
              Paged(r.totalPages, r.currentPage, r.paginated) == Paginate(r.filtered, t.currentPage, t.itemsPerPage)
    ensures Valid(t) ==> Valid(r) && |r.paginated| <= t.itemsPerPage
  {
    if t.schedules == [] then
      t.(filtered := [], paginated := [], totalPages := 1)
    else
      var f := Arrange(t.schedules, t.searchTerm, t.sort, columns);
      var p := Paginate(f, t.currentPage, t.itemsPerPage);
      t.(filtered := f, totalPages := p.total, currentPage := p.current, paginated := p.page)
  }

  /** Recomputing a freshly computed view changes nothing. */
  lemma ApplyFiltersIdempotent(t: Table, columns: seq<string>)
    ensures ApplyFilters(ApplyFilters(t, columns), columns) == ApplyFilters(t, columns)
  {
    var r := ApplyFilters(t, columns);
    if t.schedules != [] {
      var f := Arrange(t.schedules, t.searchTerm, t.sort, columns);
      var total := TotalPages(|f|, t.itemsPerPage);
      assert r.currentPage == Clamp(t.currentPage, total);
      assert Clamp(r.currentPage, total) == r.currentPage;
    }
  }

  /** `sort(column)` on the sort field: the same column flips the direction,
      another column starts ascending. */
  function ToggleSort(sc: Sorting.SortColumn, column: string): (r: Sorting.SortColumn)
    ensures r.column == column
    ensures sc.column == column ==> r.direction != sc.direction
    ensures sc.column != column ==> r.direction == Sorting.Asc
  {
    if sc.column == column then
      sc.(direction := if sc.direction == Sorting.Asc then Sorting.Desc else Sorting.Asc)
    else Sorting.SortColumn(column, Sorting.Asc)
  }

  /** Two clicks on the sorted column restore its direction. */
  lemma ToggleSortTwice(sc: Sorting.SortColumn)
    ensures ToggleSort(ToggleSort(sc, sc.column), sc.column) == sc
  {
    assert ToggleSort(sc, sc.column).direction != sc.direction;
  }

  /** `sort(column)`. */
  function Sort(t: Table, columns: seq<string>, column: string): (r: Table)
    ensures r.sort == ToggleSort(t.sort, column)
    ensures r.schedules == t.schedules
  {
    ApplyFilters(t.(sort := ToggleSort(t.sort, column)), columns)
  }

  /** `onSearch` / `clearSearch`: store the term and recompute. */
  function Search(t: Table, columns: seq<string>, term: string): (r: Table)
    ensures r.searchTerm == term && r.schedules == t.schedules
    ensures t.schedules != [] && IsBlank(term) ==> multiset(r.filtered) == multiset(t.schedules)
  {
    ApplyFilters(t.(searchTerm := term), columns)
  }

  /** `changePage(page)`: pages outside `1..totalPages` are ignored. */
  function ChangePage(t: Table, columns: seq<string>, page: int): (r: Table)
    ensures !(1 <= page <= t.totalPages) ==> r == t
    ensures r.schedules == t.schedules
  {
    if 1 <= page <= t.totalPages then ApplyFilters(t.(currentPage := page), columns)
    else t
  }

  /** On a view that is up to date, an in-range page becomes the current
      page and its slice is shown. */
  lemma ChangePageLands(t: Table, columns: seq<string>, page: int)
    requires t == ApplyFilters(t, columns)
    requires 1 <= page <= t.totalPages
    ensures ChangePage(t, columns, page).currentPage == page
    ensures ChangePage(t, columns, page).paginated == Page(t.filtered, page, t.itemsPerPage) || t.schedules == []
  {
  }

  /** `changePageSize(size)`: the new size, back to page 1. */
  function ChangePageSize(t: Table, columns: seq<string>, size: PageSize): (r: Table)
    ensures r.itemsPerPage == size && r.currentPage == 1
    ensures r.schedules == t.schedules
  {
    ApplyFilters(t.(itemsPerPage := size, currentPage := 1), columns)
  }

  /** The loaded bookings replace the list (`filteredSchedules` is first set
      to a copy of it) and the view is recomputed. */
  function Load(t: Table, columns: seq<string>, rows: seq<Row>): (r: Table)
    ensures r.schedules == rows
    ensures rows == [] ==> r.filtered == [] && r.paginated == []
  {
    ApplyFilters(t.(schedules := rows, filtered := rows), columns)
  }

  /** `schedules.filter(s => !ids.includes(s.id))`. */
  function RemoveIds(rows: seq<Row>, ids: seq<int>): (r: seq<Row>)
    ensures forall x :: x in r <==> x in rows && x.Id() !in ids
  {
    var r := Filter(rows, (x: Row) => x.Id() !in ids);
    assert forall x :: x in r <==> x in rows && x.Id() !in ids by {
      forall x { FilterMembers(rows, (x: Row) => x.Id() !in ids, x); }
    }
    r
  }

  /** Removing one id keeps exactly the bookings with another id. */
  lemma RemoveIdMembers(rows: seq<Row>, id: int)
    ensures forall x :: x in RemoveIds(rows, [id]) <==> x in rows && x.Id() != id
  {
    assert forall n :: n in [id] <==> n == id;
  }

  /** Removal keeps the remaining bookings in their order. */
  lemma RemoveIdsKeepsOrder(rows: seq<Row>, ids: seq<int>)
    ensures IsSubsequence(RemoveIds(rows, ids), rows)
  {
    FilterSubsequence(rows, (x: Row) => x.Id() !in ids);
  }

  /** The row with its status replaced. */
  function WithStatus(r: Row, status: Status): (u: Row)
    ensures u.schedule.status == status && u.building == r.building
    ensures u.schedule.(status := r.schedule.status) == r.schedule
  {
    r.(schedule := r.schedule.(status := status))
  }

  /** `i` is the index `findIndex(s => s.id === id)` returns. */
  predicate FirstWithId(rows: seq<Row>, id: int, i: int) {
    0 <= i < |rows| && rows[i].Id() == id && forall j :: 0 <= j < i ==> rows[j].Id() != id
  }

  /** `const i = list.findIndex(s => s.id === id); if (i !== -1)
      list[i].status = status`: only the first booking with that id
      changes. */
  function SetStatus(rows: seq<Row>, id: int, status: Status): (r: seq<Row>)
    ensures |r| == |rows|
    ensures forall i :: 0 <= i < |rows| ==> r[i].Id() == rows[i].Id()
    ensures (forall i :: 0 <= i < |rows| ==> rows[i].Id() != id) ==> r == rows
    ensures forall i :: FirstWithId(rows, id, i) ==> r == rows[i := WithStatus(rows[i], status)]
  {
    match FindIndex(rows, (x: Row) => x.Id() == id)
    case None => rows
    case Some(i) => rows[i := WithStatus(rows[i], status)]
  }

  /** `updates.forEach(u => ...)`: each returned status in turn. */
  function SetStatuses(rows: seq<Row>, updates: seq<(int, Status)>): (r: seq<Row>)
    ensures |r| == |rows|
    ensures forall i :: 0 <= i < |rows| ==> r[i].Id() == rows[i].Id()
    ensures forall i :: 0 <= i < |rows| && (forall u :: u in updates ==> u.0 != rows[i].Id()) ==> r[i] == rows[i]
    decreases |updates|
  {
    if updates == [] then rows
    else
      var r := SetStatuses(SetStatus(rows, updates[0].0, updates[0].1), updates[1..]);
      assert forall u :: u in updates[1..] ==> u in updates;
      r
  }

  /** `updates[k]` is the last update naming `id`. */
  predicate LastNaming(updates: seq<(int, Status)>, id: int, k: int) {
    0 <= k < |updates| && updates[k].0 == id && forall m :: k < m < |updates| ==> updates[m].0 != id
  }

  /** With unique ids, every booking an update names ends with the status
      of the last update naming it. */
  lemma SetStatusesLastWins(rows: seq<Row>, updates: seq<(int, Status)>, i: int, k: int)
    requires UniqueIds(rows) && 0 <= i < |rows|
    requires LastNaming(updates, rows[i].Id(), k)
    ensures SetStatuses(rows, updates)[i] == WithStatus(rows[i], updates[k].1)
    decreases |updates|
  {
    var once := SetStatus(rows, updates[0].0, updates[0].1);
    UniqueAfterSetStatus(rows, updates[0].0, updates[0].1);
    if k == 0 {
      assert once[i] == WithStatus(rows[i], updates[0].1);
      assert forall u :: u in updates[1..] ==> u.0 != rows[i].Id();
    } else {
      SetStatusesLastWins(once, updates[1..], i, k - 1);
      if updates[0].0 == rows[i].Id() {
        assert once[i] == WithStatus(rows[i], updates[0].1);
      } else {
        assert once[i] == rows[i];
      }
    }
  }

  lemma UniqueAfterSetStatus(rows: seq<Row>, id: int, status: Status)
    requires UniqueIds(rows)
    ensures UniqueIds(SetStatus(rows, id, status))
    ensures forall i :: 0 <= i < |rows| && rows[i].Id() == id ==> SetStatus(rows, id, status)[i] == WithStatus(rows[i], status)
    ensures forall i :: 0 <= i < |rows| && rows[i].Id() != id ==> SetStatus(rows, id, status)[i] == rows[i]
  {
  }

  /** A view list holds the very objects of the booking list, so the record
      changed in place changes there too: rows equal to `before` become `after`. */
  function Mirror(view: seq<Row>, before: Row, after: Row): (r: seq<Row>)
    ensures |r| == |view|
    ensures forall i :: 0 <= i < |view| ==> r[i] == if view[i] == before then after else view[i]
  {
    seq(|view|, i requires 0 <= i < |view| => if view[i] == before then after else view[i])
  }

  /** `updateStatus(schedule, newStatus)` once the server has answered with
      the booking `id` and its status: the booking list and, through the
      shared objects, the two view lists. */
  function ApplyStatus(t: Table, id: int, status: Status): (r: Table)
    ensures r.schedules == SetStatus(t.schedules, id, status)
    ensures r.searchTerm == t.searchTerm && r.sort == t.sort && r.currentPage == t.currentPage
    ensures r.itemsPerPage == t.itemsPerPage && r.totalPages == t.totalPages
    ensures |r.filtered| == |t.filtered| && |r.paginated| == |t.paginated|
    ensures forall k :: 0 <= k < |t.filtered| && t.filtered[k].Id() != id ==> r.filtered[k] == t.filtered[k]
    ensures forall k :: 0 <= k < |t.paginated| && t.paginated[k].Id() != id ==> r.paginated[k] == t.paginated[k]
  {
    match FindIndex(t.schedules, (x: Row) => x.Id() == id)
    case None => t
    case Some(i) =>
      var before := t.schedules[i];
      var after := WithStatus(before, status);
      t.(schedules := t.schedules[i := after],
         filtered := Mirror(t.filtered, before, after),
         paginated := Mirror(t.paginated, before, after))
  }

  /** When ids are unique and the view lists hold rows of the booking list,
      every view row with the id shows the new status. */
  lemma ApplyStatusShowsStatus(t: Table, id: int, status: Status)
    requires UniqueIds(t.schedules)
    requires forall x :: x in t.filtered ==> x in t.schedules
    requires forall x :: x in t.paginated ==> x in t.schedules
    ensures var r := ApplyStatus(t, id, status);
            forall k :: 0 <= k < |t.filtered| && t.filtered[k].Id() == id ==> r.filtered[k] == WithStatus(t.filtered[k], status)
    ensures var r := ApplyStatus(t, id, status);
            forall k :: 0 <= k < |t.paginated| && t.paginated[k].Id() == id ==> r.paginated[k] == WithStatus(t.paginated[k], status)
  {
    match FindIndex(t.schedules, (x: Row) => x.Id() == id)
    case None =>
      forall k | 0 <= k < |t.filtered|
        ensures t.filtered[k].Id() != id
      {
        assert t.filtered[k] in t.schedules;
      }
      forall k | 0 <= k < |t.paginated|
        ensures t.paginated[k].Id() != id
      {
        assert t.paginated[k] in t.schedules;
      }
    case Some(i) =>
      forall k | 0 <= k < |t.filtered| && t.filtered[k].Id() == id
        ensures t.filtered[k] == t.schedules[i]
      {
        assert t.filtered[k] in t.schedules;
        var j :| 0 <= j < |t.schedules| && t.schedules[j] == t.filtered[k];
        assert t.schedules[i].Id() == id;
      }
      forall k | 0 <= k < |t.paginated| && t.paginated[k].Id() == id
        ensures t.paginated[k] == t.schedules[i]
      {
        assert t.paginated[k] in t.schedules;
        var j :| 0 <= j < |t.schedules| && t.schedules[j] == t.paginated[k];
        assert t.schedules[i].Id() == id;
      }
  }

  /** `updateSelectAllState()`: the header box is ticked exactly when the
      page is non-empty and every row on it is selected. */
  function SelectAllState(flags: Selection.Flags, page: seq<Row>): (b: bool)
    ensures b <==> |page| > 0 && forall i :: 0 <= i < |page| ==> Selection.IsSelected(flags, page[i].Id())
  {
    if |page| == 0 then false else Selection.AllSelected(flags, Ids(page))
  }

  /** How a server call ended. */
  datatype Reply = Ok | Failed

  /** How a dialog ended: `close(value)` or a dismissal. */
  datatype ModalEnd = Closed(value: Js.Value) | Dismissed

  /** What the add dialog hands back: nothing, one booking, or several. */
  datatype Added = NoResult | One(schedule: Schedule) | Many(schedules: seq<Schedule>)

  /** The rows to append for the dialog's result, each with its building. */
  function AddedRows(rooms: seq<Room>, added: Added): (rows: seq<Row>)
    ensures added.NoResult? ==> rows == []
    ensures added.One? ==> rows == [WithBuilding(rooms, added.schedule)]
    ensures added.Many? ==> |rows| == |added.schedules|
    ensures added.Many? ==>
              forall i :: 0 <= i < |rows| ==>
                rows[i].schedule == added.schedules[i] && rows[i].building == BuildingOf(rooms, added.schedules[i].roomId)
  {
    match added
    case NoResult => []
    case One(x) => [WithBuilding(rooms, x)]
    case Many(xs) => WithBuildings(rooms, xs)
  }
}

=== FILE: text.dfy ===
/** The handful of JavaScript string and number conversions the components
    rely on: `String(n)`, `padStart(2, '0')`, `parseInt(s, 10)`, `Number(s)`,
    `split(c)`, `trim()`, `toLowerCase()`, `includes(t)` and the code-unit
    order used by the default `sort()`. Numbers are integers here; the
    components only ever convert integral values. */
module Text {
  import opened Wrappers

  // ---------------------------------------------------------------------------
  // Decimal digits
  // ---------------------------------------------------------------------------

  predicate IsDigit(c: char) {
    '0' <= c <= '9'
  }

  predicate AllDigits(s: string) {
    forall i :: 0 <= i < |s| ==> IsDigit(s[i])
  }

  function DigitChar(d: nat): (c: char)
    requires d < 10
    ensures IsDigit(c)
  {
    ('0' as int + d) as char
  }

  function DigitValue(c: char): (d: nat)
    requires IsDigit(c)
    ensures d < 10
  {
    c as int - '0' as int
  }

  /** The value of a run of decimal digits, most significant first. */
  function DigitsValue(s: string): nat
    requires AllDigits(s)
  {
    if s == [] then 0 else DigitsValue(s[..|s| - 1]) * 10 + DigitValue(s[|s| - 1])
  }

  /** `String(n)` for a non-negative integer: shortest decimal form. */
  function NatToString(n: nat): (s: string)
    ensures 1 <= |s|
    ensures AllDigits(s)
    ensures |s| > 1 ==> s[0] != '0'
    ensures n < 10 <==> |s| == 1
  {
    if n < 10 then [DigitChar(n)] else NatToString(n / 10) + [DigitChar(n % 10)]
  }

  /** `String(n)` for any integer. */
  function IntToString(n: int): string {
    if n < 0 then "-" + NatToString(-n) else NatToString(n)
  }

  lemma {:induction false} DigitsOfNatToString(n: nat)
    ensures DigitsValue(NatToString(n)) == n
  {
    var s := NatToString(n);
    if n >= 10 {
      DigitsOfNatToString(n / 10);
      assert s[..|s| - 1] == NatToString(n / 10);
    }
  }

  lemma {:induction false} LeadingZeroIgnored(s: string)
    requires AllDigits(s)
    ensures AllDigits("0" + s)
    ensures DigitsValue("0" + s) == DigitsValue(s)
  {
    if s != [] {
      assert ("0" + s)[..|"0" + s| - 1] == "0" + s[..|s| - 1];
      LeadingZeroIgnored(s[..|s| - 1]);
    }
  }

  /** `s.padStart(2, '0')`. */
  function PadStart2(s: string): (r: string)
    ensures |s| >= 2 ==> r == s
    ensures |s| < 2 ==> |r| == 2 && r[2 - |s|..] == s && forall i :: 0 <= i < 2 - |s| ==> r[i] == '0'
  {
    if |s| == 0 then "00" else if |s| == 1 then "0" + s else s
  }

  /** `String(n).padStart(2, '0')` read back: the two-digit form of 0..99 has
      value n, so any reader of leading digits recovers n. */
  lemma PaddedDigits(n: nat)
    requires n < 100
    ensures |PadStart2(NatToString(n))| == 2
    ensures AllDigits(PadStart2(NatToString(n)))
    ensures DigitsValue(PadStart2(NatToString(n))) == n
  {
    DigitsOfNatToString(n);
    if n < 10 {
      LeadingZeroIgnored(NatToString(n));
    }
  }

  // ---------------------------------------------------------------------------
  // White space, trim()
  // ---------------------------------------------------------------------------

  /** The characters `trim()` and `parseInt` skip: ECMAScript WhiteSpace and
      LineTerminator code points. */
  predicate IsJsSpace(c: char) {
    var k := c as int;
    k == 0x09 || k == 0x0A || k == 0x0B || k == 0x0C || k == 0x0D || k == 0x20
    || k == 0xA0 || k == 0x1680 || (0x2000 <= k <= 0x200A) || k == 0x2028
    || k == 0x2029 || k == 0x202F || k == 0x205F || k == 0x3000 || k == 0xFEFF
  }

  /** `!s || !s.trim()`: the string is empty or white space only. */
  predicate IsBlank(s: string) {
    forall i :: 0 <= i < |s| ==> IsJsSpace(s[i])
  }

  function TrimStart(s: string): (r: string)
    ensures |r| <= |s| && r == s[|s| - |r|..]
    ensures r == [] || !IsJsSpace(r[0])
    ensures IsBlank(s[..|s| - |r|])
  {
    if s != [] && IsJsSpace(s[0]) then TrimStart(s[1..]) else s
  }

  function TrimEnd(s: string): (r: string)
    ensures |r| <= |s| && r == s[..|r|]
    ensures r == [] || !IsJsSpace(r[|r| - 1])
    ensures IsBlank(s[|r|..])
  {
    if s != [] && IsJsSpace(s[|s| - 1]) then
      var r := TrimEnd(s[..|s| - 1]);
      assert s[|r|..] == s[..|s| - 1][|r|..] + [s[|s| - 1]];
      r
    else s
  }

  // ---------------------------------------------------------------------------
  // parseInt and Number
  // ---------------------------------------------------------------------------

  /** The longest prefix made of decimal digits. */
  function DigitPrefix(s: string): (d: string)
    ensures AllDigits(d) && |d| <= |s| && d == s[..|d|]
    ensures |d| < |s| ==> !IsDigit(s[|d|])
  {
    if s != [] && IsDigit(s[0]) then [s[0]] + DigitPrefix(s[1..]) else []
  }

  /** `parseInt(s, 10)`: leading white space, an optional sign, then the
      longest run of digits; `None` is NaN (no digit at all). */
  function ParseInt(s: string): Option<int> {
    var t := TrimStart(s);
    var body := if t != [] && (t[0] == '-' || t[0] == '+') then t[1..] else t;
    var d := DigitPrefix(body);
    if d == [] then None
    else if t[0] == '-' then Some(-(DigitsValue(d) as int))
    else Some(DigitsValue(d))
  }

  /** `Number(s)` for the integer literals the components produce: surrounding
      white space is ignored, the empty string is 0, an optional sign followed
      by digits is their value, anything else is NaN (`None`). */
  function ToNumber(s: string): Option<int> {
    var t := TrimEnd(TrimStart(s));
    if t == [] then Some(0)
    else
      var body := if t[0] == '-' || t[0] == '+' then t[1..] else t;
      if body == [] || !AllDigits(body) then None
      else if t[0] == '-' then Some(-(DigitsValue(body) as int))
      else Some(DigitsValue(body))
  }

  lemma {:induction false} DigitPrefixOfDigits(d: string, rest: string)
    requires AllDigits(d)
    requires rest == [] || !IsDigit(rest[0])
    ensures DigitPrefix(d + rest) == d
  {
    if d != [] {
      assert (d + rest)[1..] == d[1..] + rest;
      DigitPrefixOfDigits(d[1..], rest);
    }
  }

  /** Reading a digit run that is followed by a non-digit gives its value. */
  lemma ParseIntOfDigits(d: string, rest: string)
    requires d != [] && AllDigits(d)
    requires rest == [] || !IsDigit(rest[0])
    ensures ParseInt(d + rest) == Some(DigitsValue(d))
  {
    var s := d + rest;
    assert IsDigit(s[0]) by { assert s[0] == d[0]; }
    ParseIntUnsigned(s);
    DigitPrefixOfDigits(d, rest);
  }

  /** Text starting with a digit reads as its leading digit run. */
  lemma ParseIntUnsigned(s: string)
    requires s != [] && IsDigit(s[0])
    ensures ParseInt(s) == Some(DigitsValue(DigitPrefix(s)))
  {
    assert !IsJsSpace(s[0]) && s[0] != '-' && s[0] != '+';
    assert TrimStart(s) == s;
    assert DigitPrefix(s) != [];
  }

  lemma ToNumberOfDigits(d: string)
    requires d != [] && AllDigits(d)
    ensures ToNumber(d) == Some(DigitsValue(d))
  {
    assert !IsJsSpace(d[0]) && !IsJsSpace(d[|d| - 1]);
    assert TrimStart(d) == d;
    assert TrimEnd(d) == d;
  }

  // ---------------------------------------------------------------------------
  // split
  // ---------------------------------------------------------------------------

  /** Re-joins the pieces of a split, `parts.join(sep)`. */
  function Join(parts: seq<string>, sep: char): string {
    if parts == [] then "" else if |parts| == 1 then parts[0] else parts[0] + [sep] + Join(parts[1..], sep)
  }

  /** `s.split(sep)` for a one-character separator: every piece, empty ones
      included, in order. */
  function Split(s: string, sep: char): (parts: seq<string>)
    ensures |parts| >= 1
    ensures forall i :: 0 <= i < |parts| ==> sep !in parts[i]
  {
    if s == [] then [""]
    else
      var rest := Split(s[1..], sep);
      if s[0] == sep then [""] + rest
      else [[s[0]] + rest[0]] + rest[1..]
  }

  /** Joining the pieces with the separator gives the string back. */
  lemma {:induction false} SplitJoin(s: string, sep: char)
    ensures Join(Split(s, sep), sep) == s
  {
    if s != [] {
      SplitJoin(s[1..], sep);
      var rest := Split(s[1..], sep);
      if s[0] != sep {
        assert s == [s[0]] + s[1..];
      }
    }
  }

  lemma {:induction false} SplitNoSeparator(a: string, sep: char)
    requires sep !in a
    ensures Split(a, sep) == [a]
  {
    if a != [] {
      SplitNoSeparator(a[1..], sep);
      assert [a[0]] + a[1..] == a;
    }
  }

  lemma {:induction false} SplitAtSeparator(a: string, sep: char, b: string)
    requires sep !in a
    ensures Split(a + [sep] + b, sep) == [a] + Split(b, sep)
  {
    if a == [] {
      assert a + [sep] + b == [sep] + b;
    } else {
      var s := a + [sep] + b;
      assert s[0] == a[0] && s[1..] == a[1..] + [sep] + b;
      SplitAtSeparator(a[1..], sep, b);
      assert [a[0]] + a[1..] == a;
    }
  }

  lemma SplitPair(a: string, sep: char, b: string)
    requires sep !in a && sep !in b
    ensures Split(a + [sep] + b, sep) == [a, b]
  {
    SplitNoSeparator(b, sep);
    SplitAtSeparator(a, sep, b);
  }

  lemma SplitTriple(a: string, sep: char, b: string, c: string)
    requires sep !in a && sep !in b && sep !in c
    ensures Split(a + [sep] + b + [sep] + c, sep) == [a, b, c]
  {
    SplitPair(b, sep, c);
    SplitAtSeparator(a, sep, b + [sep] + c);
    assert a + [sep] + b + [sep] + c == a + [sep] + (b + [sep] + c);
  }

  // ---------------------------------------------------------------------------
  // toLowerCase, includes
  // ---------------------------------------------------------------------------

  function ToLowerChar(c: char): char {
    if 'A' <= c <= 'Z' then (c as int + 32) as char else c
  }

  /** `s.toLowerCase()` on the basic Latin letters. */
  function ToLower(s: string): (r: string)
    ensures |r| == |s|
    ensures forall i :: 0 <= i < |s| ==> r[i] == ToLowerChar(s[i])
  {
    seq(|s|, i requires 0 <= i < |s| => ToLowerChar(s[i]))
  }

  /** `t` occurs in `s` at position `i`. */
  ghost predicate OccursAt(s: string, t: string, i: int) {
    0 <= i && i + |t| <= |s| && s[i..i + |t|] == t
  }

  /** `s.includes(t)`. */
  predicate Includes(s: string, t: string)
    ensures Includes(s, t) <==> exists i :: OccursAt(s, t, i)
  {
    if |t| <= |s| && s[..|t|] == t then
      assert OccursAt(s, t, 0);
      true
    else if s == [] then
      false
    else
      var r := Includes(s[1..], t);
      assert forall i :: OccursAt(s[1..], t, i) ==> OccursAt(s, t, i + 1);
      assert forall i :: OccursAt(s, t, i) && i > 0 ==> OccursAt(s[1..], t, i - 1);
      r
  }

  // ---------------------------------------------------------------------------
  // Code-unit order of strings
  // ---------------------------------------------------------------------------

  /** `a < b` on strings: lexicographic by code unit, a proper prefix first.
      This is the order of the default `sort()`; `localeCompare` is modelled
      by it too. */
  predicate StrLess(a: string, b: string) {
    if a == [] then b != []
    else if b == [] then false
    else if a[0] != b[0] then a[0] < b[0]
    else StrLess(a[1..], b[1..])
  }

  lemma {:induction false} StrLessIrreflexive(a: string)
    ensures !StrLess(a, a)
  {
    if a != [] {
      StrLessIrreflexive(a[1..]);
    }
  }

  lemma {:induction false} StrLessTransitive(a: string, b: string, c: string)
    requires StrLess(a, b) && StrLess(b, c)
    ensures StrLess(a, c)
  {
    if a != [] && b != [] && c != [] && a[0] == b[0] && b[0] == c[0] {
      StrLessTransitive(a[1..], b[1..], c[1..]);
    }
  }

  lemma {:induction false} StrLessTotal(a: string, b: string)
    requires a != b
    ensures StrLess(a, b) || StrLess(b, a)
  {
    if a != [] && b != [] && a[0] == b[0] {
      assert a == [a[0]] + a[1..] && b == [b[0]] + b[1..];
      StrLessTotal(a[1..], b[1..]);
    }
  }

  lemma {:induction false} StrLessAsymmetric(a: string, b: string)
    requires StrLess(a, b)
    ensures !StrLess(b, a)
  {
    if StrLess(b, a) {
      StrLessTransitive(a, b, a);
      StrLessIrreflexive(a);
    }
  }
}

=== FILE: timeformat.dfy ===
/** The time-of-day conversions shared by the booking form, the list views
    and the occupancy grid:
    - `formatTimeTo12Hour` (utils/timeFormatter.ts): "14:30:00" to "2:30 PM";
    - `formatTime` (add-schedule): form input to the stored "HH:MM:00";
    - `parseTimeSlot` (statistics): a 12-hour label back to hour and minute;
    - the time-of-day reading `new Date(date + 'T' + time)` performs on the
      stored "HH:MM:SS" text, as seconds since midnight. */
module TimeFormat {
  import opened Wrappers
  import opened Text

  // ---------------------------------------------------------------------------
  // formatTimeTo12Hour
  // ---------------------------------------------------------------------------

  /** JavaScript's `%`: the remainder takes the sign of the dividend. */
  function JsRem(a: int, b: int): int
    requires b > 0
  {
    if a >= 0 then a % b else -((-a) % b)
  }

  /** `hoursNum % 12 || 12`; NaN is falsy, so an unreadable hour shows as 12. */
  function DisplayHour(hoursNum: Option<int>): int {
    match hoursNum
    case None => 12
    case Some(n) => if JsRem(n, 12) == 0 then 12 else JsRem(n, 12)
  }

  /** `formatTimeTo12Hour(time)`. The minutes text is whatever lies between
      the first and second colon, copied as is (`undefined` when there is no
      colon); anything after the second colon is dropped. */
  function FormatTimeTo12Hour(time: string): (r: string)
    ensures time == "" <==> r == ""
  {
    if time == "" then "" else Format12(Split(time, ':'))
  }

  /** The label built from the colon-separated pieces of the time. */
  function Format12(parts: seq<string>): (r: string)
    requires |parts| >= 1
    ensures r != ""
  {
    var hoursNum := ParseInt(parts[0]);
    var minutes := if |parts| > 1 then parts[1] else "undefined";
    var period := if hoursNum.Some? && hoursNum.value >= 12 then "PM" else "AM";
    IntToString(DisplayHour(hoursNum)) + ":" + minutes + " " + period
  }

  /** Splitting "hh:mm<rest>" at colons, where `rest` is empty or starts a
      further colon piece, gives `hh` and `mm` as the first two pieces. */
  lemma SplitClock(hh: string, mm: string, rest: string)
    requires ':' !in hh && ':' !in mm
    requires rest == [] || rest[0] == ':'
    ensures var parts := Split(hh + ":" + mm + rest, ':');
            |parts| >= 2 && parts[0] == hh && parts[1] == mm
  {
    if rest == [] {
      SplitPair(hh, ':', mm);
      assert hh + ":" + mm + rest == hh + [':'] + mm;
    } else {
      SplitAtSeparator(mm, ':', rest[1..]);
      assert mm + rest == mm + [':'] + rest[1..];
      SplitAtSeparator(hh, ':', mm + rest);
      assert hh + ":" + mm + rest == hh + [':'] + (mm + rest);
    }
  }

  /** The label built from pieces whose first reads as an hour in 0..23. */
  lemma Format12Of(parts: seq<string>, h: int)
    requires |parts| >= 2 && ParseInt(parts[0]) == Some(h) && 0 <= h < 24
    ensures Format12(parts) == NatToString(Hour12(h)) + ":" + parts[1] + " " + Period(h)
  {
  }

  /** The hour of a 24-hour clock on a 12-hour face. */
  function Hour12(h: int): (d: nat)
    requires 0 <= h < 24
    ensures 1 <= d <= 12 && d % 12 == h % 12
  {
    if h % 12 == 0 then 12 else h % 12
  }

  function Period(h: int): (p: string)
    ensures p == "PM" <==> h >= 12
    ensures p == "AM" <==> h < 12
  {
    if h >= 12 then "PM" else "AM"
  }

  /** The label of a time of day whose hour reads as `h` (0..23) and whose
      minutes text is `mm`: the hour is shown in 1..12 without a leading zero
      and congruent to `h` modulo 12, the period is PM exactly from noon on,
      the minutes are copied and whatever follows them is dropped. */
  lemma FormatTimeTo12HourShape(hh: string, mm: string, rest: string)
    requires hh != [] && AllDigits(hh) && DigitsValue(hh) < 24
    requires ':' !in mm
    requires rest == [] || rest[0] == ':'
    ensures FormatTimeTo12Hour(hh + ":" + mm + rest)
         == NatToString(Hour12(DigitsValue(hh))) + ":" + mm + " " + Period(DigitsValue(hh))
  {
    var h := DigitsValue(hh);
    DigitsHaveNo(hh, ':');
    SplitClock(hh, mm, rest);
    var parts := Split(hh + ":" + mm + rest, ':');
    ParseIntOfDigits(hh, []);
    assert hh + [] == hh;
    Format12Of(parts, h);
  }

  lemma DigitsHaveNo(d: string, c: char)
    requires AllDigits(d) && !IsDigit(c)
    ensures c !in d
  {
  }

  /** The first example of the function's documentation: a morning time. */
  lemma FormatTimeTo12HourMorning()
    ensures FormatTimeTo12Hour("09:00:00") == "9:00 AM"
  {
    assert NatToString(Hour12(9)) + ":" + "00" + " " + Period(9) == "9:00 AM" by {
      assert NatToString(9) == "9";
    }
    LabelOf("09:00:00", "09", "00", 9, "9:00 AM");
  }

  /** The second example: an afternoon time. */
  lemma FormatTimeTo12HourAfternoon()
    ensures FormatTimeTo12Hour("14:30:00") == "2:30 PM"
  {
    assert NatToString(Hour12(14)) + ":" + "30" + " " + Period(14) == "2:30 PM" by {
      assert NatToString(2) == "2";
    }
    LabelOf("14:30:00", "14", "30", 14, "2:30 PM");
  }

  /** A stored "hh:mm:00" time with a two-digit hour `h` shows as `label`. */
  lemma LabelOf(t: string, hh: string, mm: string, h: nat, label12: string)
    requires |hh| == 2 && AllDigits(hh) && h == (hh[0] as int - '0' as int) * 10 + (hh[1] as int - '0' as int) < 24
    requires ':' !in mm && t == hh + ":" + mm + ":00"
    requires label12 == NatToString(Hour12(h)) + ":" + mm + " " + Period(h)
    ensures FormatTimeTo12Hour(t) == label12
  {
    assert DigitsValue(hh[..1]) == DigitValue(hh[0]) by {
      assert hh[..1][..0] == [];
    }
    assert DigitsValue(hh) == h;
    FormatTimeTo12HourShape(hh, mm, ":00");
  }

  /** An hour that is not a number (NaN) is shown as 12 AM. */
  lemma FormatTimeTo12HourNaN(mm: string)
    requires ':' !in mm
    ensures FormatTimeTo12Hour("xx:" + mm) == "12:" + mm + " AM"
  {
    SplitClock("xx", mm, []);
    assert "xx:" + mm == "xx" + ":" + mm + [];
    Format12NaN(Split("xx:" + mm, ':'));
  }

  /** Pieces whose first is "xx" give the 12 AM label. */
  lemma Format12NaN(parts: seq<string>)
    requires |parts| >= 2 && parts[0] == "xx"
    ensures Format12(parts) == "12:" + parts[1] + " AM"
  {
    NotANumber();
    TwelveText();
  }

  lemma NotANumber()
    ensures ParseInt("xx") == None
  {
    var x := "xx";
    assert x != [] && x[0] == 'x';
    ParseIntOfLetter(x);
  }

  /** Text starting with a letter has no number in front. */
  lemma ParseIntOfLetter(s: string)
    requires s != [] && 'a' <= s[0] <= 'z'
    ensures ParseInt(s) == None
  {
    assert !IsJsSpace(s[0]) && s[0] != '-' && s[0] != '+' && !IsDigit(s[0]);
    assert TrimStart(s) == s;
    assert DigitPrefix(s) == [];
  }

  lemma TwelveText()
    ensures IntToString(12) == "12"
  {
    assert NatToString(1) == "1" && NatToString(2) == "2";
  }

  // ---------------------------------------------------------------------------
  // parseTimeSlot
  // ---------------------------------------------------------------------------

  /** Hour and minute handed to `new Date(y, m, d, hours, minutes)`. */
  datatype ClockTime = ClockTime(hour: int, minute: int) {
    /** Seconds after the selected day's midnight; `new Date` rolls hours past
        23 over into the following days the same way. */
    function Seconds(): int {
      hour * 3600 + minute * 60
    }
  }

  /** `parseTimeSlot(timeString, dateString)` without the date: the label is
      split at the space into time and meridian, the time at the colon into
      numbers; PM adds 12 unless the hour is 12, 12 AM becomes 0. `None` is an
      Invalid Date (an unreadable number or a missing minutes part). */
  function ParseTimeSlot(timeString: string): Option<ClockTime> {
    var parts := Split(timeString, ' ');
    ReadClock(Split(parts[0], ':'), if |parts| > 1 then Some(parts[1]) else None)
  }

  /** The numbers of the colon-separated time, adjusted by the meridian. */
  function ReadClock(nums: seq<string>, meridian: Option<string>): Option<ClockTime>
    requires |nums| >= 1
  {
    var hours := ToNumber(nums[0]);
    var minutes := if |nums| > 1 then ToNumber(nums[1]) else None;
    if hours.None? || minutes.None? then None
    else Some(ClockTime(To24Hour(hours.value, meridian), minutes.value))
  }

  /** `if (meridian === 'PM' && hours !== 12) hours += 12;
      if (meridian === 'AM' && hours === 12) hours = 0;` */
  function To24Hour(h: int, meridian: Option<string>): int {
    if meridian == Some("PM") && h != 12 then h + 12
    else if meridian == Some("AM") && h == 12 then 0
    else h
  }

  /** A label "h:mm AM" / "h:mm PM" reads back as: 12 AM is hour 0, 12 PM
      stays 12, any other PM hour gains 12, AM hours are kept; the minutes are
      kept. */
  lemma ParseTimeSlotLabel(h: nat, mm: string, period: string)
    requires mm != [] && AllDigits(mm)
    requires period == "AM" || period == "PM"
    ensures ParseTimeSlot(NatToString(h) + ":" + mm + " " + period)
         == Some(ClockTime(
              if period == "PM" && h != 12 then h + 12
              else if period == "AM" && h == 12 then 0
              else h,
              DigitsValue(mm)))
  {
    var hs := NatToString(h);
    assert ParseTimeSlot(hs + ":" + mm + " " + period)
        == Some(ClockTime(To24Hour(h, Some(period)), DigitsValue(mm))) by {
      DigitsOfNatToString(h);
      ParseDigitsLabel(hs, mm, period);
    }
    To24HourOfPeriod(h, period);
  }

  lemma To24HourOfPeriod(h: int, period: string)
    ensures To24Hour(h, Some(period))
         == if period == "PM" && h != 12 then h + 12 else if period == "AM" && h == 12 then 0 else h
  {
  }

  /** `ParseTimeSlotLabel` for any digit run as the hour. */
  lemma ParseDigitsLabel(hs: string, mm: string, period: string)
    requires hs != [] && AllDigits(hs) && mm != [] && AllDigits(mm)
    requires period == "AM" || period == "PM"
    ensures ParseTimeSlot(hs + ":" + mm + " " + period)
         == Some(ClockTime(To24Hour(DigitsValue(hs), Some(period)), DigitsValue(mm)))
  {
    SplitLabel(hs, mm, period);
    ToNumberOfDigits(hs);
    ToNumberOfDigits(mm);
  }

  lemma SplitLabel(hs: string, mm: string, period: string)
    requires AllDigits(hs) && AllDigits(mm)
    requires period == "AM" || period == "PM"
    ensures Split(hs + ":" + mm + " " + period, ' ') == [hs + ":" + mm, period]
    ensures Split(hs + ":" + mm, ':') == [hs, mm]
  {
    var clock := hs + ":" + mm;
    DigitsHaveNo(hs, ' ');
    DigitsHaveNo(mm, ' ');
    DigitsHaveNo(hs, ':');
    DigitsHaveNo(mm, ':');
    assert ' ' !in clock;
    assert ' ' !in period;
    SplitPair(clock, ' ', period);
    assert clock + " " + period == clock + [' '] + period;
    SplitPair(hs, ':', mm);
    assert clock == hs + [':'] + mm;
  }

  // ---------------------------------------------------------------------------
  // formatTime (add-schedule)
  // ---------------------------------------------------------------------------

  /** The two shapes a time control may hold: the "HH:MM" text of a native
      time input or the `{hour, minute}` object of a time picker. */
  datatype TimeInput = TimeText(text: string) | TimeStruct(hour: int, minute: int)

  /** `n.toString().padStart(2, '0')`, NaN printing as "NaN". */
  function Pad2(n: Option<int>): string {
    match n
    case None => "NaN"
    case Some(v) => PadStart2(IntToString(v))
  }

  /** `formatTime(time)`: the hour and minutes (read with `parseInt` from
      text) printed zero-padded with ":00" seconds. */
  function FormatTime(time: TimeInput): string {
    match time
    case TimeText(s) =>
      var parts := Split(s, ':');
      Stored(ParseInt(parts[0]), if |parts| > 1 then ParseInt(parts[1]) else None)
    case TimeStruct(h, m) =>
      Stored(Some(h), Some(m))
  }

  /** The stored "HH:MM:00" text of an hour and a minute. */
  function Stored(h: Option<int>, m: Option<int>): string {
    Pad2(h) + ":" + Pad2(m) + ":00"
  }

  /** Two-digit text of 0..99. */
  function TwoDigits(n: nat): (s: string)
    requires n < 100
    ensures |s| == 2 && AllDigits(s) && DigitsValue(s) == n
  {
    PaddedDigits(n);
    PadStart2(NatToString(n))
  }

  /** For hour and minute in 0..99 the stored form is "HH:MM:00": two digits,
      a colon, two digits, ":00". */
  lemma FormatTimeShape(h: nat, m: nat)
    requires h < 100 && m < 100
    ensures FormatTime(TimeStruct(h, m)) == TwoDigits(h) + ":" + TwoDigits(m) + ":00"
    ensures |FormatTime(TimeStruct(h, m))| == 8
  {
  }

  /** The text form "H:M" and the `{hour, minute}` form agree for the same
      numbers, padded or not. */
  lemma FormatTimeFormsAgree(h: nat, m: nat)
    ensures FormatTime(TimeText(NatToString(h) + ":" + NatToString(m))) == FormatTime(TimeStruct(h, m))
    ensures h < 100 && m < 100 ==>
      FormatTime(TimeText(TwoDigits(h) + ":" + TwoDigits(m))) == FormatTime(TimeStruct(h, m))
  {
    DigitsOfNatToString(h);
    DigitsOfNatToString(m);
    ReadTwoNumbers(NatToString(h), NatToString(m), []);
    assert NatToString(h) + ":" + NatToString(m) + [] == NatToString(h) + ":" + NatToString(m);
    if h < 100 && m < 100 {
      ReadTwoNumbers(TwoDigits(h), TwoDigits(m), []);
      assert TwoDigits(h) + ":" + TwoDigits(m) + [] == TwoDigits(h) + ":" + TwoDigits(m);
    }
  }

  /** Normalising an already normalised time changes nothing. */
  lemma FormatTimeIdempotent(h: nat, m: nat)
    requires h < 100 && m < 100
    ensures FormatTime(TimeText(FormatTime(TimeStruct(h, m)))) == FormatTime(TimeStruct(h, m))
  {
    FormatTimeShape(h, m);
    ReadTwoNumbers(TwoDigits(h), TwoDigits(m), ":00");
  }

  /** Splitting "hh:mm<rest>" at colons and reading the first two pieces with
      `parseInt` yields the two digit runs' values. */
  lemma ReadTwoNumbers(hh: string, mm: string, rest: string)
    requires hh != [] && AllDigits(hh) && mm != [] && AllDigits(mm)
    requires rest == [] || rest[0] == ':'
    ensures FormatTime(TimeText(hh + ":" + mm + rest)) == Stored(Some(DigitsValue(hh)), Some(DigitsValue(mm)))
  {
    DigitsHaveNo(hh, ':');
    DigitsHaveNo(mm, ':');
    SplitClock(hh, mm, rest);
    ParseIntOfDigits(hh, []);
    ParseIntOfDigits(mm, []);
    assert hh + [] == hh && mm + [] == mm;
  }

  // ---------------------------------------------------------------------------
  // Stored "HH:MM:SS" as a time of day
  // ---------------------------------------------------------------------------

  predicate IsTwoDigits(s: string) {
    |s| == 2 && AllDigits(s)
  }

  /** The time of day, in seconds after midnight, of the ISO local date-time
      `date + 'T' + time` built for a stored booking: "HH:MM" or "HH:MM:SS"
      with two-digit fields, hours up to 23 (24:00 is the end of the day),
      minutes and seconds up to 59. `None` makes the date-time Invalid. */
  function ClockOf(time: string): Option<int> {
    ClockOfParts(Split(time, ':'))
  }

  /** `ClockOf` once the text is split at its colons. */
  function ClockOfParts(parts: seq<string>): Option<int> {
    if !(|parts| == 2 || |parts| == 3) then None
    else if !(forall i :: 0 <= i < |parts| ==> IsTwoDigits(parts[i])) then None
    else SecondsOf(DigitsValue(parts[0]), DigitsValue(parts[1]), if |parts| == 3 then DigitsValue(parts[2]) else 0)
  }

  /** The seconds into the day of an hour, minute and second read off a
      stored time, when they name a time of day. */
  function SecondsOf(h: int, m: int, s: int): Option<int> {
    if m > 59 || s > 59 then None
    else if h < 24 then Some(h * 3600 + m * 60 + s)
    else if h == 24 && m == 0 && s == 0 then Some(86400)
    else None
  }

  /** A time of three two-digit fields is read field by field. */
  lemma ClockOfFields(time: string, hh: string, mm: string, ss: string)
    requires Split(time, ':') == [hh, mm, ss]
    requires IsTwoDigits(hh) && IsTwoDigits(mm) && IsTwoDigits(ss)
    ensures ClockOf(time) == SecondsOf(DigitsValue(hh), DigitsValue(mm), DigitsValue(ss))
  {
    var parts := [hh, mm, ss];
    assert forall i :: 0 <= i < |parts| ==> IsTwoDigits(parts[i]);
  }

  /** The time a booking is stored with is read back as the same time of day. */
  lemma ClockOfFormatTime(h: nat, m: nat)
    requires h < 24 && m < 60
    ensures ClockOf(FormatTime(TimeStruct(h, m))) == Some(h * 3600 + m * 60)
  {
    var hh, mm := TwoDigits(h), TwoDigits(m);
    var t := FormatTime(TimeStruct(h, m));
    assert Split(t, ':') == [hh, mm, "00"] by {
      FormatTimeShape(h, m);
      DigitsHaveNo(hh, ':');
      DigitsHaveNo(mm, ':');
      SplitTriple(hh, ':', mm, "00");
      StoredColons(hh, mm);
    }
    DoubleZero();
    ClockOfFields(t, hh, mm, "00");
  }

  /** A stored time is its two fields and "00" joined by colons. */
  lemma StoredColons(hh: string, mm: string)
    ensures hh + ":" + mm + ":00" == hh + [':'] + mm + [':'] + "00"
  {
    assert ":00" == [':'] + "00";
  }

  /** The seconds field every stored time ends with reads as zero. */
  lemma DoubleZero()
    ensures IsTwoDigits("00") && DigitsValue("00") == 0
  {
    assert "00"[..1] == "0" && "0"[..0] == [];
  }

  // ---------------------------------------------------------------------------
  // Round trip
  // ---------------------------------------------------------------------------

  /** The 12-hour face and the meridian together give back the 24-hour hour. */
  lemma To24HourOf12(h: int)
    requires 0 <= h < 24
    ensures To24Hour(Hour12(h), Some(Period(h))) == h
  {
  }

  /** A time of day stored by the form, shown as a 12-hour label and parsed
      back by the grid, is the original hour and minute. */
  lemma RoundTrip(h: nat, m: nat)
    requires h < 24 && m < 60
    ensures ParseTimeSlot(FormatTimeTo12Hour(FormatTime(TimeStruct(h, m)))) == Some(ClockTime(h, m))
  {
    FormatTimeShape(h, m);
    var hh, mm := TwoDigits(h), TwoDigits(m);
    assert FormatTime(TimeStruct(h, m)) == hh + ":" + mm + ":00";
    DigitsHaveNo(mm, ':');
    FormatTimeTo12HourShape(hh, mm, ":00");
    ParseDigitsLabel(NatToString(Hour12(h)), mm, Period(h));
    DigitsOfNatToString(Hour12(h));
    To24HourOf12(h);
  }
}

=== FILE: wrappers.dfy ===
/** Optional values: `None` stands for JavaScript's `null`/`undefined` or for a
    lookup that found nothing (`find` returning `undefined`, `findIndex`
    returning -1, a number that parsed to NaN). */
module Wrappers {

  datatype Option<+T> = None | Some(value: T) {

    /** The wrapped value, or `default` when there is none (JavaScript's `x || d`
        on an object-or-undefined value). */
    function GetOr(default: T): T {
      match this
      case Some(v) => v
      case None => default
    }
  }
}
